=== FILE: README.md ===
# Pollvo importers and AVD reconciliation, modelled in Dafny

Pollvo loads the Brazilian transmission-tariff (TUST) paperwork of an energy
company into a SQLite database and checks it:

- an AVD (*aviso de débito*, the monthly debit note) arrives as an XLSX
  spreadsheet. `scripts/import_avd_excel.py` reads it with a small
  SpreadsheetML reader of its own, decodes the header block (rows 1–5) and one
  item per transmitter (rows below 5), and stores one header row and its item
  rows;
- `scripts/import_avd_batch.py` imports one AVD at a time, skipping an AVD
  number already stored or, on request, deleting and re-importing it;
- `scripts/import_transmissoras_xls.py` reads the transmitter register (XLS),
  recognises its header row through a table of spellings, and upserts one
  transmitter per row, keyed by ONS code;
- `app/parsers/nfe.py` reads an NF-e electronic invoice (XML);
- `app/validators/avd.py` checks a batch of invoices against the AVD item of
  the transmitter that issued them and saves the invoices.

The model has one module per source file, plus shared modules for the Python
library behaviour the code relies on:

| file | module | models |
|---|---|---|
| results.dfy | Results | Option, Result and the exceptions the code raises, as one Failure type |
| text.dfy | Text | str.strip, str.lower, NFKD accent removal, split, replace, find, int() |
| decimals.dfy | Decimals | decimal.Decimal: parsing, exact addition, comparison by value, str() and format(d, "f") |
| dates.dfy | Dates | datetime: day arithmetic, strptime("%d/%m/%Y" and "%Y-%m-%d"), fromisoformat, isoformat |
| xml.dfy | Xml | an ElementTree element and the find/findall/iterfind paths used |
| workbook.dfy | Workbook | _parse_shared_strings and _parse_sheet (loops, as methods) |
| avd_template.dfy | AvdTemplate | the decoders of import_avd_excel.py and parse_avd |
| avd_import.dfy | AvdImport | import_avd and import_single_avd over a class holding the two AVD tables |
| nfe.dfy | Nfe | parse_nfe_file |
| reconciliation.dfy | Reconciliation | avd.py: the three lookups, _persist_notas_fiscais, _avaliar_divergencia, conciliar_notas_com_avd |
| transmitters.dfy | Transmitters | the transmitter register import, with the registry as a class |

Code that only computes is written as functions. Code that loops or changes
stored rows is written as methods:

- `ParseSharedStrings`, `ParseRowCells`, `ParseSheet`, `ParseAvd` and
  `ExtractHeaderIndexes` hold the source's loops;
- `AvdDatabase`, `NfStore` and `TransmitterRegistry` are classes whose fields
  are the tables a SQLAlchemy session changes.

Each method's `ensures` ties its result and its new state to a function of
its inputs and its old state, and the lemmas state what the source promises
about those functions.

## Model

| member | source | states |
|---|---|---|
| Text.TrimStart | app/parsers/nfe.py:39 | strip() from the left: the result is a suffix, starts with a non-blank, and every dropped character is whitespace |
| Text.TrimEnd | app/parsers/nfe.py:39 | strip() from the right: the result is a prefix, ends with a non-blank, and every dropped character is whitespace |
| Text.Trim | app/parsers/nfe.py:39 | strip(): no longer than the input, and neither end is whitespace |
| Text.TrimNoSpace | app/parsers/nfe.py:39 | strip() leaves a text without whitespace unchanged |
| Text.NatToString | scripts/import_transmissoras_xls.py:151 | str() of a non-negative int is a non-empty digit string with no leading zero |
| Text.NatToStringRoundTrip | scripts/import_transmissoras_xls.py:151 | the digits str() writes for n read back as n |
| Text.FixedDigits | scripts/import_avd_excel.py:116 | a zero-padded field of the requested width, all digits |
| Text.FixedDigitsRoundTrip | scripts/import_avd_excel.py:116 | a zero-padded field reads back as the number written into it |
| Text.RemoveChar | scripts/import_transmissoras_xls.py:132-135 | replace(c, ""): no c is left, nothing new appears, and a text without c is unchanged |
| Text.DigitGroupsDigits | scripts/import_avd_excel.py:180 | int() accepts '_' only between digits; once removed, only digits remain |
| Text.ParseIntOfDigits | scripts/import_avd_excel.py:106 | int() of a digit string is its decimal value |
| Text.ParseIntOfNat | scripts/import_avd_excel.py:180 | int(str(n)) == n for every non-negative n |
| Text.ParseIntNegative | scripts/import_avd_excel.py:180 | int() of '-' followed by digits is the negated value |
| Text.ParseIntOfInt | scripts/import_avd_excel.py:180 | int(str(i)) == i for every integer |
| Text.Lower | scripts/import_transmissoras_xls.py:79 | lower() maps each character and keeps the length |
| Text.StripAccents | scripts/import_transmissoras_xls.py:77-81 | dropping combining marks after NFKD leaves no combining mark and no accented letter |
| Text.StripAccentsCons | scripts/import_avd_excel.py:126-128 | accent removal works character by character: a letter becomes its base letter, a combining mark disappears |
| Text.StripAccentsPlain | scripts/import_avd_excel.py:126-128 | accent removal leaves plain lower-case ASCII unchanged |
| Text.MapChar | scripts/import_transmissoras_xls.py:82 | replace(" ", "_"): each occurrence of the character is replaced and everything else kept |
| Text.ReplaceChar | app/parsers/nfe.py:45 | replace(",", "."): a text without ',' is unchanged and no ',' is left when the replacement has none |
| Text.Split | scripts/import_avd_excel.py:103 | split(sep) gives at least one part and no part contains sep |
| Text.SplitCount | scripts/import_avd_excel.py:103 | split(sep) gives one more part than there are separators |
| Text.JoinSplit | scripts/import_avd_excel.py:103 | joining the parts of split(sep) with sep gives the text back |
| Text.SplitJoin | scripts/import_avd_excel.py:103 | split(sep) of parts joined with sep gives the parts back when no part contains sep |
| Text.SplitAppend | scripts/import_avd_excel.py:103 | split(sep) of a + sep + b is a followed by the parts of b |
| Text.SplitNoSep | scripts/import_avd_excel.py:103 | a text without the separator splits into itself alone |
| Text.IndexOfFrom | scripts/import_avd_excel.py:113 | the first occurrence of a pattern at or after a position, or none at all |
| Text.IndexOf | scripts/import_avd_excel.py:113 | find(): the first occurrence of the pattern, or none at all |
| Text.Letters | scripts/import_avd_excel.py:76 | filter(str.isalpha): only letters are kept |
| Text.LettersAppend | scripts/import_avd_excel.py:76 | the letter filter distributes over concatenation, so every letter is kept, in order |
| Text.LettersOfLetters | scripts/import_avd_excel.py:76 | a text of letters only is kept whole |
| Text.LettersOfNone | scripts/import_avd_excel.py:76 | a text without letters gives "" |
| Text.CellReferenceColumn | scripts/import_avd_excel.py:76 | the column key of a cell reference like "AB12" is its letters "AB" |
| Text.ReplaceCharAppend | scripts/import_transmissoras_xls.py:134 | replace() distributes over concatenation |
| Text.RemoveCharAppend | scripts/import_transmissoras_xls.py:132-135 | replace(c, "") distributes over concatenation |
| Decimals.Scaled | scripts/import_avd_excel.py:122 | rescaling a decimal to a smaller exponent keeps its value |
| Decimals.SameValueIsEqualValue | app/validators/avd.py:88 | Decimal == compares by value, whatever the exponents |
| Decimals.Add | app/validators/avd.py:83-87 | Decimal + is exact: the values add, on the smaller exponent |
| Decimals.OrZero | app/validators/avd.py:84-86 | `d or Decimal("0")`: None and every zero decimal become 0; any other decimal is kept; the value is d's or 0 |
| Decimals.FirstExponentMark | scripts/import_avd_excel.py:122 | the position of the first 'e'/'E', and none before it |
| Decimals.ParseExponent | scripts/import_avd_excel.py:122 | an exponent of plain digits reads as their value |
| Decimals.IntegerValue | scripts/import_transmissoras_xls.py:150-151 | int(d) of an integral decimal has d's value |
| Decimals.PlainText | scripts/import_avd_excel.py:122 | Decimal() sees digits and points as they are: no blank, sign or exponent |
| Decimals.ParsePointed | scripts/import_avd_excel.py:122 | Decimal("a.b") is the digits of a and b as coefficient, minus the length of b as exponent |
| Decimals.ParseTwoPoints | app/parsers/nfe.py:45-46 | Decimal() refuses a text with two points |
| Dates.DaysInMonth | scripts/import_avd_excel.py:107 | every month has 28 to 31 days |
| Dates.Midnight | scripts/import_avd_excel.py:107 | the naive datetime at midnight of a date |
| Dates.NextDayNumber | scripts/import_avd_excel.py:98 | the next day's number is one more |
| Dates.PrevDayNumber | scripts/import_avd_excel.py:98 | the previous day's number is one less |
| Dates.AddDaysNumber | scripts/import_avd_excel.py:98 | adding n days moves the day number by n |
| Dates.DayNumberRange | scripts/import_avd_excel.py:98 | a well-formed date whose day number lies in 0..3652058 falls in years 1..9999, the range datetime holds |
| Dates.AddMicroseconds | scripts/import_avd_excel.py:98 | datetime + timedelta moves the instant by exactly that amount, keeps the offset, and overflows past year 9999 or before year 1 |
| Dates.FormatIsoDate | app/validators/avd.py:124 | date.isoformat() is ten characters |
| Dates.FieldRanges | scripts/import_avd_excel.py:116 | a %d field reads 1..31 and a %m field 1..12 |
| Dates.ParseDayMonthYear | scripts/import_avd_excel.py:116 | strptime("%d/%m/%Y") gives midnight of a real date, and fails unless there are exactly two '/' |
| Dates.ParseYearMonthDay | scripts/import_transmissoras_xls.py:165-167 | strptime("%Y-%m-%d") gives midnight of a real date, and fails unless there are exactly two '-' |
| Dates.ParseIsoDate | app/parsers/nfe.py:76 | date.fromisoformat accepts only ten-character texts naming a real date |
| Dates.ParseIsoDateTime | app/parsers/nfe.py:69 | datetime.fromisoformat gives a valid datetime and refuses texts shorter than a date |
| Dates.DayMonthYearRoundTrip | scripts/import_avd_excel.py:116 | strptime("%d/%m/%Y") reads back every date written as DD/MM/YYYY |
| Dates.YearMonthDayRoundTrip | scripts/import_transmissoras_xls.py:165-167 | strptime("%Y-%m-%d") reads back every date written as YYYY-MM-DD |
| Dates.IsoDateRoundTrip | app/parsers/nfe.py:76 | date.fromisoformat(d.isoformat()) == d |
| Dates.ClockRoundTrip | app/parsers/nfe.py:69 | a time of day written HH:MM:SS reads back |
| Dates.OffsetRoundTrip | app/parsers/nfe.py:69 | a UTC offset written ±HH:MM reads back |
| Dates.IsoFormatRoundTrip | app/parsers/nfe.py:69 | datetime.fromisoformat(t.isoformat(sep)) == t for whole-second datetimes |
| Xml.Attribute | app/parsers/nfe.py:65 | attrib.get(key): present exactly when the key is, with its value |
| Xml.NamedMembers | app/parsers/nfe.py:36 | findall of a child step keeps exactly the children with that name, in order |
| Xml.Find | app/parsers/nfe.py:36-37 | find() is the first match of findall(), None exactly when there is none |
| Xml.FindChild | app/parsers/nfe.py:57 | find("ns:tag") is the first child with that name |
| Xml.ChildrenAreDescendants | scripts/import_avd_excel.py:61 | ".//" reaches every child |
| Workbook.ParseSharedStrings | scripts/import_avd_excel.py:56-64 | one string per `si` element, in order, each the concatenation of its `t` texts |
| Workbook.SharedAt | scripts/import_avd_excel.py:81 | shared_strings[i], with Python's negative indexes; IndexError outside the list |
| Workbook.CellValue | scripts/import_avd_excel.py:78-85 | a cell without `v` has no value |
| Workbook.SharedCellValue | scripts/import_avd_excel.py:78-81 | a shared-string cell takes the string its index names |
| Workbook.PlainCellValue | scripts/import_avd_excel.py:82-85 | any other cell takes the text of its `v` |
| Workbook.ReadCellValue | scripts/import_avd_excel.py:78-85 | returns CellValue: the shared string the index names (a negative index counts from the end), or the plain `v` text; a missing text, a non-integer index or an index out of range fails |
| Workbook.ParseRowCells | scripts/import_avd_excel.py:73-87 | the loop over a row's cells builds the row's column map |
| Workbook.RowMapLastWins | scripts/import_avd_excel.py:74-87 | a column is in the row map exactly when one of its cells has a value, and holds the value of the last such cell |
| Workbook.FillLastWins | scripts/import_avd_excel.py:86-87 | row_map[col] = value: a later cell of the same column replaces an earlier one |
| Workbook.ParseSheet | scripts/import_avd_excel.py:67-90 | the loop over the sheet's rows returns the rows SheetRows describes |
| Workbook.SheetRowsSingle | scripts/import_avd_excel.py:88-89 | a row without values is skipped; any other row is kept with its number and cells |
| Workbook.SheetRowsAppend | scripts/import_avd_excel.py:72-89 | the rows of consecutive row elements are the rows of each part, in order |
| Workbook.SheetRowsPopulated | scripts/import_avd_excel.py:88 | every row returned has at least one cell |
| Workbook.CollectPrefixErr | scripts/import_avd_excel.py:72-89 | the first failing row decides the error |
| AvdTemplate.MonthNumbers | scripts/import_avd_excel.py:30-43 | every month name maps to a month 1..12 |
| AvdTemplate.NormalizeMonthName | scripts/import_avd_excel.py:125-129 | the normalised name has no accent and no combining mark and is no longer than the text |
| AvdTemplate.NormalizePlain | scripts/import_avd_excel.py:125-129 | a name already in normal form, like every month key, is unchanged |
| AvdTemplate.NormalizeMarco | scripts/import_avd_excel.py:125-129 | "Março" normalises to the key "marco" |
| AvdTemplate.ParsePeriod | scripts/import_avd_excel.py:101-107 | a period is midnight of the first day of a real month; a text without exactly one '/' is an error, and a month name that is not a key after normalising is the KeyError UnknownMonth for that name |
| AvdTemplate.ParsePeriodOfName | scripts/import_avd_excel.py:101-107 | "Month/YYYY" gives the first of that month whatever the month's case and accents |
| AvdTemplate.ParsePeriodRoundTrip | scripts/import_avd_excel.py:101-107 | every month key with a year reads back as the first of that month |
| AvdTemplate.ParseDue | scripts/import_avd_excel.py:110-116 | a due date is midnight of a real date; a text without "dia" is an error |
| AvdTemplate.ParseDueRoundTrip | scripts/import_avd_excel.py:110-116 | "... dia DD/MM/YYYY" reads back the date written after the first "dia" |
| AvdTemplate.FirstDia | scripts/import_avd_excel.py:113 | split("dia", 1) cuts at the first "dia" |
| AvdTemplate.DecimalOrNone | scripts/import_avd_excel.py:119-122 | None and "" give None; any other text is what Decimal() reads, or an error |
| AvdTemplate.RoundHalfEven | scripts/import_avd_excel.py:98 | timedelta rounds the microseconds to the nearest integer |
| AvdTemplate.SerialOffsetNearest | scripts/import_avd_excel.py:95-98 | the serial's offset in microseconds is the one nearest to its value in days |
| AvdTemplate.ExcelSerial | scripts/import_avd_excel.py:93-98 | EXCEL_EPOCH advanced by the serial's offset in microseconds; non-numeric text is an error, and a numeric serial succeeds exactly when the date it reaches lies in years 1..9999 |
| AvdTemplate.ExcelSerialNearest | scripts/import_avd_excel.py:93-98 | the datetime read is the one nearest, to the microsecond, to EXCEL_EPOCH plus the serial in days |
| AvdTemplate.SerialDays | scripts/import_avd_excel.py:95-98 | epoch plus timedelta succeeds exactly when the result lies in years 1..9999, and lands the nearest microsecond to the serial |
| AvdTemplate.EpochNumber | scripts/import_avd_excel.py:29 | 1899-12-30 is day 693593 counted from 0001-01-01 |
| AvdTemplate.SerialWholeDays | scripts/import_avd_excel.py:93-98 | every whole serial from 0 to 2958465 (9999-12-31) decodes, and a whole serial that decodes lands at midnight, that many days after the epoch |
| AvdTemplate.BuildRowsMapLastWins | scripts/import_avd_excel.py:132-133 | the row map holds every row number, with the cells of the last row carrying it |
| AvdTemplate.Cell | scripts/import_avd_excel.py:142 | map_rows[row][column] succeeds exactly when both keys exist |
| AvdTemplate.HeaderNeedsRequiredCells | scripts/import_avd_excel.py:141-153 | the header parses only when D1, A2, B2, D2, D3, D5, E5 and F5 exist |
| AvdTemplate.HeaderTextFields | scripts/import_avd_excel.py:142-145 | the AVD number, company code and company name are the texts of D1, A2 and B2 |
| AvdTemplate.HeaderWithDecoded | scripts/import_avd_excel.py:141-153 | for any decoders, the header succeeds exactly when its eight cells exist and every decoder accepts its cell, and each field is its decoder's result on its own cell |
| AvdTemplate.HeaderFields | scripts/import_avd_excel.py:141-153 | the header parses exactly when its cells exist and decode: G1, G2 and G3 give the monthly charge, PV SPB and the total without PIS/COFINS; D2 is the period, D3 the Excel serial date, and D5, E5 and F5 the three due dates |
| AvdTemplate.ParseAvdRowsParts | scripts/import_avd_excel.py:136-174 | parse_avd succeeds exactly when the header and the items both do, and returns the header of the row map with the items of the rows |
| AvdTemplate.ItemOf | scripts/import_avd_excel.py:162-173 | an item is built exactly when the five amount cells D, E, F, H and G are empty or decimals; it keeps column A as its ONS code, B and C as name and CNPJ, D, E and F as installments 1 to 3, H as the total and G as PIS/COFINS |
| AvdTemplate.ItemRowsFilter | scripts/import_avd_excel.py:156-161 | the item rows are exactly the rows below 5 with a non-empty column A |
| AvdTemplate.ItemsOfItemRows | scripts/import_avd_excel.py:155-173 | one item per item row, in order, failing exactly when some item row fails |
| AvdTemplate.ParseAvd | scripts/import_avd_excel.py:136-174 | parse_avd returns the header and items the workbook's parts determine; with HeaderFields, ItemsOfItemRows and ParseAvdRowsParts, each header field comes from its cell and each item from its row |
| AvdImport.ItemRecords | scripts/import_avd_excel.py:194-207 | one item row per parsed item, numbered from 1, under the new AVD id, copying code, name and CNPJ; each installment and the total is `value or Decimal("0")` (OrZero), so a missing amount is stored as 0 |
| AvdImport.FindByNumber | scripts/import_avd_batch.py:49-53 | one_or_none(): None exactly when no header has the number, the header when one has it, MultipleResultsFound when several do |
| AvdImport.ImportNew | scripts/import_avd_excel.py:177-210 | a parse failure is passed on; nothing is stored on a failure; a non-integer AVD number fails; a parsed AVD with an integer number is always stored, under the next id |
| AvdImport.ImportNewItems | scripts/import_avd_excel.py:194-207 | the AVD import_avd stores owns exactly the parsed items' records, numbered from 1 |
| AvdImport.ImportSingle | scripts/import_avd_batch.py:38-96 | a parse failure is passed on; a duplicated number raises MultipleResultsFound; a stored AVD with overwrite off returns (its id, False) and changes nothing, and only then is there a skip; with no stored AVD or with overwrite on, an integer number is stored under the next id, returning (that id, True), and a non-integer one fails; only a created AVD changes the tables |
| AvdImport.RemovedValid | scripts/import_avd_batch.py:58-63 | deleting an AVD's items and then its header keeps ids distinct and items attached |
| AvdImport.InsertedValid | scripts/import_avd_excel.py:191-207 | adding a header and its items keeps ids distinct and items attached |
| AvdImport.ImportNewValid | scripts/import_avd_excel.py:177-210 | import_avd keeps the tables consistent |
| AvdImport.ImportNewAddsOneWithNumber | scripts/import_avd_excel.py:177-210 | import_avd adds a header with the AVD number even when one is stored already |
| AvdImport.ImportSingleValid | scripts/import_avd_batch.py:38-96 | import_single_avd keeps the tables consistent |
| AvdImport.ImportSingleLeavesOne | scripts/import_avd_batch.py:55-96 | after a created import exactly one header has the AVD number, the new one |
| AvdImport.ImportSingleKeepsNumbersUnique | scripts/import_avd_batch.py:38-96 | when no AVD number is stored twice, import_single_avd keeps it so |
| AvdImport.InsertedHeader | scripts/import_avd_batch.py:65-78 | the inserted header goes last under the next id; the branch is the company name, the ONS code is the first item's (none without items), and number, company and dates are the parsed ones |
| AvdImport.ImportNewHeader | scripts/import_avd_excel.py:178-192 | the header import_avd stores carries the AVD number, its integer value, the company name as branch and the first item's ONS code or none |
| AvdImport.ImportSingleHeader | scripts/import_avd_batch.py:65-78 | the header import_single_avd creates carries the AVD number, its integer value, the company name as branch and the first item's ONS code or none |
| AvdImport.ImportSingleItems | scripts/import_avd_batch.py:80-93 | the new AVD's items are exactly the parsed items, numbered from 1 |
| AvdImport.ImportSingleDropsReplaced | scripts/import_avd_batch.py:58-63 | an overwritten AVD's header and items are gone |
| AvdImport.ClearedHasNoNumber | scripts/import_avd_batch.py:58-63 | once the found AVD is deleted no header has its number |
| AvdImport.AvdDatabase.Insert | scripts/import_avd_batch.py:65-93 | adds the header under the next id, then its items one by one |
| AvdImport.AvdDatabase.Remove | scripts/import_avd_batch.py:59-62 | deletes the AVD's items, then its header |
| AvdImport.AvdDatabase.ImportAvd | scripts/import_avd_excel.py:177-210 | the result and the tables ImportNew gives |
| AvdImport.AvdDatabase.ImportSingleAvd | scripts/import_avd_batch.py:38-96 | the result and the tables ImportSingle gives, the deletion undone on a later failure |
| Nfe.GetText | app/parsers/nfe.py:33-39 | _get_text: None without parent, element or text; otherwise the stripped text |
| Nfe.ParseDecimal | app/parsers/nfe.py:42-46 | None and "" give None; otherwise Decimal() of the text with ',' made '.', or an error |
| Nfe.CommaDecimal | app/parsers/nfe.py:45-46 | a decimal comma reads as the decimal point |
| Nfe.ThousandsSeparatorRejected | app/parsers/nfe.py:45-46 | "1.234,56" becomes "1.234.56" and is refused |
| Nfe.EmissionTime | app/parsers/nfe.py:67-70 | an absent or empty dhEmi gives the clock's time |
| Nfe.EmissionUtc | app/parsers/nfe.py:69 | a dhEmi ending in 'Z' reads as the same time at offset +00:00 |
| Nfe.DueDate | app/parsers/nfe.py:75-76 | an absent or empty dVenc gives None; any other dVenc succeeds exactly when fromisoformat accepts it, so a text not ten characters long is an error; a due date is a real date |
| Nfe.DueDateRoundTrip | app/parsers/nfe.py:75-76 | a dVenc written by date.isoformat() reads back as that date |
| Nfe.EmissionRoundTrip | app/parsers/nfe.py:67-70 | a dhEmi written by isoformat with 'T', naive or with a ±HH:MM offset, reads back as that datetime |
| Nfe.ParseNfe | app/parsers/nfe.py:49-97 | a document without NFe/infNFe is an error; the invoice keeps the given ONS code, competence and path |
| Nfe.AbsentIde | app/parsers/nfe.py:63-70 | without ide: number and series are "" and the emission time is the clock's |
| Nfe.AbsentParties | app/parsers/nfe.py:83-86 | without emit or dest: their CNPJ and name are "" |
| Nfe.AbsentTotal | app/parsers/nfe.py:78 | without total: the invoice total is 0 |
| Nfe.AbsentBilling | app/parsers/nfe.py:72-76 | without cobr: the bill number, duplicate number and value, and due date are None |
| Nfe.EmptyInvoiceInfo | app/parsers/nfe.py:49-97 | an empty infNFe gives the invoice of all defaults |
| Nfe.KeyIsId | app/parsers/nfe.py:65 | the access key is infNFe's Id attribute, or "" |
| Nfe.TotalValue | app/parsers/nfe.py:78 | the total is vNF's value, or 0 when vNF is absent or empty |
| Reconciliation.InstallmentSum | app/validators/avd.py:83-87 | the value of the three installments added, NULL counting as 0 |
| Reconciliation.Divergence | app/validators/avd.py:79-91 | no item gives the missing-item message; otherwise no divergence exactly when the total equals the installments' sum in value |
| Reconciliation.MatchIsEqualSum | app/validators/avd.py:88 | the != test compares the values of total and sum |
| Reconciliation.NfRecords | app/validators/avd.py:56-74 | one NF record per invoice, in order |
| Reconciliation.Validations | app/validators/avd.py:116-127 | one validation per invoice, in order |
| Reconciliation.Reconcile | app/validators/avd.py:94-134 | a missing AVD is exactly the AvdNotFound error; with the AVD, an empty batch is exactly "sem_notas"; a non-empty batch reconciles ("ok") exactly when the first invoice's issuer is registered, and otherwise fails with TransmitterNotRegistered for that CNPJ; a reconciliation names the AVD and the issuer's transmitter code |
| Reconciliation.NfStore.PersistInvoices | app/validators/avd.py:53-76 | appends one record per invoice and returns them |
| Reconciliation.EvaluateInvoices | app/validators/avd.py:116-127 | builds one validation per invoice, in order: its number, total, the transmitter code, the competence date in ISO form and its divergence |
| Reconciliation.NfStore.ConciliarNotas | app/validators/avd.py:94-134 | returns what Reconcile says; saves the batch only when reconciling, nothing otherwise |
| Reconciliation.ValidationsFollowInvoices | app/validators/avd.py:116-127 | each validation names its invoice, its total, the transmitter and the competence date |
| Reconciliation.MissingItemFlagsEveryInvoice | app/validators/avd.py:80-81 | with no item for the transmitter every invoice is flagged |
| Reconciliation.DivergenceIsMismatch | app/validators/avd.py:83-91 | with an item, invoice i diverges exactly when its total differs from the sum of installments |
| Transmitters.NormalizeHeader | scripts/import_transmissoras_xls.py:76-82 | no blank, no accent and no combining mark is left, and the text gets no longer |
| Transmitters.HeaderKey | scripts/import_transmissoras_xls.py:95 | a recognised header names one of the register's fields |
| Transmitters.NormalizeWords | scripts/import_transmissoras_xls.py:76-82 | a lower-case unaccented header without outer blanks only has its blanks turned into '_' |
| Transmitters.NormalizeTwoWords | scripts/import_transmissoras_xls.py:76-82 | two lower-case words normalise to the words joined by '_' |
| Transmitters.NormalizeThreeWords | scripts/import_transmissoras_xls.py:76-82 | three lower-case words normalise to the words joined by '_' |
| Transmitters.NormalizeIgnoresPadding | scripts/import_transmissoras_xls.py:79 | blanks before and after a header do not change its normal form |
| Transmitters.SiglaHeader | scripts/import_transmissoras_xls.py:25-73 | the header "Sigla do Agente" is recognised as the agent's abbreviation column |
| Transmitters.NormalizeIgnoresCase | scripts/import_transmissoras_xls.py:76-82 | a header and its lower-cased form normalise alike |
| Transmitters.TrimLower | scripts/import_transmissoras_xls.py:79 | strip() and lower() commute |
| Transmitters.CodigoHeader | scripts/import_transmissoras_xls.py:25-27 | the header "CÓDIGO" is recognised as the ONS code column |
| Transmitters.ExtractHeaderIndexes | scripts/import_transmissoras_xls.py:91-98 | the loop over the header row builds the field-to-column map |
| Transmitters.HeaderIndexesLastWins | scripts/import_transmissoras_xls.py:91-98 | a field is mapped exactly when some header names it, to the last column that does |
| Transmitters.CellAt | scripts/import_transmissoras_xls.py:104-105 | a negative column gives no value |
| Transmitters.CleanNumber | scripts/import_transmissoras_xls.py:129-136 | the cleaned number has no ',' and no blank |
| Transmitters.CleanNumberChars | scripts/import_transmissoras_xls.py:129-136 | the cleaned number has no '%'; each of its characters is one of the text's or a '.', and a '.' appears only when the text had a ',' |
| Transmitters.PercentIgnored | scripts/import_transmissoras_xls.py:132 | a trailing '%' changes neither the cleaned text nor the number read |
| Transmitters.CommaNumber | scripts/import_transmissoras_xls.py:133-140 | "9,25" reads as 9.25: the comma is the decimal point |
| Transmitters.PercentNumber | scripts/import_transmissoras_xls.py:132-140 | "9,25%" reads as 9.25 |
| Transmitters.TwoCommasRefused | scripts/import_transmissoras_xls.py:133-142 | digits with two commas becomes two points, which Decimal() refuses, so None |
| Transmitters.DecimalText | scripts/import_transmissoras_xls.py:137-142 | an empty, "-" or "--" text gives None |
| Transmitters.DecimalOrNone | scripts/import_transmissoras_xls.py:124-142 | a number cell is kept as it is; an empty cell gives None |
| Transmitters.BrazilianNumber | scripts/import_transmissoras_xls.py:129-140 | "1.234,56" reads as 1234.56: points are thousands separators, the comma the decimal point |
| Transmitters.TrimEndChar | scripts/import_transmissoras_xls.py:152 | rstrip(c): a prefix not ending in c, every dropped character a c |
| Transmitters.StrOrNone | scripts/import_transmissoras_xls.py:145-154 | an empty cell gives None; a text gives its stripped form, None when that is empty |
| Transmitters.IntegralRoundTrip | scripts/import_transmissoras_xls.py:150-151 | an integral number is written as plain digits that read back as its value |
| Transmitters.DateText | scripts/import_transmissoras_xls.py:162-170 | a date is midnight of a real date; "" and "########" give None, and so does text with neither two '/' nor two '-' (matching neither layout) |
| Transmitters.DateOrNone | scripts/import_transmissoras_xls.py:157-161 | a date cell is kept as it is; an empty cell gives None |
| Transmitters.DateTextDayFirst | scripts/import_transmissoras_xls.py:165-167 | a DD/MM/YYYY text reads as that date |
| Transmitters.DateTextIso | scripts/import_transmissoras_xls.py:165-167 | a YYYY-MM-DD text reads as that date |
| Transmitters.DayFirstDate | scripts/import_transmissoras_xls.py:157-170 | a DD/MM/YYYY cell, even with leading blanks, reads as that date |
| Transmitters.IsoDate | scripts/import_transmissoras_xls.py:157-170 | a YYYY-MM-DD cell, even with leading blanks, reads as that date |
| Transmitters.RowData | scripts/import_transmissoras_xls.py:181-279 | a row gives a record exactly when its code is present and non-empty, and the record carries that code |
| Transmitters.UpsertedContents | scripts/import_transmissoras_xls.py:281-291 | the stored codes are the old ones plus the rows' codes; each code holds its last row; other codes are untouched |
| Transmitters.UpsertStep | scripts/import_transmissoras_xls.py:286-291 | one row replaces or adds its code, and counts only when the code is new |
| Transmitters.UpsertedGrows | scripts/import_transmissoras_xls.py:286-291 | an upsert never drops a code |
| Transmitters.InsertedCountsNewCodes | scripts/import_transmissoras_xls.py:289-294 | the count returned is the number of codes the register did not hold before |
| Transmitters.UpdatesOnly | scripts/import_transmissoras_xls.py:286-288 | when every code is already stored nothing is inserted and no code is added |
| Transmitters.TransmitterRegistry.ImportTransmissoras | scripts/import_transmissoras_xls.py:173-294 | a sheet without a code column raises and changes nothing; otherwise every row with a code is upserted in order and the insertions are counted |

## Left out

- Reading files: the ZIP container of the XLSX, the XML tokeniser, and
  `xlrd.open_workbook` and `load_sheet`. The model starts from the
  parsed element trees and from a sheet of typed cells.
- `get_cell_value`'s cell typing: the model takes each cell already typed as
  blank, text, number or date. The xlrd date-mode conversion and the float
  behind a number cell (`str(cell.value)`) are not part of this model. Header
  cells are taken as their `str()` text.
- Floating point: `float(serial)` in `_excel_serial_to_datetime` is modelled as
  the exact decimal value, rounded once to the nearest microsecond, and
  `float(invoice.valor_total)` in the validation entries keeps the Decimal.
- Decimal: NaN, Infinity, underscores, and the context precision of 28
  digits are not modelled. Addition is exact.
- Unicode: `lower()` covers ASCII and Latin-1 letters. The NFKD table
  covers only the accented Latin-1 letters À–ÿ that have a canonical
  decomposition, and the combining-marks block. Other characters NFKD
  changes are kept as they are: ª and º (NFKD gives 'a' and 'o'), µ (NFKD
  gives μ), the no-break space, ¹²³, ¼½¾ and the spacing accents ¨´¸¯.
- The clock: `utcnow()` is a parameter `now`. One instant serves all the
  records saved in one call.
- Database ids: each new AVD gets the next integer from a counter. SQLite may
  reuse the id of a deleted last row; the model never does.
- `datetime.fromisoformat` is modelled for "YYYY-MM-DD" with an optional
  separator, "HH[:MM[:SS]]" and a "±HH:MM" offset. Fractional seconds and
  the other forms newer Python versions accept are refused.
- Transactions: an exception before `commit()` leaves the tables as they
  were. The model restores the snapshot taken before the deletion.
  Concurrent sessions are not modelled.
- The lookups of `app/validators/avd.py` are maps, so `one_or_none()` never
  meets two rows there. `_find_transmissora_por_cnpj` is reduced to the
  ONS code it yields. A registered transmitter whose `CODIGOONS` is NULL is
  not modelled: the map holds a code for every CNPJ, so the item lookup and
  the result never carry `codigoons = None`. In the transmitter register, codes are map keys too.
- `parse_nfe_directory`, `_iter_input_paths`, every `main()`,
  `_load_workbook` and the argument parsing are I/O and are not modelled.
- `models/tust_models.py` is not part of this model beyond the columns the
  importers fill.
- An NF-e total written "1.234,56" is not read as 1234.56: every ',' becomes
  '.' and `Decimal()` refuses "1.234.56" (`Nfe.ThousandsSeparatorRejected`).
- Transmitters.NormalizeHeader: normalisation is not claimed idempotent. A
  combining mark next to a blank is dropped only after `strip()` has run, so
  a second pass can strip more.
- Transmitters.StrOrNone: for a number that is not integral
  (`format(value, "f").rstrip("0").rstrip(".")`) the text is computed, but
  no lemma relates it back to the number.
- Transmitters.DecimalOrNone: on a date cell (`str(datetime)` fed to
  `Decimal()`) the result is computed but not proved to be None.
- The header spellings table lists the two spellings of the ONS code last.
  No key occurs twice, so the order changes nothing.

=== FILE: avd_import.dfy ===
/**
 * Storing a parsed AVD: one header row in RSM_TUSTAVISODEBITO and one row per
 * transmitter in RSM_TUSTAVISODEBITOITEM. `import_avd` inserts
 * unconditionally; `import_single_avd` first looks the AVD up by its number
 * and then skips it, or deletes and re-imports it when asked to overwrite.
 *
 * The two tables and the id counter are the state of `AvdDatabase`; the pure
 * functions `ImportNew` and `ImportSingle` say what each import does to them,
 * the methods are proved to do exactly that, and the lemmas state what the
 * imports keep true.
 */
module AvdImport {
  import opened Results
  import opened Text
  import opened Decimals
  import opened Dates
  import opened Xml
  import opened AvdTemplate

  /** A row of RSM_TUSTAVISODEBITO. */
  datatype HeaderRecord = HeaderRecord(
    id: int,
    identificador: int,
    codigoEmpresa: string,
    codigoFilial: string,
    codigoOns: Option<string>,
    nomeEmpresa: string,
    numeroAvd: string,
    dataCompetencia: DateTime,
    vencimentoParcela1: DateTime,
    vencimentoParcela2: DateTime,
    vencimentoParcela3: DateTime)

  /** A row of RSM_TUSTAVISODEBITOITEM; avdId refers to HeaderRecord.id. */
  datatype ItemRecord = ItemRecord(
    identificador: int,
    avdId: int,
    codigoOns: string,
    nomeTransmissora: Option<string>,
    cnpj: Option<string>,
    valorParcela1: Decimal,
    valorParcela2: Decimal,
    valorParcela3: Decimal,
    valorTotal: Decimal)

  /** The two tables and the next id the database hands out. */
  datatype Tables = Tables(headers: seq<HeaderRecord>, items: seq<ItemRecord>, nextId: int)

  /** The header row built from a parsed AVD: the branch name is the company name, the ONS code the first item's. */
  function HeaderRecordOf(id: int, identificador: int, header: AvdHeader, items: seq<AvdItem>): HeaderRecord {
    HeaderRecord(
      id, identificador, header.codigoEmpresa, header.nomeEmpresa,
      if items == [] then None else Some(items[0].codigoOns),
      header.nomeEmpresa, header.numeroAvd, header.periodoApuracao,
      header.vencimentoParcela1, header.vencimentoParcela2, header.vencimentoParcela3)
  }

  /** The item row for the index-th item (counted from 1); a missing or zero amount is stored as 0. */
  function ItemRecordOf(avdId: int, index: int, item: AvdItem): ItemRecord {
    ItemRecord(
      index, avdId, item.codigoOns, item.nomeTransmissora, item.cnpj,
      OrZero(item.valorParcela1), OrZero(item.valorParcela2),
      OrZero(item.valorParcela3), OrZero(item.valorTotal))
  }

  /** The item rows of one AVD, numbered 1..n in spreadsheet order. */
  function ItemRecords(avdId: int, items: seq<AvdItem>): (rs: seq<ItemRecord>)
    ensures |rs| == |items|
    ensures forall i | 0 <= i < |rs| :: rs[i].identificador == i + 1 && rs[i].avdId == avdId
    ensures forall i | 0 <= i < |rs| :: rs[i].codigoOns == items[i].codigoOns
    ensures forall i | 0 <= i < |rs| :: rs[i].nomeTransmissora == items[i].nomeTransmissora && rs[i].cnpj == items[i].cnpj
    ensures forall i | 0 <= i < |rs| ::
              && rs[i].valorParcela1 == OrZero(items[i].valorParcela1)
              && rs[i].valorParcela2 == OrZero(items[i].valorParcela2)
              && rs[i].valorParcela3 == OrZero(items[i].valorParcela3)
              && rs[i].valorTotal == OrZero(items[i].valorTotal)
    ensures forall i | 0 <= i < |rs| :: Value(rs[i].valorTotal) == if items[i].valorTotal.Some? then Value(items[i].valorTotal.value) else 0.0
  {
    seq(|items|, i requires 0 <= i < |items| => ItemRecordOf(avdId, i + 1, items[i]))
  }

  // ---------------------------------------------------------------------------
  // Queries

  /** filter_by(numeroavd=numero): the headers carrying that number, in table order. */
  function WithNumber(hs: seq<HeaderRecord>, numero: string): seq<HeaderRecord> {
    if hs == [] then []
    else (if hs[0].numeroAvd == numero then [hs[0]] else []) + WithNumber(hs[1..], numero)
  }

  /** The headers whose id differs from the given one. */
  function WithoutId(hs: seq<HeaderRecord>, id: int): seq<HeaderRecord> {
    if hs == [] then [] else (if hs[0].id != id then [hs[0]] else []) + WithoutId(hs[1..], id)
  }

  /** filter_by(identificadoravisodebitotransmissao=avdId): the items of one AVD. */
  function ItemsOf(its: seq<ItemRecord>, avdId: int): seq<ItemRecord> {
    if its == [] then [] else (if its[0].avdId == avdId then [its[0]] else []) + ItemsOf(its[1..], avdId)
  }

  /** The items of every other AVD. */
  function ItemsNotOf(its: seq<ItemRecord>, avdId: int): seq<ItemRecord> {
    if its == [] then [] else (if its[0].avdId != avdId then [its[0]] else []) + ItemsNotOf(its[1..], avdId)
  }

  lemma {:induction false} WithNumberMembers(hs: seq<HeaderRecord>, numero: string)
    ensures forall h :: h in WithNumber(hs, numero) <==> h in hs && h.numeroAvd == numero
  {
    if hs != [] {
      WithNumberMembers(hs[1..], numero);
      assert hs == [hs[0]] + hs[1..];
    }
  }

  lemma {:induction false} WithoutIdMembers(hs: seq<HeaderRecord>, id: int)
    ensures forall h :: h in WithoutId(hs, id) <==> h in hs && h.id != id
  {
    if hs != [] {
      WithoutIdMembers(hs[1..], id);
      assert hs == [hs[0]] + hs[1..];
    }
  }

  lemma {:induction false} ItemsNotOfMembers(its: seq<ItemRecord>, avdId: int)
    ensures forall it :: it in ItemsNotOf(its, avdId) <==> it in its && it.avdId != avdId
  {
    if its != [] {
      ItemsNotOfMembers(its[1..], avdId);
      assert its == [its[0]] + its[1..];
    }
  }

  lemma {:induction false} WithNumberAppend(a: seq<HeaderRecord>, b: seq<HeaderRecord>, numero: string)
    ensures WithNumber(a + b, numero) == WithNumber(a, numero) + WithNumber(b, numero)
  {
    if a != [] {
      WithNumberAppend(a[1..], b, numero);
      assert (a + b)[0] == a[0] && (a + b)[1..] == a[1..] + b;
      var x := if a[0].numeroAvd == numero then [a[0]] else [];
      assert WithNumber(a + b, numero) == x + WithNumber(a[1..] + b, numero);
      assert WithNumber(a, numero) == x + WithNumber(a[1..], numero);
    } else {
      assert a + b == b;
    }
  }

  lemma {:induction false} ItemsOfAppend(a: seq<ItemRecord>, b: seq<ItemRecord>, avdId: int)
    ensures ItemsOf(a + b, avdId) == ItemsOf(a, avdId) + ItemsOf(b, avdId)
  {
    if a != [] {
      ItemsOfAppend(a[1..], b, avdId);
      assert (a + b)[0] == a[0] && (a + b)[1..] == a[1..] + b;
      var x := if a[0].avdId == avdId then [a[0]] else [];
      assert ItemsOf(a + b, avdId) == x + ItemsOf(a[1..] + b, avdId);
      assert ItemsOf(a, avdId) == x + ItemsOf(a[1..], avdId);
    } else {
      assert a + b == b;
    }
  }

  /** Selecting the items of an AVD from a list made only of its items keeps them all. */
  lemma {:induction false} ItemsOfAll(its: seq<ItemRecord>, avdId: int)
    requires forall it <- its :: it.avdId == avdId
    ensures ItemsOf(its, avdId) == its
  {
    if its != [] {
      assert its[0] in its;
      ItemsOfAll(its[1..], avdId);
      assert its == [its[0]] + its[1..];
    }
  }

  /** No header is selected from a list holding none with that number. */
  lemma {:induction false} WithNumberNone(hs: seq<HeaderRecord>, numero: string)
    requires forall h <- hs :: h.numeroAvd != numero
    ensures WithNumber(hs, numero) == []
  {
    if hs != [] {
      assert hs[0] in hs;
      WithNumberNone(hs[1..], numero);
    }
  }

  /** No item of an AVD is selected from a list holding none of its items. */
  lemma {:induction false} ItemsOfNone(its: seq<ItemRecord>, avdId: int)
    requires forall it <- its :: it.avdId != avdId
    ensures ItemsOf(its, avdId) == []
  {
    if its != [] {
      assert its[0] in its;
      ItemsOfNone(its[1..], avdId);
    }
  }

  /**
   * .one_or_none(): no header with that number, the only one, or
   * MultipleResultsFound when there are several.
   */
  function FindByNumber(hs: seq<HeaderRecord>, numero: string): (r: Result<Option<HeaderRecord>, Failure>)
    ensures r.Err? <==> |WithNumber(hs, numero)| > 1
    ensures r == Ok(None) <==> forall h <- hs :: h.numeroAvd != numero
    ensures r.Ok? && r.value.Some? ==> r.value.value in hs && r.value.value.numeroAvd == numero
  {
    WithNumberMembers(hs, numero);
    var found := WithNumber(hs, numero);
    assert found != [] ==> found[0] in found;
    if |found| == 0 then Ok(None)
    else if |found| == 1 then Ok(Some(found[0]))
    else Err(MultipleResults(numero))
  }

  // ---------------------------------------------------------------------------
  // What the imports do to the tables

  function HeaderIds(hs: seq<HeaderRecord>): set<int> {
    set h <- hs :: h.id
  }

  predicate DistinctIds(hs: seq<HeaderRecord>) {
    forall i, j | 0 <= i < |hs| && 0 <= j < |hs| && i != j :: hs[i].id != hs[j].id
  }

  /**
   * The tables as the database keeps them: header ids are distinct and below
   * the next id to hand out, and every item belongs to a stored header.
   */
  predicate Valid(t: Tables) {
    DistinctIds(t.headers)
    && (forall h <- t.headers :: h.id < t.nextId)
    && (forall it <- t.items :: it.avdId in HeaderIds(t.headers))
  }

  /** No AVD number is stored twice, so one_or_none never fails. */
  ghost predicate UniqueNumbers(hs: seq<HeaderRecord>) {
    forall numero :: |WithNumber(hs, numero)| <= 1
  }

  /** Deleting an AVD's items and then its header. */
  function Removed(t: Tables, id: int): Tables {
    Tables(WithoutId(t.headers, id), ItemsNotOf(t.items, id), t.nextId)
  }

  /** The tables once the AVD found by number, if any, is deleted. */
  function Cleared(t: Tables, existing: Option<HeaderRecord>): Tables {
    if existing.Some? then Removed(t, existing.value.id) else t
  }

  /** Adding a header under the next id, then its items numbered 1..n; the new id is returned. */
  function Inserted(t: Tables, identificador: int, header: AvdHeader, items: seq<AvdItem>): (int, Tables) {
    var id := t.nextId;
    (id, Tables(t.headers + [HeaderRecordOf(id, identificador, header, items)],
                t.items + ItemRecords(id, items),
                id + 1))
  }

  /**
   * import_avd: parse, convert the AVD number to an integer, insert. Nothing
   * is stored when either step fails.
   */
  function ImportNew(t: Tables, parsed: Result<(AvdHeader, seq<AvdItem>), Failure>): (result: (Result<int, Failure>, Tables))
    ensures result.0.Err? ==> result.1 == t
    ensures result.0.Ok? ==> parsed.Ok? && result.0.value == t.nextId
    ensures parsed.Err? ==> result.0 == Err(parsed.error)
    ensures parsed.Ok? && ParseInt(parsed.value.0.numeroAvd).None? ==> result.0 == Err(InvalidInteger(parsed.value.0.numeroAvd))
    ensures parsed.Ok? && ParseInt(parsed.value.0.numeroAvd).Some? ==> result.0 == Ok(t.nextId)
  {
    match parsed
    case Err(e) => (Err(e), t)
    case Ok((header, items)) =>
      match ParseInt(header.numeroAvd)
      case None => (Err(InvalidInteger(header.numeroAvd)), t)
      case Some(identificador) =>
        var (id, t') := Inserted(t, identificador, header, items);
        (Ok(id), t')
  }

  /**
   * import_single_avd: parse; look the AVD up by number; return the stored
   * id unchanged when it exists and overwrite is off; otherwise delete the
   * stored AVD (if any) and insert the parsed one. The boolean says whether
   * a new AVD was stored. A failure stores nothing (the session's pending
   * deletions are rolled back).
   */
  function ImportSingle(t: Tables, parsed: Result<(AvdHeader, seq<AvdItem>), Failure>, overwrite: bool): (result: (Result<(int, bool), Failure>, Tables))
    ensures !(result.0.Ok? && result.0.value.1) ==> result.1 == t
    ensures result.0.Ok? && !result.0.value.1 ==>
      parsed.Ok? && !overwrite
      && FindByNumber(t.headers, parsed.value.0.numeroAvd).Ok?
      && FindByNumber(t.headers, parsed.value.0.numeroAvd).value.Some?
      && FindByNumber(t.headers, parsed.value.0.numeroAvd).value.value.id == result.0.value.0
    ensures parsed.Err? ==> result.0 == Err(parsed.error)
    ensures parsed.Ok? && |WithNumber(t.headers, parsed.value.0.numeroAvd)| > 1 ==>
      result.0 == Err(MultipleResults(parsed.value.0.numeroAvd))
    ensures parsed.Ok? && FindByNumber(t.headers, parsed.value.0.numeroAvd).Ok?
            && FindByNumber(t.headers, parsed.value.0.numeroAvd).value.Some? && !overwrite ==>
      result == (Ok((FindByNumber(t.headers, parsed.value.0.numeroAvd).value.value.id, false)), t)
    ensures parsed.Ok? && FindByNumber(t.headers, parsed.value.0.numeroAvd).Ok?
            && (FindByNumber(t.headers, parsed.value.0.numeroAvd).value.None? || overwrite) ==>
      result.0 == (if ParseInt(parsed.value.0.numeroAvd).Some? then Ok((t.nextId, true))
                   else Err(InvalidInteger(parsed.value.0.numeroAvd)))
  {
    match parsed
    case Err(e) => (Err(e), t)
    case Ok((header, items)) =>
      var numero := header.numeroAvd;
      match FindByNumber(t.headers, numero)
      case Err(e) => (Err(e), t)
      case Ok(existing) =>
        if existing.Some? && !overwrite then (Ok((existing.value.id, false)), t)
        else
          match ParseInt(numero)
          case None => (Err(InvalidInteger(numero)), t)
          case Some(identificador) =>
            var (id, t') := Inserted(Cleared(t, existing), identificador, header, items);
            (Ok((id, true)), t')
  }

  // ---------------------------------------------------------------------------
  // What the imports keep true

  lemma {:induction false} WithoutIdDistinct(hs: seq<HeaderRecord>, id: int)
    requires DistinctIds(hs)
    ensures DistinctIds(WithoutId(hs, id))
  {
    if hs != [] {
      var rest := hs[1..];
      assert DistinctIds(rest) by {
        forall i, j | 0 <= i < |rest| && 0 <= j < |rest| && i != j ensures rest[i].id != rest[j].id {
          assert rest[i] == hs[i + 1] && rest[j] == hs[j + 1];
        }
      }
      WithoutIdDistinct(rest, id);
      WithoutIdMembers(rest, id);
      var tail := WithoutId(rest, id);
      forall h <- tail ensures h.id != hs[0].id {
        var k :| 0 <= k < |rest| && rest[k] == h;
        assert hs[k + 1] == h;
      }
      if hs[0].id != id {
        var s := [hs[0]] + tail;
        forall i, j | 0 <= i < |s| && 0 <= j < |s| && i != j ensures s[i].id != s[j].id {
          if i > 0 && j > 0 {
            assert s[i] == tail[i - 1] && s[j] == tail[j - 1];
          } else if i == 0 {
            assert s[j] in tail;
          } else {
            assert s[i] in tail;
          }
        }
      }
    }
  }

  /** Appending a header whose id is above every stored id keeps the ids distinct. */
  lemma AppendFreshDistinct(hs: seq<HeaderRecord>, h: HeaderRecord)
    requires DistinctIds(hs) && forall g <- hs :: g.id < h.id
    ensures DistinctIds(hs + [h])
  {
    var s := hs + [h];
    forall i, j | 0 <= i < |s| && 0 <= j < |s| && i != j ensures s[i].id != s[j].id {
      if i < |hs| && j < |hs| {
        assert s[i] == hs[i] && s[j] == hs[j];
      } else if i < |hs| {
        assert s[i] in hs;
      } else {
        assert s[j] in hs;
      }
    }
  }

  /** Deleting an AVD keeps the tables valid. */
  lemma RemovedValid(t: Tables, id: int)
    requires Valid(t)
    ensures Valid(Removed(t, id))
  {
    var r := Removed(t, id);
    WithoutIdDistinct(t.headers, id);
    WithoutIdMembers(t.headers, id);
    ItemsNotOfMembers(t.items, id);
    forall it <- r.items ensures it.avdId in HeaderIds(r.headers) {
      var h :| h in t.headers && h.id == it.avdId;
      assert h in r.headers;
    }
  }

  /** Inserting under the next id keeps the tables valid. */
  lemma InsertedValid(t: Tables, identificador: int, header: AvdHeader, items: seq<AvdItem>)
    requires Valid(t)
    ensures Valid(Inserted(t, identificador, header, items).1)
  {
    var (id, r) := Inserted(t, identificador, header, items);
    var h := HeaderRecordOf(id, identificador, header, items);
    AppendFreshDistinct(t.headers, h);
    assert h in r.headers;
    forall it <- r.items ensures it.avdId in HeaderIds(r.headers) {
      if it in t.items {
        var g :| g in t.headers && g.id == it.avdId;
        assert g in r.headers;
      } else {
        assert it in ItemRecords(id, items);
      }
    }
  }

  /** import_avd keeps the tables valid. */
  lemma ImportNewValid(t: Tables, parsed: Result<(AvdHeader, seq<AvdItem>), Failure>)
    requires Valid(t)
    ensures Valid(ImportNew(t, parsed).1)
  {
    if parsed.Ok? && ParseInt(parsed.value.0.numeroAvd).Some? {
      InsertedValid(t, ParseInt(parsed.value.0.numeroAvd).value, parsed.value.0, parsed.value.1);
    }
  }

  /**
   * import_avd does not look for an AVD with the same number: a successful
   * import adds one more header with that number to whatever was stored.
   */
  lemma ImportNewAddsOneWithNumber(t: Tables, parsed: Result<(AvdHeader, seq<AvdItem>), Failure>)
    requires ImportNew(t, parsed).0.Ok?
    ensures |WithNumber(ImportNew(t, parsed).1.headers, parsed.value.0.numeroAvd)| == |WithNumber(t.headers, parsed.value.0.numeroAvd)| + 1
  {
    var (header, items) := parsed.value;
    var r := ImportNew(t, parsed).1;
    var h := HeaderRecordOf(t.nextId, ParseInt(header.numeroAvd).value, header, items);
    assert r.headers == t.headers + [h];
    WithNumberAppend(t.headers, [h], header.numeroAvd);
    assert WithNumber([h], header.numeroAvd) == [h] + WithNumber([], header.numeroAvd);
  }

  /** The shape of an import_single_avd that stored a new AVD. */
  lemma CreatedShape(t: Tables, parsed: Result<(AvdHeader, seq<AvdItem>), Failure>, overwrite: bool)
    requires ImportSingle(t, parsed, overwrite).0.Ok? && ImportSingle(t, parsed, overwrite).0.value.1
    ensures parsed.Ok?
    ensures FindByNumber(t.headers, parsed.value.0.numeroAvd).Ok?
    ensures ParseInt(parsed.value.0.numeroAvd).Some?
    ensures ImportSingle(t, parsed, overwrite) ==
      (Ok((t.nextId, true)),
       Inserted(Cleared(t, FindByNumber(t.headers, parsed.value.0.numeroAvd).value),
                ParseInt(parsed.value.0.numeroAvd).value, parsed.value.0, parsed.value.1).1)
  {
  }

  /** import_single_avd keeps the tables valid. */
  lemma ImportSingleValid(t: Tables, parsed: Result<(AvdHeader, seq<AvdItem>), Failure>, overwrite: bool)
    requires Valid(t)
    ensures Valid(ImportSingle(t, parsed, overwrite).1)
  {
    var result := ImportSingle(t, parsed, overwrite);
    if result.0.Ok? && result.0.value.1 {
      CreatedShape(t, parsed, overwrite);
      var (header, items) := parsed.value;
      var existing := FindByNumber(t.headers, header.numeroAvd).value;
      if existing.Some? {
        RemovedValid(t, existing.value.id);
      }
      InsertedValid(Cleared(t, existing), ParseInt(header.numeroAvd).value, header, items);
    }
  }

  /** Once the AVD found by its number is deleted, no header carries that number. */
  lemma ClearedHasNoNumber(t: Tables, numero: string, existing: Option<HeaderRecord>)
    requires FindByNumber(t.headers, numero) == Ok(existing)
    ensures WithNumber(Cleared(t, existing).headers, numero) == []
  {
    var cleared := Cleared(t, existing);
    WithNumberMembers(t.headers, numero);
    if existing.Some? {
      WithoutIdMembers(t.headers, existing.value.id);
      var found := WithNumber(t.headers, numero);
      assert found == [existing.value];
      assert forall g <- cleared.headers :: g.numeroAvd != numero;
    }
    WithNumberNone(cleared.headers, numero);
  }

  /** Appending one header adds it to the headers with its number and to no other number. */
  lemma WithNumberAppendOne(hs: seq<HeaderRecord>, h: HeaderRecord, numero: string)
    ensures WithNumber(hs + [h], numero) == WithNumber(hs, numero) + (if h.numeroAvd == numero then [h] else [])
  {
    WithNumberAppend(hs, [h], numero);
    assert WithNumber([h], numero) == (if h.numeroAvd == numero then [h] else []) + WithNumber([], numero);
  }

  /**
   * After import_single_avd has stored an AVD, exactly one header carries its
   * number: the new one, under the returned id. This holds whatever the
   * tables held before, since more than one match makes the import fail.
   */
  lemma ImportSingleLeavesOne(t: Tables, parsed: Result<(AvdHeader, seq<AvdItem>), Failure>, overwrite: bool)
    requires ImportSingle(t, parsed, overwrite).0.Ok? && ImportSingle(t, parsed, overwrite).0.value.1
    ensures var (r, t') := ImportSingle(t, parsed, overwrite);
      WithNumber(t'.headers, parsed.value.0.numeroAvd) == [t'.headers[|t'.headers| - 1]]
      && t'.headers[|t'.headers| - 1].id == r.value.0
  {
    CreatedShape(t, parsed, overwrite);
    var (header, items) := parsed.value;
    var numero := header.numeroAvd;
    var existing := FindByNumber(t.headers, numero).value;
    var cleared := Cleared(t, existing);
    var h := HeaderRecordOf(t.nextId, ParseInt(numero).value, header, items);
    ClearedHasNoNumber(t, numero, existing);
    WithNumberAppendOne(cleared.headers, h, numero);
  }

  /** import_single_avd never stores an AVD number twice. */
  lemma ImportSingleKeepsNumbersUnique(t: Tables, parsed: Result<(AvdHeader, seq<AvdItem>), Failure>, overwrite: bool)
    requires UniqueNumbers(t.headers)
    ensures UniqueNumbers(ImportSingle(t, parsed, overwrite).1.headers)
  {
    var result := ImportSingle(t, parsed, overwrite);
    if result.0.Ok? && result.0.value.1 {
      CreatedShape(t, parsed, overwrite);
      var (header, items) := parsed.value;
      var existing := FindByNumber(t.headers, header.numeroAvd).value;
      var cleared := Cleared(t, existing);
      var h := HeaderRecordOf(t.nextId, ParseInt(header.numeroAvd).value, header, items);
      assert result.1.headers == cleared.headers + [h];
      forall numero ensures |WithNumber(result.1.headers, numero)| <= 1 {
        WithNumberAppendOne(cleared.headers, h, numero);
        if numero == header.numeroAvd {
          ClearedHasNoNumber(t, numero, existing);
        } else if existing.Some? {
          WithoutIdSubNumber(t.headers, existing.value.id, numero);
        }
      }
    }
  }

  /** Deleting headers never adds a header with a given number. */
  lemma {:induction false} WithoutIdSubNumber(hs: seq<HeaderRecord>, id: int, numero: string)
    ensures |WithNumber(WithoutId(hs, id), numero)| <= |WithNumber(hs, numero)|
  {
    if hs != [] {
      WithoutIdSubNumber(hs[1..], id, numero);
      var rest := WithoutId(hs[1..], id);
      var x := if hs[0].numeroAvd == numero then [hs[0]] else [];
      assert WithNumber(hs, numero) == x + WithNumber(hs[1..], numero);
      if hs[0].id != id {
        assert WithoutId(hs, id) == [hs[0]] + rest;
        assert ([hs[0]] + rest)[0] == hs[0] && ([hs[0]] + rest)[1..] == rest;
        assert WithNumber([hs[0]] + rest, numero) == x + WithNumber(rest, numero);
      } else {
        assert WithoutId(hs, id) == [] + rest;
        assert [] + rest == rest;
      }
    }
  }

  /** The items left once the AVD found by number is deleted belong to the headers stored before. */
  lemma ClearedItems(t: Tables, existing: Option<HeaderRecord>)
    requires Valid(t)
    ensures forall it <- Cleared(t, existing).items :: it.avdId < t.nextId
    ensures existing.Some? ==> forall it <- Cleared(t, existing).items :: it.avdId != existing.value.id
    ensures existing.Some? ==> existing.value.id !in HeaderIds(Cleared(t, existing).headers)
  {
    if existing.Some? {
      ItemsNotOfMembers(t.items, existing.value.id);
      WithoutIdMembers(t.headers, existing.value.id);
    }
    forall it <- Cleared(t, existing).items ensures it.avdId < t.nextId {
      assert it in t.items;
      var g :| g in t.headers && g.id == it.avdId;
    }
  }

  /**
   * The header row an insertion appends: it goes last, under the next id, with
   * the company name doubling as the branch and the first item's ONS code
   * (none for an AVD without items).
   */
  lemma InsertedHeader(t: Tables, identificador: int, header: AvdHeader, items: seq<AvdItem>)
    ensures var (id, t') := Inserted(t, identificador, header, items);
      && |t'.headers| == |t.headers| + 1 && t'.headers[..|t.headers|] == t.headers
      && var h := t'.headers[|t.headers|];
      && h.id == id == t.nextId && h.identificador == identificador
      && h.numeroAvd == header.numeroAvd && h.codigoEmpresa == header.codigoEmpresa
      && h.codigoFilial == header.nomeEmpresa && h.nomeEmpresa == header.nomeEmpresa
      && (h.codigoOns.Some? <==> items != [])
      && (items != [] ==> h.codigoOns == Some(items[0].codigoOns))
      && h.dataCompetencia == header.periodoApuracao
      && h.vencimentoParcela1 == header.vencimentoParcela1
      && h.vencimentoParcela2 == header.vencimentoParcela2
      && h.vencimentoParcela3 == header.vencimentoParcela3
  {
    var t' := Inserted(t, identificador, header, items).1;
    assert t'.headers[..|t.headers|] == t.headers;
  }

  /** The header import_avd creates is the last row, carrying the parsed number as its integer identifier. */
  lemma ImportNewHeader(t: Tables, parsed: Result<(AvdHeader, seq<AvdItem>), Failure>)
    requires ImportNew(t, parsed).0.Ok?
    ensures var (r, t') := ImportNew(t, parsed);
      && t'.headers != []
      && var h := t'.headers[|t'.headers| - 1];
      && h.id == r.value
      && h.numeroAvd == parsed.value.0.numeroAvd
      && ParseInt(h.numeroAvd) == Some(h.identificador)
      && h.codigoFilial == parsed.value.0.nomeEmpresa
      && h.codigoOns == (if parsed.value.1 == [] then None else Some(parsed.value.1[0].codigoOns))
  {
    var numero := parsed.value.0.numeroAvd;
    InsertedHeader(t, ParseInt(numero).value, parsed.value.0, parsed.value.1);
  }

  /** The header import_single_avd creates is the last row, carrying the parsed number as its integer identifier. */
  lemma ImportSingleHeader(t: Tables, parsed: Result<(AvdHeader, seq<AvdItem>), Failure>, overwrite: bool)
    requires ImportSingle(t, parsed, overwrite).0.Ok? && ImportSingle(t, parsed, overwrite).0.value.1
    ensures var (r, t') := ImportSingle(t, parsed, overwrite);
      && t'.headers != []
      && var h := t'.headers[|t'.headers| - 1];
      && h.id == r.value.0
      && h.numeroAvd == parsed.value.0.numeroAvd
      && ParseInt(h.numeroAvd) == Some(h.identificador)
      && h.codigoFilial == parsed.value.0.nomeEmpresa
      && h.codigoOns == (if parsed.value.1 == [] then None else Some(parsed.value.1[0].codigoOns))
  {
    CreatedShape(t, parsed, overwrite);
    var numero := parsed.value.0.numeroAvd;
    var cleared := Cleared(t, FindByNumber(t.headers, numero).value);
    InsertedHeader(cleared, ParseInt(numero).value, parsed.value.0, parsed.value.1);
  }

  /** The AVD import_avd stores owns exactly the parsed items, numbered 1..n in spreadsheet order. */
  lemma ImportNewItems(t: Tables, parsed: Result<(AvdHeader, seq<AvdItem>), Failure>)
    requires Valid(t)
    requires ImportNew(t, parsed).0.Ok?
    ensures var (r, t') := ImportNew(t, parsed);
      ItemsOf(t'.items, r.value) == ItemRecords(r.value, parsed.value.1)
  {
    var items := parsed.value.1;
    var id := t.nextId;
    assert forall it <- t.items :: it.avdId != id;
    ItemsOfAppend(t.items, ItemRecords(id, items), id);
    ItemsOfAll(ItemRecords(id, items), id);
    ItemsOfNone(t.items, id);
  }

  /**
   * The AVD import_single_avd stores owns exactly the parsed items, numbered
   * 1..n in spreadsheet order.
   */
  lemma ImportSingleItems(t: Tables, parsed: Result<(AvdHeader, seq<AvdItem>), Failure>, overwrite: bool)
    requires Valid(t)
    requires ImportSingle(t, parsed, overwrite).0.Ok? && ImportSingle(t, parsed, overwrite).0.value.1
    ensures var (r, t') := ImportSingle(t, parsed, overwrite);
      ItemsOf(t'.items, r.value.0) == ItemRecords(r.value.0, parsed.value.1)
  {
    CreatedShape(t, parsed, overwrite);
    var (header, items) := parsed.value;
    var existing := FindByNumber(t.headers, header.numeroAvd).value;
    var cleared := Cleared(t, existing);
    var id := t.nextId;
    ClearedItems(t, existing);
    ItemsOfAppend(cleared.items, ItemRecords(id, items), id);
    ItemsOfAll(ItemRecords(id, items), id);
    ItemsOfNone(cleared.items, id);
  }

  /** A lookup that succeeds finds the one header carrying that number. */
  lemma FoundIsOnly(hs: seq<HeaderRecord>, numero: string, h: HeaderRecord)
    requires FindByNumber(hs, numero).Ok?
    requires h in hs && h.numeroAvd == numero
    ensures FindByNumber(hs, numero).value == Some(h)
  {
    WithNumberMembers(hs, numero);
    var found := WithNumber(hs, numero);
    assert h in found;
    assert |found| == 1;
    assert found == [found[0]];
  }

  /** Inserting under the next id leaves an id that is already gone still gone. */
  lemma InsertedKeepsGone(t: Tables, identificador: int, header: AvdHeader, items: seq<AvdItem>, gone: int)
    requires gone < t.nextId && gone !in HeaderIds(t.headers)
    requires forall it <- t.items :: it.avdId != gone
    ensures var t' := Inserted(t, identificador, header, items).1;
      gone !in HeaderIds(t'.headers) && ItemsOf(t'.items, gone) == []
  {
    var id := t.nextId;
    var h := HeaderRecordOf(id, identificador, header, items);
    var t' := Inserted(t, identificador, header, items).1;
    forall g <- t'.headers ensures g.id != gone {
      if g != h {
        assert g in t.headers;
      }
    }
    ItemsOfNone(t.items, gone);
    ItemsOfNone(ItemRecords(id, items), gone);
    ItemsOfAppend(t.items, ItemRecords(id, items), gone);
  }

  /**
   * An AVD that import_single_avd overwrote leaves neither its header nor
   * any of its items behind.
   */
  lemma ImportSingleDropsReplaced(t: Tables, parsed: Result<(AvdHeader, seq<AvdItem>), Failure>, overwrite: bool, replaced: HeaderRecord)
    requires Valid(t)
    requires ImportSingle(t, parsed, overwrite).0.Ok? && ImportSingle(t, parsed, overwrite).0.value.1
    requires replaced in t.headers && replaced.numeroAvd == parsed.value.0.numeroAvd
    ensures var t' := ImportSingle(t, parsed, overwrite).1;
      replaced.id !in HeaderIds(t'.headers) && ItemsOf(t'.items, replaced.id) == []
  {
    CreatedShape(t, parsed, overwrite);
    var numero := parsed.value.0.numeroAvd;
    FoundIsOnly(t.headers, numero, replaced);
    var existing := Some(replaced);
    ClearedItems(t, existing);
    InsertedKeepsGone(Cleared(t, existing), ParseInt(numero).value, parsed.value.0, parsed.value.1, replaced.id);
  }

  // ---------------------------------------------------------------------------
  // The database session

  /** The two tables as a session changes them. */
  class AvdDatabase {
    var headers: seq<HeaderRecord>
    var items: seq<ItemRecord>
    var nextId: int

    function State(): Tables
      reads this
    {
      Tables(headers, items, nextId)
    }

    /** An empty database; ids start at 1. */
    constructor()
      ensures State() == Tables([], [], 1) && Valid(State())
    {
      headers, items, nextId := [], [], 1;
    }

    /** session.add(header), flush, then session.add of each item in turn. */
    method Insert(identificador: int, header: AvdHeader, parsedItems: seq<AvdItem>) returns (id: int)
      modifies this
      ensures (id, State()) == Inserted(old(State()), identificador, header, parsedItems)
    {
      id := nextId;
      headers := headers + [HeaderRecordOf(id, identificador, header, parsedItems)];
      nextId := nextId + 1;
      var i := 0;
      while i < |parsedItems|
        invariant 0 <= i <= |parsedItems|
        invariant headers == old(headers) + [HeaderRecordOf(id, identificador, header, parsedItems)]
        invariant nextId == id + 1 && id == old(nextId)
        invariant items == old(items) + ItemRecords(id, parsedItems[..i])
      {
        assert ItemRecords(id, parsedItems[..i + 1]) == ItemRecords(id, parsedItems[..i]) + [ItemRecordOf(id, i + 1, parsedItems[i])];
        items := items + [ItemRecordOf(id, i + 1, parsedItems[i])];
        i := i + 1;
      }
      assert parsedItems[..i] == parsedItems;
    }

    /** Deleting an AVD's items, then its header. */
    method Remove(id: int)
      modifies this
      ensures State() == Removed(old(State()), id)
    {
      items := ItemsNotOf(items, id);
      headers := WithoutId(headers, id);
    }

    /** import_avd (import_avd_excel.py): insert the parsed AVD, whatever is already stored. */
    method ImportAvd(sharedRoot: Element, sheetRoot: Element) returns (r: Result<int, Failure>)
      modifies this
      ensures (r, State()) == ImportNew(old(State()), AvdOf(sharedRoot, sheetRoot))
    {
      var parsed := ParseAvd(sharedRoot, sheetRoot);
      if parsed.Err? {
        return Err(parsed.error);
      }
      var (header, parsedItems) := parsed.value;
      var identificador := ParseInt(header.numeroAvd);
      if identificador.None? {
        return Err(InvalidInteger(header.numeroAvd));
      }
      var id := Insert(identificador.value, header, parsedItems);
      return Ok(id);
    }

    /**
     * import_single_avd (import_avd_batch.py): skip, or delete and re-import,
     * an AVD already stored under the same number. A failure after the
     * deletion restores what the session held before the call.
     */
    method ImportSingleAvd(sharedRoot: Element, sheetRoot: Element, overwrite: bool) returns (r: Result<(int, bool), Failure>)
      modifies this
      ensures (r, State()) == ImportSingle(old(State()), AvdOf(sharedRoot, sheetRoot), overwrite)
    {
      var parsed := ParseAvd(sharedRoot, sheetRoot);
      if parsed.Err? {
        return Err(parsed.error);
      }
      var (header, parsedItems) := parsed.value;
      var numero := header.numeroAvd;
      var existing := FindByNumber(headers, numero);
      if existing.Err? {
        return Err(existing.error);
      }
      if existing.value.Some? && !overwrite {
        return Ok((existing.value.value.id, false));
      }
      var savedHeaders, savedItems := headers, items;
      if existing.value.Some? {
        Remove(existing.value.value.id);
      }
      assert State() == Cleared(old(State()), existing.value);
      var identificador := ParseInt(numero);
      if identificador.None? {
        headers, items := savedHeaders, savedItems;
        return Err(InvalidInteger(numero));
      }
      var id := Insert(identificador.value, header, parsedItems);
      return Ok((id, true));
    }
  }
}

=== FILE: avd_template.dfy ===
/**
 * The debit-note (AVD) template parser of scripts/import_avd_excel.py: the
 * decoders for the template's cells (Excel serial dates, "Mes/AAAA" periods,
 * "... dia DD/MM/AAAA" due dates, decimal text) and parse_avd, which turns
 * the worksheet rows into a header and an ordered list of items.
 */
module AvdTemplate {
  import opened Results
  import opened Text
  import opened Decimals
  import opened Dates
  import opened Xml
  import opened Workbook

  /** EXCEL_EPOCH: day zero of Excel's serial dates. */
  const ExcelEpoch: Date := Date(1899, 12, 30)

  /** PT_BR_MONTHS, keyed by the normalised month name. */
  const PtBrMonths: map<string, int> := map[
    "janeiro" := 1, "fevereiro" := 2, "marco" := 3, "abril" := 4,
    "maio" := 5, "junho" := 6, "julho" := 7, "agosto" := 8,
    "setembro" := 9, "outubro" := 10, "novembro" := 11, "dezembro" := 12]

  /** Every month name maps to a month number. */
  lemma MonthNumbers()
    ensures forall name <- PtBrMonths :: 1 <= PtBrMonths[name] <= 12
  {
  }

  datatype AvdHeader = AvdHeader(
    numeroAvd: string,
    encargoMensal: Option<Decimal>,
    codigoEmpresa: string,
    nomeEmpresa: string,
    periodoApuracao: DateTime,
    pvSpb: Option<Decimal>,
    dataDisponibilizacao: DateTime,
    totalSemPisCofins: Option<Decimal>,
    vencimentoParcela1: DateTime,
    vencimentoParcela2: DateTime,
    vencimentoParcela3: DateTime)

  datatype AvdItem = AvdItem(
    codigoOns: string,
    nomeTransmissora: Option<string>,
    cnpj: Option<string>,
    valorParcela1: Option<Decimal>,
    valorParcela2: Option<Decimal>,
    valorParcela3: Option<Decimal>,
    valorTotal: Option<Decimal>,
    valorPisCofins: Option<Decimal>)

  // ---------------------------------------------------------------------------
  // Cell decoders

  /** _normalize_month_name: strip, lower-case, then drop accents. */
  function NormalizeMonthName(text: string): (r: string)
    ensures |r| <= |text|
    ensures forall c <- r :: !HasAccent(c) && !IsCombining(c)
  {
    StripAccents(Lower(Trim(text)))
  }

  /** _parse_period: "Mes/AAAA" to midnight of the first day of that month. */
  function ParsePeriod(text: string): (r: Result<DateTime, Failure>)
    ensures r.Ok? ==> r.value == Midnight(r.value.date) && r.value.date.day == 1 && ValidDate(r.value.date)
    ensures CountChar(text, '/') != 1 ==> r == Err(PeriodShape(text))
    ensures |Split(text, '/')| == 2 && NormalizeMonthName(Split(text, '/')[0]) !in PtBrMonths ==>
              r == Err(UnknownMonth(NormalizeMonthName(Split(text, '/')[0])))
  {
    var parts := Split(text, '/');
    SplitCount(text, '/');
    if |parts| != 2 then Err(PeriodShape(text)) else MonthOfYear(parts[0], parts[1])
  }

  /** The two halves of a period: the month name looked up after normalising, the year read with int(). */
  function MonthOfYear(monthText: string, yearText: string): (r: Result<DateTime, Failure>)
    ensures r.Ok? ==> r.value == Midnight(r.value.date) && r.value.date.day == 1 && ValidDate(r.value.date)
  {
    var name := NormalizeMonthName(monthText);
    if name !in PtBrMonths then Err(UnknownMonth(name))
    else
      match ParseInt(yearText)
      case None => Err(InvalidInteger(yearText))
      case Some(year) =>
        MonthNumbers();
        var d := Date(year, PtBrMonths[name], 1);
        if 1 <= year <= 9999 then Ok(Midnight(d)) else Err(DateOutOfRange)
  }

  /** _parse_due: the text after the first "dia", stripped, read as DD/MM/YYYY. */
  function ParseDue(text: string): (r: Result<DateTime, Failure>)
    ensures IndexOf(text, "dia").None? ==> r == Err(DueDateShape(text))
    ensures r.Ok? ==> r.value == Midnight(r.value.date) && ValidDate(r.value.date)
  {
    match IndexOf(text, "dia")
    case None => Err(DueDateShape(text))
    case Some(k) => ParseDayMonthYear(Trim(text[k + 3..]))
  }

  /** _decimal_or_none: None and "" give None; any other text must be a decimal. */
  function DecimalOrNone(value: Option<string>): (r: Result<Option<Decimal>, Failure>)
    ensures value.None? || value == Some("") ==> r == Ok(None)
    ensures value.Some? && value != Some("") ==>
              r == (match Decimals.Parse(value.value)
                    case Some(d) => Ok(Some(d))
                    case None => Err(InvalidDecimal(value.value)))
  {
    if value.None? || value.value == "" then Ok(None)
    else
      match Decimals.Parse(value.value)
      case None => Err(InvalidDecimal(value.value))
      case Some(d) => Ok(Some(d))
  }

  /** int(x) for a decimal: the quotient truncated toward zero. */
  function TruncDiv(c: int, p: int): (q: int)
    requires p > 0
    ensures c >= 0 ==> 0 <= c - q * p < p
    ensures c < 0 ==> -p < c - q * p <= 0
  {
    if c >= 0 then c / p else -((-c) / p)
  }

  /** round() on n / d, ties to the even neighbour (how timedelta rounds microseconds). */
  function RoundHalfEven(n: int, d: int): (q: int)
    requires d > 0
    ensures 2 * (n - q * d) <= d && -d <= 2 * (n - q * d)
  {
    var f, r := n / d, n % d;
    if 2 * r > d then f + 1
    else if 2 * r < d then f
    else if f % 2 == 0 then f
    else f + 1
  }

  /** The serial split as _excel_serial_to_datetime does: whole days, then the fraction in microseconds. */
  function SerialOffset(d: Decimal): (us: int) {
    if d.exponent >= 0 then d.coefficient * Pow10(d.exponent) * MicrosPerDay
    else
      var p := Pow10(-d.exponent);
      var days := TruncDiv(d.coefficient, p);
      days * MicrosPerDay + RoundHalfEven((d.coefficient - days * p) * MicrosPerDay, p)
  }

  /**
   * The offset is the number of microseconds nearest to the serial's value
   * in days: exact for an integral serial, within half a microsecond otherwise.
   */
  predicate NearestMicrosecond(us: int, d: Decimal) {
    if d.exponent >= 0 then us == d.coefficient * Pow10(d.exponent) * MicrosPerDay
    else
      var p: int := Pow10(-d.exponent);
      2 * (us * p - d.coefficient * MicrosPerDay) <= p && -p <= 2 * (us * p - d.coefficient * MicrosPerDay)
  }

  lemma SerialOffsetNearest(d: Decimal)
    ensures NearestMicrosecond(SerialOffset(d), d)
  {
    if d.exponent < 0 {
      var p := Pow10(-d.exponent);
      var days := TruncDiv(d.coefficient, p);
      var rest := d.coefficient - days * p;
      var q := RoundHalfEven(rest * MicrosPerDay, p);
      var us := days * MicrosPerDay + q;
      assert us * p - d.coefficient * MicrosPerDay == q * p - rest * MicrosPerDay by {
        assert us * p == days * p * MicrosPerDay + q * p;
        assert d.coefficient * MicrosPerDay == days * p * MicrosPerDay + rest * MicrosPerDay;
      }
    }
  }

  /** The naive datetime of the Excel epoch. */
  function EpochTime(): (t: DateTime)
    ensures ValidDateTime(t)
  {
    Midnight(ExcelEpoch)
  }

  /** _excel_serial_to_datetime: EXCEL_EPOCH plus the serial read as days. */
  function ExcelSerial(serial: string): (r: Result<DateTime, Failure>)
    ensures Decimals.Parse(serial).None? ==> r == Err(InvalidDecimal(serial))
    ensures r.Ok? <==> Decimals.Parse(serial).Some? && SerialInRange(Decimals.Parse(serial).value)
    ensures r.Ok? ==> ValidDateTime(r.value) && r.value.utcOffset.None?
    ensures r.Ok? ==> Instant(r.value) == Instant(EpochTime()) + SerialOffset(Decimals.Parse(serial).value)
  {
    var parsed := Decimals.Parse(serial);
    if parsed.None? then Err(InvalidDecimal(serial)) else SerialDays(parsed.value)
  }

  /** The datetime read from a serial is the one nearest, to the microsecond, to the epoch plus the serial in days. */
  lemma ExcelSerialNearest(serial: string)
    requires ExcelSerial(serial).Ok?
    ensures NearestMicrosecond(Instant(ExcelSerial(serial).value) - Instant(EpochTime()), Decimals.Parse(serial).value)
  {
    var d := Decimals.Parse(serial).value;
    var us := Instant(ExcelSerial(serial).value) - Instant(EpochTime());
    assert us == SerialOffset(d);
    SerialOffsetNearest(d);
  }

  /** The serial's date falls in years 1..9999, the range datetime can hold. */
  predicate SerialInRange(d: Decimal) {
    1 <= AddDays(ExcelEpoch, SerialOffset(d) / MicrosPerDay).year <= 9999
  }

  /** The epoch advanced by a serial already read as a decimal number of days. */
  function SerialDays(d: Decimal): (r: Result<DateTime, Failure>)
    ensures r.Ok? <==> SerialInRange(d)
    ensures r.Ok? ==> ValidDateTime(r.value) && r.value.utcOffset.None?
    ensures r.Ok? ==> Instant(r.value) == Instant(EpochTime()) + SerialOffset(d)
    ensures r.Ok? ==> NearestMicrosecond(Instant(r.value) - Instant(EpochTime()), d)
  {
    SerialOffsetNearest(d);
    AddMicroseconds(EpochTime(), SerialOffset(d))
  }

  /** The serial of 9999-12-31, the last day datetime can hold. */
  const MaxSerial: int := 2958465

  /** The epoch 1899-12-30 is day 693593 counted from 0001-01-01. */
  lemma EpochNumber()
    ensures DayNumber(ExcelEpoch) == 693593
  {
    DaysBeforeYearClosed(1899);
    YearLength(1899);
  }

  /** A serial with no fractional part lands exactly at midnight, that many days after the epoch. */
  lemma SerialWholeDays(d: Decimal)
    requires d.exponent >= 0
    ensures SerialDays(d).Ok? ==>
              && SerialDays(d).value == Midnight(SerialDays(d).value.date)
              && DayNumber(SerialDays(d).value.date) == DayNumber(ExcelEpoch) + d.coefficient * Pow10(d.exponent)
    ensures 0 <= d.coefficient * Pow10(d.exponent) <= MaxSerial ==> SerialDays(d).Ok?
  {
    var n := d.coefficient * Pow10(d.exponent);
    if 0 <= n <= MaxSerial {
      assert SerialOffset(d) / MicrosPerDay == n;
      EpochNumber();
      AddDaysNumber(ExcelEpoch, n);
      DayNumberRange(AddDays(ExcelEpoch, n));
    }
    if SerialDays(d).Ok? {
      var t := SerialDays(d).value;
      var n := d.coefficient * Pow10(d.exponent);
      var x := t.seconds * 1_000_000 + t.microseconds;
      var k := DayNumber(t.date) - DayNumber(ExcelEpoch) - n;
      assert Instant(t) - Instant(EpochTime()) == n * MicrosPerDay;
      assert k * MicrosPerDay == -x;
      assert 0 <= x < MicrosPerDay;
    }
  }

  // ---------------------------------------------------------------------------
  // parse_avd

  /** _build_rows_map: the rows keyed by number; a later row with the same number replaces an earlier one. */
  function BuildRowsMap(rows: seq<Row>): map<int, map<string, string>> {
    if rows == [] then map[]
    else BuildRowsMap(rows[..|rows| - 1])[rows[|rows| - 1].number := rows[|rows| - 1].cells]
  }

  /** map_rows[row][column], a KeyError when the row or the column is missing. */
  function Cell(mapRows: map<int, map<string, string>>, row: int, column: string): (r: Result<string, Failure>)
    ensures r.Ok? <==> row in mapRows && column in mapRows[row]
    ensures r.Ok? ==> r.value == mapRows[row][column]
  {
    if row in mapRows && column in mapRows[row] then Ok(mapRows[row][column])
    else Err(MissingCell(row, column))
  }

  /** map_rows[row].get(column) on a row already known to exist. */
  function OptionalCell(mapRows: map<int, map<string, string>>, row: int, column: string): Option<string>
    requires row in mapRows
  {
    if column in mapRows[row] then Some(mapRows[row][column]) else None
  }

  /** The header dictionary, its entries evaluated in order, so the first failing entry decides the error. */
  function ParseHeader(mapRows: map<int, map<string, string>>): Result<AvdHeader, Failure> {
    HeaderWith(mapRows, DecimalOrNone, ParsePeriod, ExcelSerial, ParseDue)
  }

  /** The header dictionary with its decoders as parameters. */
  function HeaderWith(mapRows: map<int, map<string, string>>,
                      decimal: Option<string> -> Result<Option<Decimal>, Failure>,
                      period: string -> Result<DateTime, Failure>,
                      serial: string -> Result<DateTime, Failure>,
                      due: string -> Result<DateTime, Failure>): Result<AvdHeader, Failure>
  {
    var numero :- Cell(mapRows, 1, "D");
    var encargo :- decimal(OptionalCell(mapRows, 1, "G"));
    var codigo :- Cell(mapRows, 2, "A");
    var nome :- Cell(mapRows, 2, "B");
    var periodoText :- Cell(mapRows, 2, "D");
    var periodo :- period(periodoText);
    var pv :- decimal(OptionalCell(mapRows, 2, "G"));
    var serialText :- Cell(mapRows, 3, "D");
    var disponibilizacao :- serial(serialText);
    var total :- decimal(OptionalCell(mapRows, 3, "G"));
    var due1 :- Cell(mapRows, 5, "D");
    var venc1 :- due(due1);
    var due2 :- Cell(mapRows, 5, "E");
    var venc2 :- due(due2);
    var due3 :- Cell(mapRows, 5, "F");
    var venc3 :- due(due3);
    Ok(AvdHeader(numero, encargo, codigo, nome, periodo, pv, disponibilizacao, total, venc1, venc2, venc3))
  }

  /** The header cells parse_avd reads with map_rows[row][column]. */
  const RequiredCells: set<(int, string)> := {(1, "D"), (2, "A"), (2, "B"), (2, "D"), (3, "D"), (5, "D"), (5, "E"), (5, "F")}

  /** data.get(column) */
  function Get(cells: map<string, string>, column: string): Option<string> {
    if column in cells then Some(cells[column]) else None
  }

  /** A row that yields an item: below the header block (number > 5), with a non-empty column A. */
  predicate IsItemRow(row: Row) {
    row.number > 5 && "A" in row.cells && row.cells["A"] != ""
  }

  /** One item dictionary, its decimal entries evaluated in order (D, E, F, H, G). */
  function ItemOf(row: Row): (r: Result<AvdItem, Failure>)
    requires IsItemRow(row)
    ensures r.Ok? <==> && DecimalOrNone(Get(row.cells, "D")).Ok? && DecimalOrNone(Get(row.cells, "E")).Ok?
                       && DecimalOrNone(Get(row.cells, "F")).Ok? && DecimalOrNone(Get(row.cells, "H")).Ok?
                       && DecimalOrNone(Get(row.cells, "G")).Ok?
    ensures r.Ok? ==> r.value.codigoOns == row.cells["A"]
                      && r.value.nomeTransmissora == Get(row.cells, "B") && r.value.cnpj == Get(row.cells, "C")
    ensures r.Ok? ==> && r.value.valorParcela1 == DecimalOrNone(Get(row.cells, "D")).value
                      && r.value.valorParcela2 == DecimalOrNone(Get(row.cells, "E")).value
                      && r.value.valorParcela3 == DecimalOrNone(Get(row.cells, "F")).value
                      && r.value.valorTotal == DecimalOrNone(Get(row.cells, "H")).value
                      && r.value.valorPisCofins == DecimalOrNone(Get(row.cells, "G")).value
  {
    var p1 :- DecimalOrNone(Get(row.cells, "D"));
    var p2 :- DecimalOrNone(Get(row.cells, "E"));
    var p3 :- DecimalOrNone(Get(row.cells, "F"));
    var total :- DecimalOrNone(Get(row.cells, "H"));
    var pisCofins :- DecimalOrNone(Get(row.cells, "G"));
    Ok(AvdItem(row.cells["A"], Get(row.cells, "B"), Get(row.cells, "C"), p1, p2, p3, total, pisCofins))
  }

  /** The rows that yield items, in row order. */
  function ItemRows(rows: seq<Row>): (r: seq<Row>)
    ensures forall row <- r :: IsItemRow(row)
  {
    if rows == [] then []
    else ItemRows(rows[..|rows| - 1]) + (if IsItemRow(rows[|rows| - 1]) then [rows[|rows| - 1]] else [])
  }

  /** The items of the given rows, built in order; the first failing row decides the error. */
  function Items(rows: seq<Row>): Result<seq<AvdItem>, Failure> {
    if rows == [] then Ok([])
    else
      match Items(rows[..|rows| - 1])
      case Err(e) => Err(e)
      case Ok(done) =>
        var row := rows[|rows| - 1];
        if !IsItemRow(row) then Ok(done)
        else
          match ItemOf(row)
          case Err(e) => Err(e)
          case Ok(item) => Ok(done + [item])
  }

  /** parse_avd over the worksheet rows: the header, then the items. */
  function ParseAvdRows(rows: seq<Row>): Result<(AvdHeader, seq<AvdItem>), Failure> {
    var header :- ParseHeader(BuildRowsMap(rows));
    var items :- Items(rows);
    Ok((header, items))
  }

  /** What parse_avd returns for a workbook given by its shared-strings part and its first sheet. */
  function AvdOf(sharedRoot: Element, sheetRoot: Element): Result<(AvdHeader, seq<AvdItem>), Failure> {
    match SheetRows(RowElements(sheetRoot), SharedStrings(sharedRoot))
    case Err(e) => Err(e)
    case Ok(rows) => ParseAvdRows(rows)
  }

  /** parse_avd: read the shared strings and the sheet, then the header and, row by row, the items. */
  method ParseAvd(sharedRoot: Element, sheetRoot: Element) returns (r: Result<(AvdHeader, seq<AvdItem>), Failure>)
    ensures r == AvdOf(sharedRoot, sheetRoot)
  {
    var shared := ParseSharedStrings(sharedRoot);
    var sheet := ParseSheet(sheetRoot, shared);
    if sheet.Err? {
      return Err(sheet.error);
    }
    var rows := sheet.value;
    var header := ParseHeader(BuildRowsMap(rows));
    if header.Err? {
      return Err(header.error);
    }
    var items: seq<AvdItem> := [];
    var i := 0;
    while i < |rows|
      invariant 0 <= i <= |rows|
      invariant Items(rows[..i]) == Ok(items)
    {
      assert rows[..i + 1][..i] == rows[..i];
      var row := rows[i];
      if IsItemRow(row) {
        var item := ItemOf(row);
        if item.Err? {
          ItemsPrefixErr(rows, i + 1);
          return Err(item.error);
        }
        items := items + [item.value];
      }
      i := i + 1;
    }
    assert rows[..i] == rows;
    r := Ok((header.value, items));
  }

  lemma {:induction false} ItemsPrefixErr(rows: seq<Row>, k: nat)
    requires k <= |rows| && Items(rows[..k]).Err?
    ensures Items(rows) == Items(rows[..k])
    decreases |rows| - k
  {
    if k < |rows| {
      var next := rows[..k + 1];
      assert next[..k] == rows[..k];
      ItemsPrefixErr(rows, k + 1);
    } else {
      assert rows[..k] == rows;
    }
  }

  // ---------------------------------------------------------------------------
  // Properties

  /** A name already in normal form, such as every key of the month table, is left as it is. */
  lemma NormalizePlain(name: string)
    requires PlainLower(name)
    ensures NormalizeMonthName(name) == name
  {
    assert NoSpace(name);
    TrimNoSpace(name);
    assert Lower(name) == name;
    StripAccentsPlain(name);
  }

  lemma MonthKeysPlain()
    ensures forall name <- PtBrMonths :: PlainLower(name)
  {
  }

  /** The period text splits at its only '/' into the month name and the year. */
  lemma SplitPeriod(name: string, year: string)
    requires '/' !in name && '/' !in year
    ensures Split(name + "/" + year, '/') == [name, year]
  {
    SplitAppend(name, year, '/');
    SplitNoSep(year, '/');
  }

  /**
   * A period written as a month name, '/', and a year in 1..9999 gives the first
   * day of that month, whatever capitals, accents or surrounding blanks the name has.
   */
  lemma ParsePeriodOfName(monthText: string, year: int)
    requires '/' !in monthText && NormalizeMonthName(monthText) in PtBrMonths && 1 <= year <= 9999
    ensures ParsePeriod(monthText + "/" + NatToString(year))
            == Ok(Midnight(Date(year, PtBrMonths[NormalizeMonthName(monthText)], 1)))
  {
    var y := NatToString(year);
    assert '/' !in y by {
      assert AllDigits(y) && !IsDigit('/');
    }
    SplitPeriod(monthText, y);
    assert ParsePeriod(monthText + "/" + y) == MonthOfYear(monthText, y);
    ParseIntOfNat(year);
  }

  /** "mes/AAAA" written with a key of the month table reads back as the first day of that month. */
  lemma ParsePeriodRoundTrip(name: string, year: int)
    requires name in PtBrMonths && 1 <= year <= 9999
    ensures ParsePeriod(name + "/" + NatToString(year)) == Ok(Midnight(Date(year, PtBrMonths[name], 1)))
  {
    MonthKeysPlain();
    NormalizePlain(name);
    ParsePeriodOfName(name, year);
  }

  /** The accented, capitalised "Março" normalises to the key "marco". */
  lemma NormalizeMarco()
    ensures NormalizeMonthName("Março") == "marco"
  {
    assert NoSpace("Março");
    TrimNoSpace("Março");
    LowerMarco();
    StripMarco();
  }

  lemma LowerMarco()
    ensures Lower("Março") == "março"
  {
  }

  lemma StripMarco()
    ensures StripAccents("março") == "marco"
  {
    var s0 := "o";
    assert PlainLower(s0);
    StripAccentsPlain(s0);
    var cedilla := 'ç';
    assert !IsCombining(cedilla) && BaseLetter(cedilla) == 'c';
    var s1 := [cedilla] + s0;
    StripAccentsCons(cedilla, s0);
    assert StripAccents(s1) == "co";
    var s2 := ['r'] + s1;
    StripAccentsCons('r', s1);
    var s3 := ['a'] + s2;
    StripAccentsCons('a', s2);
    var s4 := ['m'] + s3;
    StripAccentsCons('m', s3);
    assert s4 == "março";
  }

  /** A due-date text whose "dia" is the first 'd' reads back the date written after it. */
  lemma ParseDueRoundTrip(prefix: string, d: Date)
    requires 'd' !in prefix && ValidDate(d)
    ensures ParseDue(prefix + "dia " + FormatDayMonthYear(d)) == Ok(Midnight(d))
  {
    var f := FormatDayMonthYear(d);
    var text := prefix + "dia" + (" " + f);
    assert text == prefix + "dia " + f;
    FirstDia(prefix, " " + f);
    assert text[|prefix| + 3..] == " " + f;
    DayMonthYearNoSpace(d);
    TrimLeadingSpace(f);
    DayMonthYearRoundTrip(d);
  }

  lemma FirstDia(prefix: string, rest: string)
    requires 'd' !in prefix
    ensures IndexOf(prefix + "dia" + rest, "dia") == Some(|prefix|)
  {
    var text, k := prefix + "dia" + rest, |prefix|;
    assert OccursAt(text, "dia", k) by {
      assert text[k..k + 3] == "dia";
    }
    forall j | 0 <= j < k ensures !OccursAt(text, "dia", j) {
      assert text[j] == prefix[j];
      assert prefix[j] in prefix;
    }
  }

  lemma TrimLeadingSpace(f: string)
    requires NoSpace(f)
    ensures Trim(" " + f) == f
  {
    var s := " " + f;
    assert s != [] && s[0] == ' ';
    assert IsSpace(s[0]);
    assert s[1..] == f;
    assert TrimStart(s) == TrimStart(f);
    TrimNoSpace(f);
    assert Trim(f) == TrimEnd(TrimStart(f));
  }

  /** No later row carries the same number as rows[i]. */
  predicate LastWithNumber(rows: seq<Row>, i: int)
    requires 0 <= i < |rows|
  {
    forall j | i < j < |rows| :: rows[j].number != rows[i].number
  }

  /** The rows map has one entry per row number, holding the cells of the last row with that number. */
  lemma {:induction false} BuildRowsMapLastWins(rows: seq<Row>)
    ensures BuildRowsMap(rows).Keys == set row <- rows :: row.number
    ensures forall i | 0 <= i < |rows| && LastWithNumber(rows, i) :: BuildRowsMap(rows)[rows[i].number] == rows[i].cells
  {
    if rows != [] {
      var init, last := rows[..|rows| - 1], rows[|rows| - 1];
      BuildRowsMapLastWins(init);
      assert rows == init + [last];
      assert (set row <- rows :: row.number) == (set row <- init :: row.number) + {last.number};
      forall i | 0 <= i < |rows| && LastWithNumber(rows, i)
        ensures BuildRowsMap(rows)[rows[i].number] == rows[i].cells
      {
        if i < |rows| - 1 {
          assert rows[i] == init[i];
          assert LastWithNumber(init, i);
        }
      }
    }
  }

  /** A header is only produced when every cell it reads with map_rows[row][column] exists. */
  lemma HeaderNeedsRequiredCells(mapRows: map<int, map<string, string>>)
    ensures ParseHeader(mapRows).Ok? ==> forall cell <- RequiredCells :: cell.0 in mapRows && cell.1 in mapRows[cell.0]
  {
    HeaderWithCells(mapRows, DecimalOrNone, ParsePeriod, ExcelSerial, ParseDue);
  }

  lemma HeaderWithCells(mapRows: map<int, map<string, string>>,
                        decimal: Option<string> -> Result<Option<Decimal>, Failure>,
                        period: string -> Result<DateTime, Failure>,
                        serial: string -> Result<DateTime, Failure>,
                        due: string -> Result<DateTime, Failure>)
    ensures HeaderWith(mapRows, decimal, period, serial, due).Ok? ==>
              && (forall cell <- RequiredCells :: cell.0 in mapRows && cell.1 in mapRows[cell.0])
              && HeaderWith(mapRows, decimal, period, serial, due).value.numeroAvd == mapRows[1]["D"]
              && HeaderWith(mapRows, decimal, period, serial, due).value.codigoEmpresa == mapRows[2]["A"]
              && HeaderWith(mapRows, decimal, period, serial, due).value.nomeEmpresa == mapRows[2]["B"]
  {
  }

  /** The header's text fields are the cells 1D, 2A and 2B, unchanged. */
  lemma HeaderTextFields(mapRows: map<int, map<string, string>>)
    ensures ParseHeader(mapRows).Ok? ==>
              && ParseHeader(mapRows).value.numeroAvd == mapRows[1]["D"]
              && ParseHeader(mapRows).value.codigoEmpresa == mapRows[2]["A"]
              && ParseHeader(mapRows).value.nomeEmpresa == mapRows[2]["B"]
  {
    HeaderWithCells(mapRows, DecimalOrNone, ParsePeriod, ExcelSerial, ParseDue);
  }

  /** The header cells parse_avd reads, row by row: 1D, 2A, 2B, 2D, 3D, 5D, 5E and 5F. */
  predicate HeaderCellsPresent(mapRows: map<int, map<string, string>>) {
    && 1 in mapRows && "D" in mapRows[1]
    && 2 in mapRows && "A" in mapRows[2] && "B" in mapRows[2] && "D" in mapRows[2]
    && 3 in mapRows && "D" in mapRows[3]
    && 5 in mapRows && "D" in mapRows[5] && "E" in mapRows[5] && "F" in mapRows[5]
  }

  /**
   * The header dictionary succeeds exactly when its cells are present and
   * every decoder accepts its cell, and then each field is its decoder's
   * result on its own cell.
   */
  lemma HeaderWithDecoded(mapRows: map<int, map<string, string>>,
                          decimal: Option<string> -> Result<Option<Decimal>, Failure>,
                          period: string -> Result<DateTime, Failure>,
                          serial: string -> Result<DateTime, Failure>,
                          due: string -> Result<DateTime, Failure>)
    ensures HeaderWith(mapRows, decimal, period, serial, due).Ok? <==>
              && HeaderCellsPresent(mapRows)
              && decimal(OptionalCell(mapRows, 1, "G")).Ok? && period(mapRows[2]["D"]).Ok?
              && decimal(OptionalCell(mapRows, 2, "G")).Ok? && serial(mapRows[3]["D"]).Ok?
              && decimal(OptionalCell(mapRows, 3, "G")).Ok?
              && due(mapRows[5]["D"]).Ok? && due(mapRows[5]["E"]).Ok? && due(mapRows[5]["F"]).Ok?
    ensures HeaderWith(mapRows, decimal, period, serial, due).Ok? ==>
              var h := HeaderWith(mapRows, decimal, period, serial, due).value;
              && HeaderCellsPresent(mapRows)
              && decimal(OptionalCell(mapRows, 1, "G")) == Ok(h.encargoMensal)
              && period(mapRows[2]["D"]) == Ok(h.periodoApuracao)
              && decimal(OptionalCell(mapRows, 2, "G")) == Ok(h.pvSpb)
              && serial(mapRows[3]["D"]) == Ok(h.dataDisponibilizacao)
              && decimal(OptionalCell(mapRows, 3, "G")) == Ok(h.totalSemPisCofins)
              && due(mapRows[5]["D"]) == Ok(h.vencimentoParcela1)
              && due(mapRows[5]["E"]) == Ok(h.vencimentoParcela2)
              && due(mapRows[5]["F"]) == Ok(h.vencimentoParcela3)
  {
  }

  /**
   * parse_avd's header: present exactly when the cells exist and decode;
   * G1, G2 and G3 are the monthly charge, PV SPB and the total without
   * PIS/COFINS, D2 the period, D3 the serial date and D5, E5 and F5 the
   * three due dates.
   */
  lemma HeaderFields(mapRows: map<int, map<string, string>>)
    ensures ParseHeader(mapRows).Ok? <==>
              && HeaderCellsPresent(mapRows)
              && DecimalOrNone(OptionalCell(mapRows, 1, "G")).Ok? && ParsePeriod(mapRows[2]["D"]).Ok?
              && DecimalOrNone(OptionalCell(mapRows, 2, "G")).Ok? && ExcelSerial(mapRows[3]["D"]).Ok?
              && DecimalOrNone(OptionalCell(mapRows, 3, "G")).Ok?
              && ParseDue(mapRows[5]["D"]).Ok? && ParseDue(mapRows[5]["E"]).Ok? && ParseDue(mapRows[5]["F"]).Ok?
    ensures ParseHeader(mapRows).Ok? ==>
              var h := ParseHeader(mapRows).value;
              && HeaderCellsPresent(mapRows)
              && DecimalOrNone(OptionalCell(mapRows, 1, "G")) == Ok(h.encargoMensal)
              && ParsePeriod(mapRows[2]["D"]) == Ok(h.periodoApuracao)
              && DecimalOrNone(OptionalCell(mapRows, 2, "G")) == Ok(h.pvSpb)
              && ExcelSerial(mapRows[3]["D"]) == Ok(h.dataDisponibilizacao)
              && DecimalOrNone(OptionalCell(mapRows, 3, "G")) == Ok(h.totalSemPisCofins)
              && ParseDue(mapRows[5]["D"]) == Ok(h.vencimentoParcela1)
              && ParseDue(mapRows[5]["E"]) == Ok(h.vencimentoParcela2)
              && ParseDue(mapRows[5]["F"]) == Ok(h.vencimentoParcela3)
  {
    HeaderWithDecoded(mapRows, DecimalOrNone, ParsePeriod, ExcelSerial, ParseDue);
  }

  /** parse_avd over the rows: the header of the row map and the items of the rows, each failure passed on. */
  lemma ParseAvdRowsParts(rows: seq<Row>)
    ensures ParseAvdRows(rows).Ok? <==> ParseHeader(BuildRowsMap(rows)).Ok? && Items(rows).Ok?
    ensures ParseAvdRows(rows).Ok? ==>
              ParseAvdRows(rows).value == (ParseHeader(BuildRowsMap(rows)).value, Items(rows).value)
  {
  }

  /** The item rows are exactly the rows that pass the filter, in order. */
  lemma {:induction false} ItemRowsFilter(rows: seq<Row>)
    ensures forall row :: row in ItemRows(rows) <==> row in rows && IsItemRow(row)
  {
    if rows != [] {
      ItemRowsFilter(rows[..|rows| - 1]);
      assert rows == rows[..|rows| - 1] + [rows[|rows| - 1]];
    }
  }

  /** The items succeed exactly when every item row does, and then item i comes from item row i. */
  lemma {:induction false} ItemsOfItemRows(rows: seq<Row>)
    ensures Items(rows).Ok? <==> forall row <- ItemRows(rows) :: ItemOf(row).Ok?
    ensures Items(rows).Ok? ==>
              && |Items(rows).value| == |ItemRows(rows)|
              && forall i | 0 <= i < |ItemRows(rows)| :: ItemOf(ItemRows(rows)[i]) == Ok(Items(rows).value[i])
  {
    if rows != [] {
      var init, last := rows[..|rows| - 1], rows[|rows| - 1];
      ItemsOfItemRows(init);
      var before := ItemRows(init);
      if IsItemRow(last) {
        assert ItemRows(rows) == before + [last];
        if Items(init).Ok? && ItemOf(last).Ok? {
          var done := Items(init).value;
          assert Items(rows).value == done + [ItemOf(last).value];
        }
        if Items(rows).Ok? {
          assert Items(init).Ok?;
        }
        if forall row <- ItemRows(rows) :: ItemOf(row).Ok? {
          assert last in ItemRows(rows);
          forall row <- before ensures ItemOf(row).Ok? {
            assert row in ItemRows(rows);
          }
        }
      } else {
        assert ItemRows(rows) == before + [];
      }
    }
  }
}

=== FILE: dates.dfy ===
/**
 * Proleptic Gregorian dates and datetimes as Python's datetime module has
 * them, day arithmetic through day numbers, and the text formats the
 * importers parse: strptime with "%d/%m/%Y" and "%Y-%m-%d",
 * date.fromisoformat and datetime.fromisoformat.
 */
module Dates {
  import opened Results
  import opened Text

  datatype Date = Date(year: int, month: int, day: int)

  /**
   * A datetime: a date, the seconds since midnight, the microseconds, and the
   * UTC offset in minutes for an aware datetime (None for a naive one).
   */
  datatype DateTime = DateTime(date: Date, seconds: int, microseconds: int, utcOffset: Option<int>)

  predicate IsLeap(y: int) {
    y % 4 == 0 && (y % 100 != 0 || y % 400 == 0)
  }

  function DaysInMonth(y: int, m: int): (n: int)
    requires 1 <= m <= 12
    ensures 28 <= n <= 31
  {
    if m == 2 then (if IsLeap(y) then 29 else 28)
    else if m == 4 || m == 6 || m == 9 || m == 11 then 30
    else 31
  }

  function DaysInYear(y: int): int {
    if IsLeap(y) then 366 else 365
  }

  /** Month and day in range, in any year. */
  predicate WellFormed(d: Date) {
    1 <= d.month <= 12 && 1 <= d.day <= DaysInMonth(d.year, d.month)
  }

  /** A date Python's datetime accepts: MINYEAR 1 to MAXYEAR 9999. */
  predicate ValidDate(d: Date) {
    WellFormed(d) && 1 <= d.year <= 9999
  }

  predicate ValidDateTime(t: DateTime) {
    && ValidDate(t.date)
    && 0 <= t.seconds < 86400
    && 0 <= t.microseconds < 1000000
    && (t.utcOffset.Some? ==> -1440 < t.utcOffset.value < 1440)
  }

  /** datetime.combine(d, time()): the naive midnight of a date. */
  function Midnight(d: Date): (t: DateTime)
    ensures t.date == d && t.seconds == 0 && t.microseconds == 0 && t.utcOffset.None?
  {
    DateTime(d, 0, 0, None)
  }

  // ---------------------------------------------------------------------------
  // Day numbers and day arithmetic

  /** Days from 0001-01-01 to the first day of year y. */
  function DaysBeforeYear(y: int): int
    decreases if y >= 1 then y - 1 else 1 - y
  {
    if y == 1 then 0
    else if y > 1 then DaysBeforeYear(y - 1) + DaysInYear(y - 1)
    else DaysBeforeYear(y + 1) - DaysInYear(y)
  }

  /** Days from the first of the year to the first day of month m (m = 13: the year's end). */
  function DaysBeforeMonth(y: int, m: int): int
    requires 1 <= m <= 13
  {
    if m == 1 then 0 else DaysBeforeMonth(y, m - 1) + DaysInMonth(y, m - 1)
  }

  /** The day's number counted from 0001-01-01 (Python's toordinal() minus one). */
  function DayNumber(d: Date): int
    requires WellFormed(d)
  {
    DaysBeforeYear(d.year) + DaysBeforeMonth(d.year, d.month) + d.day - 1
  }

  function NextDay(d: Date): (r: Date)
    requires WellFormed(d)
    ensures WellFormed(r)
  {
    if d.day < DaysInMonth(d.year, d.month) then Date(d.year, d.month, d.day + 1)
    else if d.month < 12 then Date(d.year, d.month + 1, 1)
    else Date(d.year + 1, 1, 1)
  }

  function PrevDay(d: Date): (r: Date)
    requires WellFormed(d)
    ensures WellFormed(r)
  {
    if d.day > 1 then Date(d.year, d.month, d.day - 1)
    else if d.month > 1 then Date(d.year, d.month - 1, DaysInMonth(d.year, d.month - 1))
    else Date(d.year - 1, 12, 31)
  }

  lemma YearLength(y: int)
    ensures DaysBeforeMonth(y, 13) == DaysInYear(y)
  {
    var feb := DaysInMonth(y, 2);
    assert DaysBeforeMonth(y, 2) == 31;
    assert DaysBeforeMonth(y, 3) == 31 + feb;
    assert DaysBeforeMonth(y, 4) == 62 + feb;
    assert DaysBeforeMonth(y, 5) == 92 + feb;
    assert DaysBeforeMonth(y, 6) == 123 + feb;
    assert DaysBeforeMonth(y, 7) == 153 + feb;
    assert DaysBeforeMonth(y, 8) == 184 + feb;
    assert DaysBeforeMonth(y, 9) == 215 + feb;
    assert DaysBeforeMonth(y, 10) == 245 + feb;
    assert DaysBeforeMonth(y, 11) == 276 + feb;
    assert DaysBeforeMonth(y, 12) == 306 + feb;
    assert DaysBeforeMonth(y, 13) == 337 + feb;
  }

  lemma DaysBeforeYearStep(y: int)
    ensures DaysBeforeYear(y + 1) == DaysBeforeYear(y) + DaysInYear(y)
  {
  }

  lemma NextDayNumber(d: Date)
    requires WellFormed(d)
    ensures DayNumber(NextDay(d)) == DayNumber(d) + 1
  {
    if d.day == DaysInMonth(d.year, d.month) && d.month == 12 {
      YearLength(d.year);
      DaysBeforeYearStep(d.year);
    }
  }

  lemma PrevDayNumber(d: Date)
    requires WellFormed(d)
    ensures DayNumber(PrevDay(d)) == DayNumber(d) - 1
  {
    if d.day == 1 && d.month == 1 {
      YearLength(d.year - 1);
      DaysBeforeYearStep(d.year - 1);
    }
  }

  /** The count of leap years among 1..k goes up by one exactly when k is a leap year. */
  lemma LeapCountStep(k: int)
    requires k >= 1
    ensures DaysInYear(k) == 365 + (k / 4 - (k - 1) / 4) - (k / 100 - (k - 1) / 100) + (k / 400 - (k - 1) / 400)
  {
    assert k / 4 - (k - 1) / 4 == (if k % 4 == 0 then 1 else 0);
    assert k / 100 - (k - 1) / 100 == (if k % 100 == 0 then 1 else 0);
    assert k / 400 - (k - 1) / 400 == (if k % 400 == 0 then 1 else 0);
    if k % 400 == 0 {
      assert k == 400 * (k / 400);
      assert k == 100 * (4 * (k / 400));
    }
    if k % 100 == 0 {
      assert k == 100 * (k / 100);
      assert k == 4 * (25 * (k / 100));
    }
  }

  /** The days before year y, counted in closed form: 365 a year plus the leap days. */
  lemma {:induction false} DaysBeforeYearClosed(y: int)
    requires y >= 1
    ensures DaysBeforeYear(y) == 365 * (y - 1) + (y - 1) / 4 - (y - 1) / 100 + (y - 1) / 400
    decreases y
  {
    if y > 1 {
      DaysBeforeYearClosed(y - 1);
      LeapCountStep(y - 1);
    }
  }

  /** A later year starts no earlier. */
  lemma {:induction false} DaysBeforeYearMonotone(a: int, b: int)
    requires a <= b
    ensures DaysBeforeYear(a) <= DaysBeforeYear(b)
    decreases b - a
  {
    if a < b {
      DaysBeforeYearMonotone(a, b - 1);
      DaysBeforeYearStep(b - 1);
    }
  }

  /** The months before m, with month m itself, fit in the year. */
  lemma {:induction false} DaysBeforeMonthFits(y: int, m: int)
    requires 1 <= m <= 12
    ensures DaysBeforeMonth(y, m) + DaysInMonth(y, m) <= DaysInYear(y)
    decreases 12 - m
  {
    if m < 12 {
      DaysBeforeMonthFits(y, m + 1);
    } else {
      YearLength(y);
    }
  }

  lemma {:induction false} DaysBeforeMonthNonNegative(y: int, m: int)
    requires 1 <= m <= 13
    ensures DaysBeforeMonth(y, m) >= 0
  {
    if m > 1 {
      DaysBeforeMonthNonNegative(y, m - 1);
    }
  }

  /** A day's number lies between the start of its year and the start of the next. */
  lemma DayNumberInYear(d: Date)
    requires WellFormed(d)
    ensures DaysBeforeYear(d.year) <= DayNumber(d) < DaysBeforeYear(d.year + 1)
  {
    DaysBeforeMonthNonNegative(d.year, d.month);
    DaysBeforeMonthFits(d.year, d.month);
    DaysBeforeYearStep(d.year);
  }

  /**
   * The day numbers of years 1..9999 are 0..3652058 (date.max.toordinal()
   * minus one): a date whose number lies there is one datetime can hold.
   */
  lemma DayNumberRange(d: Date)
    requires WellFormed(d) && 0 <= DayNumber(d) <= 3652058
    ensures 1 <= d.year <= 9999
  {
    DayNumberInYear(d);
    if d.year < 1 {
      DaysBeforeYearMonotone(d.year + 1, 1);
    } else if d.year > 9999 {
      DaysBeforeYearMonotone(10000, d.year);
      DaysBeforeYearClosed(10000);
    }
  }

  /** date + timedelta(days=n), stepping one day at a time. */
  function AddDays(d: Date, n: int): (r: Date)
    requires WellFormed(d)
    ensures WellFormed(r)
    decreases if n >= 0 then n else -n
  {
    if n == 0 then d
    else if n > 0 then AddDays(NextDay(d), n - 1)
    else AddDays(PrevDay(d), n + 1)
  }

  /** Adding n days moves the day number by exactly n. */
  lemma {:induction false} AddDaysNumber(d: Date, n: int)
    requires WellFormed(d)
    ensures DayNumber(AddDays(d, n)) == DayNumber(d) + n
    decreases if n >= 0 then n else -n
  {
    if n > 0 {
      NextDayNumber(d);
      AddDaysNumber(NextDay(d), n - 1);
    } else if n < 0 {
      PrevDayNumber(d);
      AddDaysNumber(PrevDay(d), n + 1);
    }
  }

  const MicrosPerDay: int := 86_400_000_000

  /** The microseconds from 0001-01-01 00:00 to a (naive) datetime. */
  function Instant(t: DateTime): int
    requires WellFormed(t.date)
  {
    DayNumber(t.date) * MicrosPerDay + t.seconds * 1_000_000 + t.microseconds
  }

  /**
   * t + timedelta(microseconds=us); OverflowError (DateOutOfRange) when the
   * result falls outside years 1..9999.
   */
  function AddMicroseconds(t: DateTime, us: int): (r: Result<DateTime, Failure>)
    requires ValidDateTime(t)
    ensures r.Ok? ==> ValidDateTime(r.value)
    ensures r.Ok? ==> r.value.utcOffset == t.utcOffset && Instant(r.value) == Instant(t) + us
    ensures r.Ok? <==> 1 <= AddDays(t.date, (t.seconds * 1_000_000 + t.microseconds + us) / MicrosPerDay).year <= 9999
  {
    var total := t.seconds * 1_000_000 + t.microseconds + us;
    var days, rest := total / MicrosPerDay, total % MicrosPerDay;
    var date := AddDays(t.date, days);
    AddDaysNumber(t.date, days);
    if 1 <= date.year <= 9999 then Ok(DateTime(date, rest / 1_000_000, rest % 1_000_000, t.utcOffset))
    else Err(DateOutOfRange)
  }

  // ---------------------------------------------------------------------------
  // Rendering

  /** date.isoformat(): "YYYY-MM-DD". */
  function FormatIsoDate(d: Date): (s: string)
    requires ValidDate(d)
    ensures |s| == 10
  {
    FixedDigits(d.year, 4) + "-" + FixedDigits(d.month, 2) + "-" + FixedDigits(d.day, 2)
  }

  /** "DD/MM/YYYY", the layout strptime reads with "%d/%m/%Y". */
  function FormatDayMonthYear(d: Date): (s: string)
    requires ValidDate(d)
    ensures |s| == 10
  {
    FixedDigits(d.day, 2) + "/" + FixedDigits(d.month, 2) + "/" + FixedDigits(d.year, 4)
  }

  /** "HH:MM:SS" for a number of seconds since midnight. */
  function FormatClock(seconds: int): (s: string)
    requires 0 <= seconds < 86400
    ensures |s| == 8
  {
    FixedDigits(seconds / 3600, 2) + ":" + FixedDigits((seconds / 60) % 60, 2) + ":" + FixedDigits(seconds % 60, 2)
  }

  /** "+HH:MM" or "-HH:MM" for an offset in minutes, nothing for a naive datetime. */
  function FormatOffset(offset: Option<int>): string
    requires offset.Some? ==> -1440 < offset.value < 1440
  {
    if offset.None? then ""
    else
      var o := offset.value;
      var a := if o < 0 then -o else o;
      (if o < 0 then "-" else "+") + FixedDigits(a / 60, 2) + ":" + FixedDigits(a % 60, 2)
  }

  /**
   * datetime.isoformat(sep): the date, the separator, the clock, ".ffffff"
   * when there are microseconds, then the offset.
   */
  function IsoFormat(t: DateTime, sep: char): string
    requires ValidDateTime(t)
  {
    FormatIsoDate(t.date) + [sep] + FormatClock(t.seconds)
    + (if t.microseconds != 0 then "." + FixedDigits(t.microseconds, 6) else "")
    + FormatOffset(t.utcOffset)
  }

  /** str(datetime): isoformat with a blank between date and time. */
  function FormatDateTime(t: DateTime): string
    requires ValidDateTime(t)
  {
    IsoFormat(t, ' ')
  }

  // ---------------------------------------------------------------------------
  // strptime

  /** The text %d matches: 3[01] | [12]\d | 0[1-9] | [1-9] | " "[1-9]. */
  predicate DayField(s: string) {
    || (|s| == 1 && '1' <= s[0] <= '9')
    || (|s| == 2 && (|| (s[0] == '3' && '0' <= s[1] <= '1')
                     || ('1' <= s[0] <= '2' && IsDigit(s[1]))
                     || (s[0] == '0' && '1' <= s[1] <= '9')
                     || (s[0] == ' ' && '1' <= s[1] <= '9')))
  }

  /** The text %m matches: 1[0-2] | 0[1-9] | [1-9]. */
  predicate MonthField(s: string) {
    || (|s| == 1 && '1' <= s[0] <= '9')
    || (|s| == 2 && ((s[0] == '1' && '0' <= s[1] <= '2') || (s[0] == '0' && '1' <= s[1] <= '9')))
  }

  /** The text %Y matches: exactly four digits. */
  predicate YearField(s: string) {
    |s| == 4 && AllDigits(s)
  }

  /** int() of a matched field (a leading space, which only %d allows, is ignored). */
  function FieldValue(s: string): nat
    requires DayField(s) || MonthField(s) || YearField(s)
  {
    if s[0] == ' ' then DigitsValue(s[1..]) else DigitsValue(s)
  }

  lemma OneDigit(s: string)
    requires |s| == 1 && AllDigits(s)
    ensures DigitsValue(s) == DigitValue(s[0])
  {
    assert s[..0] == [];
  }

  lemma TwoDigits(s: string)
    requires |s| == 2 && AllDigits(s)
    ensures DigitsValue(s) == DigitValue(s[0]) * 10 + DigitValue(s[1])
  {
    OneDigit(s[..1]);
  }

  lemma FieldRanges(s: string)
    ensures DayField(s) ==> 1 <= FieldValue(s) <= 31
    ensures MonthField(s) ==> 1 <= FieldValue(s) <= 12
  {
    if DayField(s) || MonthField(s) {
      if |s| == 1 {
        OneDigit(s);
      } else if s[0] == ' ' {
        OneDigit(s[1..]);
      } else {
        TwoDigits(s);
      }
    }
  }

  /** The date strptime builds from matched day, month and year texts, or ValueError. */
  function FieldsDate(day: string, month: string, year: string, text: string): (r: Result<DateTime, Failure>)
    ensures r.Ok? ==> r.value == Midnight(r.value.date) && ValidDate(r.value.date)
  {
    if DayField(day) && MonthField(month) && YearField(year) then
      var d := Date(FieldValue(year), FieldValue(month), FieldValue(day));
      if ValidDate(d) then Ok(Midnight(d)) else Err(InvalidDate(text))
    else Err(InvalidDate(text))
  }

  /** datetime.strptime(text, "%d/%m/%Y") */
  function ParseDayMonthYear(text: string): (r: Result<DateTime, Failure>)
    ensures r.Ok? ==> r.value == Midnight(r.value.date) && ValidDate(r.value.date)
    ensures CountChar(text, '/') != 2 ==> r.Err?
  {
    var parts := Split(text, '/');
    SplitCount(text, '/');
    if |parts| == 3 then FieldsDate(parts[0], parts[1], parts[2], text) else Err(InvalidDate(text))
  }

  /** datetime.strptime(text, "%Y-%m-%d") */
  function ParseYearMonthDay(text: string): (r: Result<DateTime, Failure>)
    ensures r.Ok? ==> r.value == Midnight(r.value.date) && ValidDate(r.value.date)
    ensures CountChar(text, '-') != 2 ==> r.Err?
  {
    var parts := Split(text, '-');
    SplitCount(text, '-');
    if |parts| == 3 then FieldsDate(parts[2], parts[1], parts[0], text) else Err(InvalidDate(text))
  }

  // ---------------------------------------------------------------------------
  // fromisoformat

  /** date.fromisoformat(text): exactly "YYYY-MM-DD" naming a real date. */
  function ParseIsoDate(text: string): (r: Result<Date, Failure>)
    ensures r.Ok? ==> ValidDate(r.value) && |text| == 10
  {
    if |text| == 10 && text[4] == '-' && text[7] == '-'
       && AllDigits(text[..4]) && AllDigits(text[5..7]) && AllDigits(text[8..])
    then
      var d := Date(DigitsValue(text[..4]), DigitsValue(text[5..7]), DigitsValue(text[8..]));
      if ValidDate(d) then Ok(d) else Err(InvalidDate(text))
    else Err(InvalidDate(text))
  }

  /** "HH", "HH:MM" or "HH:MM:SS" as seconds since midnight. */
  function ParseClock(s: string): (r: Option<int>)
    ensures r.Some? ==> 0 <= r.value < 86400
  {
    var fields := Split(s, ':');
    if |fields| > 3 then None
    else if !(forall f <- fields :: |f| == 2 && AllDigits(f)) then None
    else
      var h := DigitsValue(fields[0]);
      var m := if |fields| >= 2 then DigitsValue(fields[1]) else 0;
      var sec := if |fields| == 3 then DigitsValue(fields[2]) else 0;
      if h < 24 && m < 60 && sec < 60 then Some(h * 3600 + m * 60 + sec) else None
  }

  /** "+HH:MM" or "-HH:MM" as minutes east of UTC. */
  function ParseOffset(s: string): (r: Option<int>)
    ensures r.Some? ==> -1440 < r.value < 1440
  {
    if |s| == 6 && (s[0] == '+' || s[0] == '-') && s[3] == ':' && AllDigits(s[1..3]) && AllDigits(s[4..]) then
      var h, m := DigitsValue(s[1..3]), DigitsValue(s[4..]);
      if h < 24 && m < 60 then Some(if s[0] == '-' then -(h * 60 + m) else h * 60 + m) else None
    else None
  }

  /** The position of the first '+' or '-' in s, or |s| when there is none. */
  function FirstSign(s: string): (i: nat)
    ensures i <= |s|
    ensures i < |s| ==> s[i] == '+' || s[i] == '-'
  {
    if s == [] || s[0] == '+' || s[0] == '-' then 0 else 1 + FirstSign(s[1..])
  }

  /**
   * datetime.fromisoformat(text): "YYYY-MM-DD", optionally followed by one
   * separator character, a clock time and a "+HH:MM"/"-HH:MM" offset.
   */
  function ParseIsoDateTime(text: string): (r: Result<DateTime, Failure>)
    ensures r.Ok? ==> ValidDateTime(r.value) && r.value.microseconds == 0
    ensures |text| < 10 ==> r.Err?
  {
    if |text| < 10 then Err(InvalidDate(text))
    else
      var date :- ParseIsoDate(text[..10]);
      if |text| == 10 then Ok(Midnight(date))
      else
        var rest := text[11..];
        var k := FirstSign(rest);
        var clock := ParseClock(rest[..k]);
        var offset := if k < |rest| then ParseOffset(rest[k..]) else Some(0);
        if clock.None? || offset.None? then Err(InvalidDate(text))
        else Ok(DateTime(date, clock.value, 0, if k < |rest| then Some(offset.value) else None))
  }

  // ---------------------------------------------------------------------------
  // Round trips

  lemma TwoDigitChars(n: nat)
    requires n < 100
    ensures FixedDigits(n, 2) == [DigitChar(n / 10), DigitChar(n % 10)]
  {
    assert FixedDigits(n / 10, 1) == [DigitChar(n / 10)];
  }

  /** A day or month written with two digits is a text %d or %m matches, and reads back. */
  lemma TwoDigitFields(n: nat)
    requires 1 <= n <= 31
    ensures DayField(FixedDigits(n, 2)) && FieldValue(FixedDigits(n, 2)) == n
    ensures n <= 12 ==> MonthField(FixedDigits(n, 2))
  {
    TwoDigitChars(n);
    FixedDigitsRoundTrip(n, 2);
  }

  lemma YearFieldOf(y: nat)
    requires 1 <= y <= 9999
    ensures YearField(FixedDigits(y, 4)) && FieldValue(FixedDigits(y, 4)) == y
  {
    assert Pow10(4) == 10000;
    FixedDigitsRoundTrip(y, 4);
    assert IsDigit(FixedDigits(y, 4)[0]);
  }

  /** strptime "%d/%m/%Y" reads back every date written as "DD/MM/YYYY". */
  lemma DayMonthYearRoundTrip(d: Date)
    requires ValidDate(d)
    ensures ParseDayMonthYear(FormatDayMonthYear(d)) == Ok(Midnight(d))
  {
    TwoDigitFields(d.day);
    TwoDigitFields(d.month);
    YearFieldOf(d.year);
    SplitThreeFields(FixedDigits(d.day, 2), FixedDigits(d.month, 2), FixedDigits(d.year, 4), '/');
  }

  /** strptime "%Y-%m-%d" reads back every date date.isoformat() writes. */
  lemma YearMonthDayRoundTrip(d: Date)
    requires ValidDate(d)
    ensures ParseYearMonthDay(FormatIsoDate(d)) == Ok(Midnight(d))
  {
    TwoDigitFields(d.day);
    TwoDigitFields(d.month);
    YearFieldOf(d.year);
    SplitThreeFields(FixedDigits(d.year, 4), FixedDigits(d.month, 2), FixedDigits(d.day, 2), '-');
  }

  /** "DD/MM/YYYY" holds no whitespace. */
  lemma DayMonthYearNoSpace(d: Date)
    requires ValidDate(d)
    ensures NoSpace(FormatDayMonthYear(d))
  {
    var a, b, c := FixedDigits(d.day, 2), FixedDigits(d.month, 2), FixedDigits(d.year, 4);
    var f := FormatDayMonthYear(d);
    assert f == a + "/" + b + "/" + c;
    forall x <- f ensures !IsSpace(x) {
      assert x in a || x == '/' || x in b || x in c;
    }
  }

  /** "YYYY-MM-DD" holds no whitespace and no '/'. */
  lemma IsoDateNoSpace(d: Date)
    requires ValidDate(d)
    ensures NoSpace(FormatIsoDate(d)) && '/' !in FormatIsoDate(d)
  {
    var a, b, c := FixedDigits(d.year, 4), FixedDigits(d.month, 2), FixedDigits(d.day, 2);
    var f := FormatIsoDate(d);
    assert f == a + "-" + b + "-" + c;
    forall x <- f ensures !IsSpace(x) && x != '/' {
      assert x in a || x == '-' || x in b || x in c;
    }
  }

  /** date.fromisoformat(d.isoformat()) == d */
  lemma IsoDateRoundTrip(d: Date)
    requires ValidDate(d)
    ensures ParseIsoDate(FormatIsoDate(d)) == Ok(d)
  {
    var y, m, dd := FixedDigits(d.year, 4), FixedDigits(d.month, 2), FixedDigits(d.day, 2);
    var s := FormatIsoDate(d);
    assert s == y + "-" + m + "-" + dd;
    assert s[4] == '-' && s[7] == '-';
    assert s[..4] == y && s[5..7] == m && s[8..] == dd;
    assert Pow10(2) == 100 && Pow10(4) == 10000;
    FixedDigitsRoundTrip(d.year, 4);
    FixedDigitsRoundTrip(d.month, 2);
    FixedDigitsRoundTrip(d.day, 2);
    assert Date(DigitsValue(s[..4]), DigitsValue(s[5..7]), DigitsValue(s[8..])) == d;
  }

  /** The first sign of x + y is where y starts, when x has none and y starts with one (or is empty). */
  lemma {:induction false} FirstSignAppend(x: string, y: string)
    requires forall ch <- x :: ch != '+' && ch != '-'
    requires y == [] || y[0] == '+' || y[0] == '-'
    ensures FirstSign(x + y) == |x|
  {
    if x != [] {
      assert x[0] in x;
      assert (x + y)[1..] == x[1..] + y;
      forall ch <- x[1..] ensures ch != '+' && ch != '-' {
        assert ch in x;
      }
      FirstSignAppend(x[1..], y);
    } else {
      assert x + y == y;
    }
  }

  /** A clock written as "HH:MM:SS" reads back as the same number of seconds. */
  lemma ClockRoundTrip(seconds: int)
    requires 0 <= seconds < 86400
    ensures ParseClock(FormatClock(seconds)) == Some(seconds)
  {
    var h, m, s := seconds / 3600, (seconds / 60) % 60, seconds % 60;
    var hh, mm, ss := FixedDigits(h, 2), FixedDigits(m, 2), FixedDigits(s, 2);
    SplitThreeFields(hh, mm, ss, ':');
    assert Pow10(2) == 100;
    FixedDigitsRoundTrip(h, 2);
    FixedDigitsRoundTrip(m, 2);
    FixedDigitsRoundTrip(s, 2);
    assert seconds / 3600 == (seconds / 60) / 60;
    assert seconds == h * 3600 + m * 60 + s;
  }

  /** An offset written as "+HH:MM" or "-HH:MM" reads back as the same number of minutes. */
  lemma OffsetRoundTrip(o: int)
    requires -1440 < o < 1440
    ensures ParseOffset(FormatOffset(Some(o))) == Some(o)
    ensures FormatOffset(Some(o))[0] == '+' || FormatOffset(Some(o))[0] == '-'
  {
    var a := if o < 0 then -o else o;
    var hh, mm := FixedDigits(a / 60, 2), FixedDigits(a % 60, 2);
    var s := FormatOffset(Some(o));
    assert s == (if o < 0 then "-" else "+") + hh + ":" + mm;
    assert s[1..3] == hh && s[4..] == mm;
    assert Pow10(2) == 100;
    FixedDigitsRoundTrip(a / 60, 2);
    FixedDigitsRoundTrip(a % 60, 2);
  }

  /** fromisoformat reads back what isoformat writes, for any separator, when there are no microseconds. */
  lemma IsoFormatRoundTrip(t: DateTime, sep: char)
    requires ValidDateTime(t) && t.microseconds == 0
    ensures ParseIsoDateTime(IsoFormat(t, sep)) == Ok(t)
  {
    var date, clock, offset := FormatIsoDate(t.date), FormatClock(t.seconds), FormatOffset(t.utcOffset);
    var text := IsoFormat(t, sep);
    assert text == date + [sep] + (clock + offset);
    assert text[..10] == date;
    IsoDateRoundTrip(t.date);
    var rest := text[11..];
    assert rest == clock + offset;
    assert forall ch <- clock :: ch != '+' && ch != '-' by {
      var h, m, s := FixedDigits(t.seconds / 3600, 2), FixedDigits((t.seconds / 60) % 60, 2), FixedDigits(t.seconds % 60, 2);
      assert clock == h + ":" + m + ":" + s;
      forall ch <- clock ensures ch != '+' && ch != '-' {
        assert ch in h || ch == ':' || ch in m || ch in s;
      }
    }
    if t.utcOffset.Some? {
      OffsetRoundTrip(t.utcOffset.value);
    }
    FirstSignAppend(clock, offset);
    assert rest[..8] == clock;
    ClockRoundTrip(t.seconds);
    if t.utcOffset.Some? {
      assert rest[8..] == offset;
    }
  }
}

=== FILE: decimals.dfy ===
/**
 * Python's decimal.Decimal for finite values: a coefficient and a base-ten
 * exponent. The exponent is kept as written, so Decimal("1.50") and
 * Decimal("1.5") differ in form (and in how str() renders them) but not in
 * value; comparisons are by value.
 */
module Decimals {
  import opened Results
  import opened Text

  /** The value coefficient × 10^exponent. */
  datatype Decimal = Decimal(coefficient: int, exponent: int)

  /** Decimal("0") */
  const Zero: Decimal := Decimal(0, 0)

  /** 10^e as an exact real, for any integer e. */
  function RealPow10(e: int): (r: real)
    ensures r > 0.0
    decreases if e >= 0 then e else -e
  {
    if e == 0 then 1.0 else if e > 0 then 10.0 * RealPow10(e - 1) else RealPow10(e + 1) / 10.0
  }

  /** The exact number a decimal denotes. */
  function Value(d: Decimal): real {
    d.coefficient as real * RealPow10(d.exponent)
  }

  lemma {:induction false} Pow10Add(a: nat, b: nat)
    ensures Pow10(a + b) == Pow10(a) * Pow10(b)
  {
    if a > 0 {
      Pow10Add(a - 1, b);
    }
  }

  lemma RealPow10Step(e: int)
    ensures RealPow10(e + 1) == 10.0 * RealPow10(e)
  {
    if e < 0 {
      assert RealPow10(e) == RealPow10(e + 1) / 10.0;
    }
  }

  lemma MulTen(r: real, p: real)
    ensures 10.0 * (r * p) == r * (10.0 * p)
  {
  }

  lemma Pow10Real(k: nat)
    requires k > 0
    ensures Pow10(k) as real == 10.0 * (Pow10(k - 1) as real)
  {
  }

  lemma IntRealMul(a: int, b: int)
    ensures (a * b) as real == (a as real) * (b as real)
  {
  }

  lemma MulAssoc(x: real, p: real, r: real)
    ensures (x * p) * r == x * (r * p)
  {
  }

  lemma MulCancel(x: real, y: real, r: real)
    requires r > 0.0 && x * r == y * r
    ensures x == y
  {
    assert (x - y) * r == 0.0;
  }

  lemma {:induction false} RealPow10Shift(e: int, k: nat)
    ensures RealPow10(e + k) == RealPow10(e) * (Pow10(k) as real)
  {
    if k > 0 {
      RealPow10Shift(e, k - 1);
      RealPow10Step(e + k - 1);
      Pow10Real(k);
      MulTen(RealPow10(e), Pow10(k - 1) as real);
    }
  }

  /** Multiplying the coefficient by 10^k and lowering the exponent by k keeps the value. */
  lemma RescaleValue(c: int, e: int, k: nat)
    ensures Value(Decimal(c * Pow10(k), e)) == Value(Decimal(c, e + k))
  {
    RealPow10Shift(e, k);
    IntRealMul(c, Pow10(k));
    MulAssoc(c as real, Pow10(k) as real, RealPow10(e));
  }

  /** d's coefficient rescaled to the smaller exponent e, keeping the value. */
  function Scaled(d: Decimal, e: int): (c: int)
    requires e <= d.exponent
    ensures Value(Decimal(c, e)) == Value(d)
  {
    RescaleValue(d.coefficient, e, d.exponent - e);
    d.coefficient * Pow10(d.exponent - e)
  }

  function Min(a: int, b: int): int {
    if a <= b then a else b
  }

  /** a == b on Python decimals: equality of value, whatever the exponents. */
  predicate SameValue(a: Decimal, b: Decimal) {
    var e := Min(a.exponent, b.exponent);
    Scaled(a, e) == Scaled(b, e)
  }

  /** Two coefficients on the same exponent have the same value only when they are equal. */
  lemma SameExponentCancel(x: int, y: int, e: int)
    requires Value(Decimal(x, e)) == Value(Decimal(y, e))
    ensures x == y
  {
    var r := RealPow10(e);
    assert x as real * r == y as real * r;
    MulCancel(x as real, y as real, r);
  }

  lemma SameValueIsEqualValue(a: Decimal, b: Decimal)
    ensures SameValue(a, b) <==> Value(a) == Value(b)
  {
    var e := Min(a.exponent, b.exponent);
    var ca, cb := Scaled(a, e), Scaled(b, e);
    assert Value(Decimal(ca, e)) == Value(a) && Value(Decimal(cb, e)) == Value(b);
    if Value(a) == Value(b) {
      SameExponentCancel(ca, cb, e);
    }
  }

  /** a + b: the coefficients aligned on the smaller exponent, as Python adds exactly. */
  function Add(a: Decimal, b: Decimal): (r: Decimal)
    ensures Value(r) == Value(a) + Value(b)
    ensures r.exponent == Min(a.exponent, b.exponent)
  {
    var e := Min(a.exponent, b.exponent);
    Decimal(Scaled(a, e) + Scaled(b, e), e)
  }

  predicate IsZero(d: Decimal) {
    d.coefficient == 0
  }

  /** `d or Decimal("0")`: None and every zero-valued decimal become Decimal("0"). */
  function OrZero(d: Option<Decimal>): (r: Decimal)
    ensures Value(r) == if d.Some? then Value(d.value) else 0.0
    ensures d.Some? && !IsZero(d.value) ==> r == d.value
    ensures d.None? || IsZero(d.value) ==> r == Zero
  {
    if d.Some? && !IsZero(d.value) then d.value else Zero
  }

  // ---------------------------------------------------------------------------
  // Decimal(text)

  predicate IsExponentMark(c: char) {
    c == 'e' || c == 'E'
  }

  /** The position of the first 'e' or 'E' in s, or |s| when there is none. */
  function FirstExponentMark(s: string): (i: nat)
    ensures i <= |s|
    ensures i < |s| ==> IsExponentMark(s[i])
    ensures forall k :: 0 <= k < i ==> !IsExponentMark(s[k])
  {
    if s == [] || IsExponentMark(s[0]) then 0 else 1 + FirstExponentMark(s[1..])
  }

  /** The exponent after 'e': an optional sign and at least one digit. */
  function ParseExponent(s: string): (r: Option<int>)
    ensures s != [] && AllDigits(s) ==> r == Some(DigitsValue(s))
  {
    var negative := s != [] && s[0] == '-';
    var digits := if s != [] && (s[0] == '+' || s[0] == '-') then s[1..] else s;
    assert s != [] && AllDigits(s) ==> digits == s by {
      if s != [] && AllDigits(s) {
        assert IsDigit(s[0]);
      }
    }
    if digits != [] && AllDigits(digits) then
      Some(if negative then -(DigitsValue(digits) as int) else DigitsValue(digits))
    else None
  }

  /**
   * Decimal(text) for finite numbers: surrounding whitespace, an optional
   * sign, digits with at most one '.', at least one digit, then an optional
   * exponent. None stands for decimal.InvalidOperation.
   */
  function Parse(text: string): Option<Decimal> {
    var t := Trim(text);
    var negative := t != [] && t[0] == '-';
    var body := if t != [] && (t[0] == '+' || t[0] == '-') then t[1..] else t;
    var m := FirstExponentMark(body);
    var exponent := if m < |body| then ParseExponent(body[m + 1..]) else Some(0);
    if exponent.None? then None else ParseMantissa(negative, body[..m], exponent.value)
  }

  /** The digits before the exponent: at most one '.', at least one digit. */
  function ParseMantissa(negative: bool, mantissa: string, exponent: int): Option<Decimal> {
    var parts := Split(mantissa, '.');
    if |parts| > 2 then None
    else
      var intPart := parts[0];
      var fracPart := if |parts| == 2 then parts[1] else [];
      if AllDigits(intPart) && AllDigits(fracPart) && |intPart| + |fracPart| > 0 then
        var c := DigitsValue(intPart + fracPart);
        Some(Decimal(if negative then -(c as int) else c, exponent - |fracPart|))
      else None
  }

  // ---------------------------------------------------------------------------
  // str(d) and format(d, "f")

  function Zeros(n: nat): (s: string)
    ensures |s| == n && forall c <- s :: c == '0'
  {
    if n == 0 then [] else Zeros(n - 1) + "0"
  }

  function Abs(i: int): nat {
    if i < 0 then -i else i
  }

  function Sign(d: Decimal): string {
    if d.coefficient < 0 then "-" else ""
  }

  /** The coefficient's digits placed so that `dotplace` of them stand left of the point. */
  function PlaceDot(digits: string, dotplace: int): string {
    if dotplace <= 0 then "0." + Zeros(-dotplace) + digits
    else if dotplace >= |digits| then digits + Zeros(dotplace - |digits|)
    else digits[..dotplace] + "." + digits[dotplace..]
  }

  /** str(d): plain notation when the exponent is not positive and the value is not tiny, else scientific. */
  function ToSciString(d: Decimal): string {
    var digits := NatToString(Abs(d.coefficient));
    var leftdigits := d.exponent + |digits|;
    var dotplace := if d.exponent <= 0 && leftdigits > -6 then leftdigits else 1;
    var mark := if leftdigits == dotplace then ""
                else "E" + (if leftdigits - dotplace >= 0 then "+" else "-") + NatToString(Abs(leftdigits - dotplace));
    Sign(d) + PlaceDot(digits, dotplace) + mark
  }

  /** format(d, "f"): always plain notation, every digit of the coefficient kept. */
  function ToPlainString(d: Decimal): string {
    var digits := NatToString(Abs(d.coefficient));
    Sign(d) + PlaceDot(digits, d.exponent + |digits|)
  }

  /** d == d.to_integral() */
  predicate IsIntegral(d: Decimal) {
    d.exponent >= 0 || d.coefficient % Pow10(-d.exponent) == 0
  }

  /** int(d) for an integral decimal. */
  function IntegerValue(d: Decimal): (i: int)
    requires IsIntegral(d)
    ensures i as real == Value(d)
  {
    if d.exponent >= 0 then
      assert Value(Decimal(Scaled(d, 0), 0)) == Value(d);
      Scaled(d, 0)
    else
      var p := Pow10(-d.exponent);
      var q := d.coefficient / p;
      assert d == Decimal(q * p, d.exponent);
      RescaleValue(q, d.exponent, -d.exponent);
      q
  }

  // ---------------------------------------------------------------------------
  // What Decimal() reads from plain digit text

  /** Digits and points only: no blank, no sign, no exponent. */
  lemma PlainText(t: string)
    requires t != [] && forall x <- t :: IsDigit(x) || x == '.'
    ensures Trim(t) == t && t[0] != '-' && t[0] != '+' && FirstExponentMark(t) == |t|
  {
    assert NoSpace(t) by {
      forall x <- t ensures !IsSpace(x) {
        assert IsDigit(x) || x == '.';
      }
    }
    TrimNoSpace(t);
    assert t[0] in t;
    assert forall k | 0 <= k < |t| :: !IsExponentMark(t[k]) by {
      forall k | 0 <= k < |t| ensures !IsExponentMark(t[k]) {
        assert t[k] in t;
      }
    }
  }

  /** A plain text has no sign and no exponent, so Decimal() reads all of it as the mantissa. */
  lemma ParsePlain(t: string)
    requires t != [] && Trim(t) == t && t[0] != '-' && t[0] != '+' && FirstExponentMark(t) == |t|
    ensures Parse(t) == ParseMantissa(false, t, 0)
  {
    assert t[..|t|] == t;
  }

  lemma PointedChars(a: string, b: string)
    requires AllDigits(a) && AllDigits(b)
    ensures forall x <- a + "." + b :: IsDigit(x) || x == '.'
  {
    forall x <- a + "." + b ensures IsDigit(x) || x == '.' {
      assert x in a || x == '.' || x in b;
    }
  }

  lemma PointedSplit(a: string, b: string)
    requires AllDigits(a) && AllDigits(b)
    ensures Split(a + "." + b, '.') == [a, b]
  {
    assert '.' !in a && '.' !in b;
    SplitAppend(a, b, '.');
    SplitNoSep(b, '.');
    assert a + "." + b == a + ['.'] + b;
  }

  lemma DigitsAppend(a: string, b: string)
    requires AllDigits(a) && AllDigits(b)
    ensures AllDigits(a + b)
  {
    forall x <- a + b ensures IsDigit(x) {
      assert x in a || x in b;
    }
  }

  /** Decimal("digits.digits"): all the digits as the coefficient, minus the fraction's length as the exponent. */
  lemma ParsePointed(a: string, b: string)
    requires AllDigits(a) && AllDigits(b) && |a| + |b| > 0
    ensures Parse(a + "." + b) == Some(Decimal(DigitsValue(a + b), -|b|))
  {
    PointedChars(a, b);
    PlainText(a + "." + b);
    PointedSplit(a, b);
    DigitsAppend(a, b);
    ParsePlain(a + "." + b);
  }

  /** Decimal() refuses digit groups separated by two points. */
  lemma ParseTwoPoints(a: string, b: string, c: string)
    requires AllDigits(a) && AllDigits(b) && AllDigits(c)
    ensures Parse(a + "." + b + "." + c) == None
  {
    var t := a + "." + b + "." + c;
    assert forall x <- t :: IsDigit(x) || x == '.' by {
      forall x <- t ensures IsDigit(x) || x == '.' {
        assert x in a || x == '.' || x in b || x in c;
      }
    }
    PlainText(t);
    ParsePlain(t);
    SplitThreeFields(a, b, c, '.');
  }
}

=== FILE: nfe.dfy ===
/**
 * The NF-e invoice reader of app/parsers/nfe.py over an already-parsed XML
 * tree: the fields of one electronic invoice, with the defaults the reader
 * gives to absent blocks and elements ("" for texts, None for the billing
 * fields, zero for the total) and the failures it lets through.
 */
module Nfe {
  import opened Results
  import opened Text
  import opened Decimals
  import opened Dates
  import opened Xml

  /** The namespace bound to the "nfe" prefix. */
  const NfeNs: string := "http://www.portalfiscal.inf.br/nfe"

  /** NFeInvoice; the file path is kept as text. */
  datatype Invoice = Invoice(
    codigoOns: string,
    competencia: Date,
    cnpjEmitente: string,
    nomeEmitente: string,
    cnpjDestinatario: string,
    nomeDestinatario: string,
    numeroNfe: string,
    serie: string,
    chaveNfe: string,
    numeroFatura: Option<string>,
    valorTotal: Decimal,
    dataEmissao: DateTime,
    dataVencimento: Option<Date>,
    duplicataNumero: Option<string>,
    duplicataValor: Option<Decimal>,
    arquivo: string)

  /** "nfe:a/nfe:b/...": child steps in the NF-e namespace. */
  function Steps(locals: seq<string>): seq<QName> {
    seq(|locals|, i requires 0 <= i < |locals| => QName(NfeNs, locals[i]))
  }

  /** The element `parent.find(path)` reaches, when there is a parent. */
  function Lookup(parent: Option<Element>, path: seq<string>): Option<Element> {
    if parent.None? then None else Find(parent.value, Steps(path))
  }

  /**
   * _get_text: None when the parent, the element or its text is absent,
   * otherwise the element's text with surrounding whitespace stripped.
   */
  function GetText(parent: Option<Element>, path: seq<string>): (r: Option<string>)
    ensures r.Some? <==> Lookup(parent, path).Some? && Lookup(parent, path).value.text.Some?
    ensures r.Some? ==> r.value == Trim(Lookup(parent, path).value.text.value)
    ensures r.Some? && r.value != [] ==> !IsSpace(r.value[0]) && !IsSpace(r.value[|r.value| - 1])
  {
    match Lookup(parent, path)
    case None => None
    case Some(e) => if e.text.None? then None else Some(Trim(e.text.value))
  }

  /**
   * _parse_decimal: None and "" give None; any other text is read by
   * Decimal() after every ',' has become '.', and a text Decimal() refuses
   * is an error.
   */
  function ParseDecimal(value: Option<string>): (r: Result<Option<Decimal>, Failure>)
    ensures value.None? || value == Some("") ==> r == Ok(None)
    ensures value.Some? && value != Some("") ==>
              r == (match Decimals.Parse(ReplaceChar(value.value, ',', "."))
                    case Some(d) => Ok(Some(d))
                    case None => Err(InvalidDecimal(ReplaceChar(value.value, ',', "."))))
  {
    if value.None? || value.value == "" then Ok(None)
    else
      var normalized := ReplaceChar(value.value, ',', ".");
      match Decimals.Parse(normalized)
      case None => Err(InvalidDecimal(normalized))
      case Some(d) => Ok(Some(d))
  }

  /** data_emissao: dhEmi with every 'Z' written as "+00:00", read by fromisoformat; the clock when dhEmi is absent or empty. */
  function EmissionTime(dhEmi: Option<string>, now: DateTime): (r: Result<DateTime, Failure>)
    ensures dhEmi.None? || dhEmi == Some("") ==> r == Ok(now)
  {
    if dhEmi.None? || dhEmi.value == "" then Ok(now)
    else ParseIsoDateTime(ReplaceChar(dhEmi.value, 'Z', "+00:00"))
  }

  /** data_vencimento: date.fromisoformat on dVenc, None when dVenc is absent or empty. */
  function DueDate(text: Option<string>): (r: Result<Option<Date>, Failure>)
    ensures text.None? || text == Some("") ==> r == Ok(None)
    ensures r.Ok? && r.value.Some? ==> ValidDate(r.value.value)
    ensures text.Some? && text != Some("") ==> (r.Ok? <==> ParseIsoDate(text.value).Ok?)
    ensures text.Some? && |text.value| != 10 && text != Some("") ==> r.Err?
  {
    if text.None? || text.value == "" then Ok(None)
    else
      var d :- ParseIsoDate(text.value);
      Ok(Some(d))
  }

  /** parse_nfe_file on the document's root element; `now` stands for utcnow(). */
  function ParseNfe(root: Element, codigoOns: string, competencia: Date, arquivo: string, now: DateTime): (r: Result<Invoice, Failure>)
    ensures Find(root, Steps(["NFe", "infNFe"])).None? ==> r == Err(MissingInvoiceInfo)
    ensures r.Ok? ==> r.value.codigoOns == codigoOns && r.value.competencia == competencia && r.value.arquivo == arquivo
  {
    match Find(root, Steps(["NFe", "infNFe"]))
    case None => Err(MissingInvoiceInfo)
    case Some(inf) => InvoiceOf(inf, codigoOns, competencia, arquivo, now)
  }

  /** The blocks of infNFe the reader looks into. */
  datatype Blocks = Blocks(ide: Option<Element>, emit: Option<Element>, dest: Option<Element>,
                           total: Option<Element>, cobr: Option<Element>)

  function BlocksOf(inf: Element): Blocks {
    Blocks(Find(inf, Steps(["ide"])), Find(inf, Steps(["emit"])), Find(inf, Steps(["dest"])),
           Find(inf, Steps(["total", "ICMSTot"])), Find(inf, Steps(["cobr"])))
  }

  /** The invoice read from infNFe; the fallible fields are evaluated in the order dhEmi, vDup, dVenc, vNF. */
  function InvoiceOf(inf: Element, codigoOns: string, competencia: Date, arquivo: string, now: DateTime): (r: Result<Invoice, Failure>)
    ensures r.Ok? ==> r.value.codigoOns == codigoOns && r.value.competencia == competencia && r.value.arquivo == arquivo
  {
    var b := BlocksOf(inf);
    var emissao :- EmissionTime(GetText(b.ide, ["dhEmi"]), now);
    var duplicataValor :- ParseDecimal(GetText(b.cobr, ["dup", "vDup"]));
    var vencimento :- DueDate(GetText(b.cobr, ["dup", "dVenc"]));
    var total :- ParseDecimal(GetText(b.total, ["vNF"]));
    Ok(Assemble(inf, codigoOns, competencia, arquivo, emissao, duplicataValor, vencimento, total))
  }

  /** The NFeInvoice built once the fallible fields are read; texts default to "", the total to zero. */
  function Assemble(inf: Element, codigoOns: string, competencia: Date, arquivo: string, emissao: DateTime,
                    duplicataValor: Option<Decimal>, vencimento: Option<Date>, total: Option<Decimal>): Invoice
  {
    var b := BlocksOf(inf);
    Invoice(
      codigoOns := codigoOns,
      competencia := competencia,
      cnpjEmitente := GetText(b.emit, ["CNPJ"]).GetOr(""),
      nomeEmitente := GetText(b.emit, ["xNome"]).GetOr(""),
      cnpjDestinatario := GetText(b.dest, ["CNPJ"]).GetOr(""),
      nomeDestinatario := GetText(b.dest, ["xNome"]).GetOr(""),
      numeroNfe := GetText(b.ide, ["nNF"]).GetOr(""),
      serie := GetText(b.ide, ["serie"]).GetOr(""),
      chaveNfe := Attribute(inf, "Id").GetOr(""),
      numeroFatura := GetText(b.cobr, ["fat", "nFat"]),
      valorTotal := OrZero(total),
      dataEmissao := emissao,
      dataVencimento := vencimento,
      duplicataNumero := GetText(b.cobr, ["dup", "nDup"]),
      duplicataValor := duplicataValor,
      arquivo := arquivo)
  }

  /** A successful read is the invoice assembled from the values its fallible fields read. */
  lemma InvoiceOfOk(inf: Element, codigoOns: string, competencia: Date, arquivo: string, now: DateTime)
    requires InvoiceOf(inf, codigoOns, competencia, arquivo, now).Ok?
    ensures var b := BlocksOf(inf);
            && EmissionTime(GetText(b.ide, ["dhEmi"]), now).Ok?
            && ParseDecimal(GetText(b.cobr, ["dup", "vDup"])).Ok?
            && DueDate(GetText(b.cobr, ["dup", "dVenc"])).Ok?
            && ParseDecimal(GetText(b.total, ["vNF"])).Ok?
            && InvoiceOf(inf, codigoOns, competencia, arquivo, now).value
               == Assemble(inf, codigoOns, competencia, arquivo,
                           EmissionTime(GetText(b.ide, ["dhEmi"]), now).value,
                           ParseDecimal(GetText(b.cobr, ["dup", "vDup"])).value,
                           DueDate(GetText(b.cobr, ["dup", "dVenc"])).value,
                           ParseDecimal(GetText(b.total, ["vNF"])).value)
  {
  }

  // ---------------------------------------------------------------------------
  // Properties

  /** A decimal comma is read as the decimal point. */
  lemma CommaDecimal(a: string, b: string)
    requires AllDigits(a) && AllDigits(b) && |a| + |b| > 0
    ensures ParseDecimal(Some(a + "," + b)) == Ok(Some(Decimal(DigitsValue(a + b), -|b|)))
  {
    ReplaceCharAppend(a, "," + b, ',', ".");
    ReplaceCharAppend(",", b, ',', ".");
    assert ',' !in a && ',' !in b;
    assert ReplaceChar(",", ',', ".") == ".";
    assert ReplaceChar(a + "," + b, ',', ".") == a + "." + b by {
      assert a + "," + b == a + ("," + b);
    }
    ParsePointed(a, b);
  }

  /**
   * A thousands separator is not understood: "1.234,56" becomes "1.234.56",
   * which Decimal() refuses.
   */
  lemma ThousandsSeparatorRejected(a: string, b: string, c: string)
    requires AllDigits(a) && AllDigits(b) && AllDigits(c)
    ensures ParseDecimal(Some(a + "." + b + "," + c)) == Err(InvalidDecimal(a + "." + b + "." + c))
  {
    var x := a + "." + b;
    assert ',' !in x by {
      forall ch <- x ensures ch != ',' {
        assert ch in a || ch == '.' || ch in b;
      }
    }
    var text := a + "." + b + "," + c;
    assert text == x + ("," + c);
    ReplaceCharAppend(x, "," + c, ',', ".");
    ReplaceCharAppend(",", c, ',', ".");
    assert ',' !in c;
    assert ReplaceChar(",", ',', ".") == ".";
    var normalized := ReplaceChar(text, ',', ".");
    assert normalized == x + ("." + c);
    assert normalized == a + "." + b + "." + c;
    ParseTwoPoints(a, b, c);
    assert text != "" by {
      assert |text| == |a| + |b| + |c| + 2;
    }
  }

  /** The characters isoformat writes for a naive datetime with 'T' as separator. */
  lemma IsoFormatChars(t: DateTime)
    requires ValidDateTime(t) && t.microseconds == 0 && t.utcOffset.None?
    ensures 'Z' !in IsoFormat(t, 'T')
  {
    var d := t.date;
    var y, mo, da := FixedDigits(d.year, 4), FixedDigits(d.month, 2), FixedDigits(d.day, 2);
    var h, mi, se := FixedDigits(t.seconds / 3600, 2), FixedDigits((t.seconds / 60) % 60, 2), FixedDigits(t.seconds % 60, 2);
    var text := IsoFormat(t, 'T');
    assert text == y + "-" + mo + "-" + da + "T" + h + ":" + mi + ":" + se;
    forall ch <- text ensures ch != 'Z' {
      assert ch in y || ch in mo || ch in da || ch in h || ch in mi || ch in se || ch == '-' || ch == 'T' || ch == ':';
    }
  }

  /** A dhEmi in UTC written with the 'Z' suffix is read as that instant with offset +00:00. */
  lemma EmissionUtc(t: DateTime, now: DateTime)
    requires ValidDateTime(t) && t.microseconds == 0 && t.utcOffset.None?
    ensures EmissionTime(Some(IsoFormat(t, 'T') + "Z"), now) == Ok(t.(utcOffset := Some(0)))
  {
    var utc := t.(utcOffset := Some(0));
    ZuluSuffix(t);
    IsoFormatRoundTrip(utc, 'T');
  }

  /** A dhEmi written by isoformat with 'T', naive or with a "±HH:MM" offset as NF-e carries it, is read back as that datetime. */
  lemma EmissionRoundTrip(t: DateTime, now: DateTime)
    requires ValidDateTime(t) && t.microseconds == 0
    ensures EmissionTime(Some(IsoFormat(t, 'T')), now) == Ok(t)
  {
    var naive := t.(utcOffset := None);
    var text := IsoFormat(t, 'T');
    assert text == IsoFormat(naive, 'T') + FormatOffset(t.utcOffset);
    IsoFormatChars(naive);
    OffsetChars(t.utcOffset);
    assert 'Z' !in text;
    assert |text| >= 10;
    IsoFormatRoundTrip(t, 'T');
  }

  /** The characters of a "±HH:MM" offset: a sign, digits and ':'. */
  lemma OffsetChars(offset: Option<int>)
    requires offset.Some? ==> -1440 < offset.value < 1440
    ensures 'Z' !in FormatOffset(offset)
  {
    if offset.Some? {
      var o := offset.value;
      var a := if o < 0 then -o else o;
      var hh, mm := FixedDigits(a / 60, 2), FixedDigits(a % 60, 2);
      var text := FormatOffset(offset);
      assert text == (if o < 0 then "-" else "+") + hh + ":" + mm;
      forall ch <- text ensures ch != 'Z' {
        assert ch in hh || ch in mm || ch == '-' || ch == '+' || ch == ':';
      }
    }
  }

  /** A dVenc written by date.isoformat() is read back as that date. */
  lemma DueDateRoundTrip(d: Date)
    requires ValidDate(d)
    ensures DueDate(Some(FormatIsoDate(d))) == Ok(Some(d))
  {
    IsoDateRoundTrip(d);
  }

  lemma ZuluSuffix(t: DateTime)
    requires ValidDateTime(t) && t.microseconds == 0 && t.utcOffset.None?
    ensures ReplaceChar(IsoFormat(t, 'T') + "Z", 'Z', "+00:00") == IsoFormat(t.(utcOffset := Some(0)), 'T')
  {
    var text := IsoFormat(t, 'T');
    IsoFormatChars(t);
    ReplaceCharAppend(text, "Z", 'Z', "+00:00");
    assert ReplaceChar("Z", 'Z', "+00:00") == "+00:00";
    UtcOffsetText();
  }

  lemma UtcOffsetText()
    ensures FormatOffset(Some(0)) == "+00:00"
  {
    assert FixedDigits(0, 2) == "00";
  }

  /** An element without children has nothing at the end of any non-empty path. */
  lemma {:induction false} NothingBelowLeaf(e: Element, path: seq<QName>)
    requires e.children == [] && path != []
    ensures FindAll(e, path) == []
  {
    var init := path[..|path| - 1];
    if init == [] {
      assert FindAll(e, init) == [e];
      assert SelectChildren([e], path[|path| - 1]) == ChildrenNamed(e, path[|path| - 1]) + SelectChildren([], path[|path| - 1]);
    } else {
      NothingBelowLeaf(e, init);
    }
  }

  /** Without ide, the number and series are "" and the issue time is the clock. */
  lemma AbsentIde(inf: Element, codigoOns: string, competencia: Date, arquivo: string, now: DateTime)
    ensures var r := InvoiceOf(inf, codigoOns, competencia, arquivo, now);
            r.Ok? && BlocksOf(inf).ide.None? ==> r.value.numeroNfe == "" && r.value.serie == "" && r.value.dataEmissao == now
  {
    if InvoiceOf(inf, codigoOns, competencia, arquivo, now).Ok? {
      InvoiceOfOk(inf, codigoOns, competencia, arquivo, now);
    }
  }

  /** Without emit or dest, that party's CNPJ and name are "". */
  lemma AbsentParties(inf: Element, codigoOns: string, competencia: Date, arquivo: string, now: DateTime)
    ensures var r := InvoiceOf(inf, codigoOns, competencia, arquivo, now);
            r.Ok? ==>
              && (BlocksOf(inf).emit.None? ==> r.value.cnpjEmitente == "" && r.value.nomeEmitente == "")
              && (BlocksOf(inf).dest.None? ==> r.value.cnpjDestinatario == "" && r.value.nomeDestinatario == "")
  {
    if InvoiceOf(inf, codigoOns, competencia, arquivo, now).Ok? {
      InvoiceOfOk(inf, codigoOns, competencia, arquivo, now);
    }
  }

  /** Without total/ICMSTot the total is Decimal("0"). */
  lemma AbsentTotal(inf: Element, codigoOns: string, competencia: Date, arquivo: string, now: DateTime)
    ensures var r := InvoiceOf(inf, codigoOns, competencia, arquivo, now);
            r.Ok? && BlocksOf(inf).total.None? ==> r.value.valorTotal == Zero
  {
    if InvoiceOf(inf, codigoOns, competencia, arquivo, now).Ok? {
      InvoiceOfOk(inf, codigoOns, competencia, arquivo, now);
    }
  }

  /** Without cobr, the bill number, the duplicate's number and value, and the due date are all None. */
  lemma AbsentBilling(inf: Element, codigoOns: string, competencia: Date, arquivo: string, now: DateTime)
    ensures var r := InvoiceOf(inf, codigoOns, competencia, arquivo, now);
            r.Ok? && BlocksOf(inf).cobr.None? ==>
              r.value.numeroFatura.None? && r.value.duplicataNumero.None? && r.value.duplicataValor.None? && r.value.dataVencimento.None?
  {
    if InvoiceOf(inf, codigoOns, competencia, arquivo, now).Ok? {
      InvoiceOfOk(inf, codigoOns, competencia, arquivo, now);
    }
  }

  /** An infNFe with no children reads as the all-defaults invoice, keyed by its Id attribute. */
  lemma EmptyInvoiceInfo(inf: Element, codigoOns: string, competencia: Date, arquivo: string, now: DateTime)
    requires inf.children == []
    ensures InvoiceOf(inf, codigoOns, competencia, arquivo, now)
            == Ok(Invoice(codigoOns, competencia, "", "", "", "", "", "", Attribute(inf, "Id").GetOr(""),
                          None, Zero, now, None, None, None, arquivo))
  {
    NothingBelowLeaf(inf, Steps(["ide"]));
    NothingBelowLeaf(inf, Steps(["emit"]));
    NothingBelowLeaf(inf, Steps(["dest"]));
    NothingBelowLeaf(inf, Steps(["total", "ICMSTot"]));
    NothingBelowLeaf(inf, Steps(["cobr"]));
  }

  /** The fiscal key is infNFe's Id attribute, or "" without one. */
  lemma KeyIsId(root: Element, codigoOns: string, competencia: Date, arquivo: string, now: DateTime)
    ensures var r := ParseNfe(root, codigoOns, competencia, arquivo, now);
            r.Ok? ==> var inf := Find(root, Steps(["NFe", "infNFe"])).value;
                      r.value.chaveNfe == if "Id" in inf.attributes then inf.attributes["Id"] else ""
  {
    if ParseNfe(root, codigoOns, competencia, arquivo, now).Ok? {
      var inf := Find(root, Steps(["NFe", "infNFe"])).value;
      assert ParseNfe(root, codigoOns, competencia, arquivo, now) == InvoiceOf(inf, codigoOns, competencia, arquivo, now);
      InvoiceOfOk(inf, codigoOns, competencia, arquivo, now);
    }
  }

  /** A text _parse_decimal accepts is None for an absent or empty text, and otherwise what Decimal() reads. */
  lemma ParseDecimalOk(value: Option<string>)
    requires ParseDecimal(value).Ok?
    ensures value.None? || value == Some("") ==> ParseDecimal(value).value.None?
    ensures value.Some? && value != Some("") ==>
              && Decimals.Parse(ReplaceChar(value.value, ',', ".")).Some?
              && ParseDecimal(value).value == Some(Decimals.Parse(ReplaceChar(value.value, ',', ".")).value)
  {
  }

  lemma OrZeroValue(d: Option<Decimal>)
    ensures Value(OrZero(d)) == if d.None? then 0.0 else Value(d.value)
  {
  }

  /** The total is worth what vNF says, or zero when vNF is absent or empty. */
  lemma TotalValue(inf: Element, codigoOns: string, competencia: Date, arquivo: string, now: DateTime)
    ensures var r, v := InvoiceOf(inf, codigoOns, competencia, arquivo, now), GetText(BlocksOf(inf).total, ["vNF"]);
            r.Ok? ==>
              Value(r.value.valorTotal)
              == if v.None? || v == Some("") then 0.0 else Value(Decimals.Parse(ReplaceChar(v.value, ',', ".")).value)
  {
    if InvoiceOf(inf, codigoOns, competencia, arquivo, now).Ok? {
      InvoiceOfOk(inf, codigoOns, competencia, arquivo, now);
      var v := GetText(BlocksOf(inf).total, ["vNF"]);
      var total := ParseDecimal(v).value;
      ParseDecimalOk(v);
      assert InvoiceOf(inf, codigoOns, competencia, arquivo, now).value.valorTotal == OrZero(total);
      OrZeroValue(total);
    }
  }
}

=== FILE: reconciliation.dfy ===
/**
 * The reconciliation of app/validators/avd.py: a batch of NF-e invoices is
 * checked against the debit-note (AVD) item of the transmitter that issued
 * them. The three database queries are maps; the saved NF records are an
 * append-only list owned by a store object.
 */
module Reconciliation {
  import opened Results
  import opened Text
  import opened Decimals
  import opened Dates
  import opened Nfe

  /** The columns of an RSM_TUSTAVISODEBITO row the reconciliation reads. */
  datatype AvdRecord = AvdRecord(id: int, identificador: int, numeroAvd: string)

  /** The installments of an RSM_TUSTAVISODEBITOITEM row; each column may be NULL. */
  datatype AvdItemRecord = AvdItemRecord(parcela1: Option<Decimal>, parcela2: Option<Decimal>, parcela3: Option<Decimal>)

  /**
   * The answers of the three queries: _find_avd by company and competence
   * instant, _find_transmissora_por_cnpj (the transmitter's ONS code by
   * CNPJ), and _find_avd_item by AVD id and ONS code.
   */
  datatype Database = Database(
    avds: map<(string, DateTime), AvdRecord>,
    transmitters: map<string, string>,
    items: map<(int, string), AvdItemRecord>)

  /** An RSM_TUSTFATTRANSMISSAONF row as _persist_notas_fiscais builds it. */
  datatype NfRecord = NfRecord(
    dataInclusao: DateTime,
    identificador: int,
    identificadorFaturaTransmissao: int,
    cnpjEmissor: string,
    nomeEmissor: string,
    cnpjDestinatario: string,
    nomeDestinatario: string,
    numeroNotaFiscal: string,
    numeroFatura: Option<string>,
    dataEmissao: DateTime,
    dataVencimento: Option<Date>,
    valorTotal: Decimal,
    chaveNfe: string)

  /** One entry of the "validations" list. */
  datatype Validation = Validation(
    numeroNfe: string,
    valorNf: Decimal,
    codigoTransmissora: string,
    competencia: string,
    divergencia: Option<string>)

  /** The dictionary conciliar_notas_com_avd returns: status "sem_notas" or status "ok". */
  datatype Outcome =
    | NoInvoices(avd: string)
    | Reconciled(avd: string, transmissoraCodigo: string, validations: seq<Validation>)

  const MissingItemMessage: string := "Item da transmissora não encontrado na AVD."

  /** (parcela1 or 0) + (parcela2 or 0) + (parcela3 or 0) */
  function InstallmentSum(item: AvdItemRecord): (s: Decimal)
    ensures Value(s) == Value(OrZero(item.parcela1)) + Value(OrZero(item.parcela2)) + Value(OrZero(item.parcela3))
  {
    Add(Add(OrZero(item.parcela1), OrZero(item.parcela2)), OrZero(item.parcela3))
  }

  /** The value an installment column contributes: its own, or zero when NULL. */
  function Contribution(d: Option<Decimal>): real {
    if d.Some? then Value(d.value) else 0.0
  }

  /** The message for a total that does not match, both amounts written as str() writes decimals. */
  function MismatchMessage(total: Decimal, soma: Decimal): string {
    "Valor da NF (" + ToSciString(total) + ") diferente da soma de parcelas (" + ToSciString(soma) + ")."
  }

  /**
   * _avaliar_divergencia: the missing-item message when there is no item;
   * otherwise None exactly when the invoice total equals the sum of the three
   * installments, and a message naming both amounts when it does not.
   */
  function Divergence(item: Option<AvdItemRecord>, invoice: Invoice): (r: Option<string>)
    ensures item.None? ==> r == Some(MissingItemMessage)
    ensures item.Some? ==>
              (r.None? <==> Value(invoice.valorTotal)
                            == Contribution(item.value.parcela1) + Contribution(item.value.parcela2) + Contribution(item.value.parcela3))
    ensures item.Some? && r.Some? ==> r.value == MismatchMessage(invoice.valorTotal, InstallmentSum(item.value))
  {
    if item.None? then Some(MissingItemMessage)
    else
      var soma := InstallmentSum(item.value);
      MatchIsEqualSum(invoice.valorTotal, item.value);
      if !SameValue(invoice.valorTotal, soma) then Some(MismatchMessage(invoice.valorTotal, soma)) else None
  }

  lemma MatchIsEqualSum(total: Decimal, item: AvdItemRecord)
    ensures SameValue(total, InstallmentSum(item))
            <==> Value(total) == Contribution(item.parcela1) + Contribution(item.parcela2) + Contribution(item.parcela3)
  {
    var soma := InstallmentSum(item);
    assert Value(soma) == Contribution(item.parcela1) + Contribution(item.parcela2) + Contribution(item.parcela3);
    SameValueIsEqualValue(total, soma);
  }

  /** The NF record saved for one invoice. */
  function NfRecordOf(avd: AvdRecord, invoice: Invoice, now: DateTime): NfRecord {
    NfRecord(now, avd.identificador, avd.id, invoice.cnpjEmitente, invoice.nomeEmitente,
             invoice.cnpjDestinatario, invoice.nomeDestinatario, invoice.numeroNfe, invoice.numeroFatura,
             invoice.dataEmissao, invoice.dataVencimento, invoice.valorTotal, invoice.chaveNfe)
  }

  /** The NF records saved for a batch: one per invoice, in order. */
  function NfRecords(avd: AvdRecord, invoices: seq<Invoice>, now: DateTime): (rs: seq<NfRecord>)
    ensures |rs| == |invoices|
    ensures forall i | 0 <= i < |invoices| :: rs[i] == NfRecordOf(avd, invoices[i], now)
  {
    seq(|invoices|, i requires 0 <= i < |invoices| => NfRecordOf(avd, invoices[i], now))
  }

  /** The validation entry for one invoice; iso is the competence date as isoformat() writes it. */
  function ValidationOf(item: Option<AvdItemRecord>, codigo: string, iso: string, invoice: Invoice): Validation {
    Validation(invoice.numeroNfe, invoice.valorTotal, codigo, iso, Divergence(item, invoice))
  }

  function Validations(item: Option<AvdItemRecord>, codigo: string, iso: string, invoices: seq<Invoice>): (vs: seq<Validation>)
    ensures |vs| == |invoices|
    ensures forall i | 0 <= i < |invoices| :: vs[i] == ValidationOf(item, codigo, iso, invoices[i])
  {
    seq(|invoices|, i requires 0 <= i < |invoices| => ValidationOf(item, codigo, iso, invoices[i]))
  }

  /** The AVD of a company for a competence date, looked up at midnight of that date. */
  function AvdKey(codigoEmpresa: string, competencia: Date): (string, DateTime) {
    (codigoEmpresa, Midnight(competencia))
  }

  function ItemOf(db: Database, avd: AvdRecord, codigo: string): Option<AvdItemRecord> {
    if (avd.id, codigo) in db.items then Some(db.items[(avd.id, codigo)]) else None
  }

  /**
   * conciliar_notas_com_avd as a function of the database: the AVD must
   * exist; an empty batch is "sem_notas"; otherwise the first invoice's
   * issuer must be a registered transmitter, and every invoice is checked
   * against that transmitter's item.
   */
  function Reconcile(db: Database, codigoEmpresa: string, competencia: Date, invoices: seq<Invoice>): (r: Result<Outcome, Failure>)
    requires ValidDate(competencia)
    ensures AvdKey(codigoEmpresa, competencia) !in db.avds <==> r == Err(AvdNotFound(codigoEmpresa))
    ensures r.Ok? && r.value.NoInvoices? <==> AvdKey(codigoEmpresa, competencia) in db.avds && invoices == []
    ensures r.Ok? && r.value.NoInvoices? ==> r.value.avd == db.avds[AvdKey(codigoEmpresa, competencia)].numeroAvd
    ensures AvdKey(codigoEmpresa, competencia) in db.avds && invoices != [] ==>
              (r.Ok? <==> invoices[0].cnpjEmitente in db.transmitters)
              && (r.Ok? ==> r.value.Reconciled?)
    ensures AvdKey(codigoEmpresa, competencia) in db.avds && invoices != [] && invoices[0].cnpjEmitente !in db.transmitters ==>
              r == Err(TransmitterNotRegistered(invoices[0].cnpjEmitente))
    ensures r.Ok? && r.value.Reconciled? ==>
              && invoices != []
              && invoices[0].cnpjEmitente in db.transmitters
              && r.value.transmissoraCodigo == db.transmitters[invoices[0].cnpjEmitente]
              && r.value.avd == db.avds[AvdKey(codigoEmpresa, competencia)].numeroAvd
  {
    var key := AvdKey(codigoEmpresa, competencia);
    if key !in db.avds then Err(AvdNotFound(codigoEmpresa))
    else
      var avd := db.avds[key];
      if invoices == [] then Ok(NoInvoices(avd.numeroAvd))
      else
        var cnpj := invoices[0].cnpjEmitente;
        if cnpj !in db.transmitters then Err(TransmitterNotRegistered(cnpj))
        else
          var codigo := db.transmitters[cnpj];
          Ok(Reconciled(avd.numeroAvd, codigo, Validations(ItemOf(db, avd, codigo), codigo, FormatIsoDate(competencia), invoices)))
  }

  /** True when the call saves the batch: the AVD exists, there are invoices and the issuer is registered. */
  predicate Saves(r: Result<Outcome, Failure>) {
    r.Ok? && r.value.Reconciled?
  }

  /** The validation loop of conciliar_notas_com_avd: one entry per invoice, in order. */
  method EvaluateInvoices(item: Option<AvdItemRecord>, codigo: string, competencia: Date, invoices: seq<Invoice>)
    returns (validacoes: seq<Validation>)
    requires ValidDate(competencia)
    ensures validacoes == Validations(item, codigo, FormatIsoDate(competencia), invoices)
  {
    var iso := FormatIsoDate(competencia);
    validacoes := [];
    var i := 0;
    while i < |invoices|
      invariant 0 <= i <= |invoices|
      invariant |validacoes| == i
      invariant forall k | 0 <= k < i :: validacoes[k] == ValidationOf(item, codigo, iso, invoices[k])
    {
      var v := ValidationOf(item, codigo, iso, invoices[i]);
      ghost var prev := validacoes;
      validacoes := validacoes + [v];
      forall k | 0 <= k <= i ensures validacoes[k] == ValidationOf(item, codigo, iso, invoices[k]) {
        if k < i {
          assert validacoes[k] == prev[k];
        }
      }
      i := i + 1;
    }
  }

  /** The store behind session.add for NF records: what has been saved, in order. */
  class NfStore {
    var saved: seq<NfRecord>

    constructor()
      ensures saved == []
    {
      saved := [];
    }

    /** _persist_notas_fiscais: one record per invoice, appended in order. */
    method PersistInvoices(avd: AvdRecord, invoices: seq<Invoice>, now: DateTime) returns (registros: seq<NfRecord>)
      modifies this
      ensures registros == NfRecords(avd, invoices, now)
      ensures saved == old(saved) + registros
    {
      registros := [];
      var i := 0;
      while i < |invoices|
        invariant 0 <= i <= |invoices|
        invariant registros == NfRecords(avd, invoices[..i], now)
        invariant saved == old(saved) + registros
      {
        var nf := NfRecordOf(avd, invoices[i], now);
        saved := saved + [nf];
        registros := registros + [nf];
        i := i + 1;
      }
      assert invoices[..i] == invoices;
    }

    /**
     * conciliar_notas_com_avd: the result Reconcile describes; the batch is
     * saved only when the result is a reconciliation, and nothing is saved
     * on an error or for an empty batch.
     */
    method ConciliarNotas(db: Database, codigoEmpresa: string, competencia: Date, invoices: seq<Invoice>, now: DateTime)
      returns (r: Result<Outcome, Failure>)
      requires ValidDate(competencia)
      modifies this
      ensures r == Reconcile(db, codigoEmpresa, competencia, invoices)
      ensures Saves(r) ==> saved == old(saved) + NfRecords(db.avds[AvdKey(codigoEmpresa, competencia)], invoices, now)
      ensures !Saves(r) ==> saved == old(saved)
    {
      var key := AvdKey(codigoEmpresa, competencia);
      if key !in db.avds {
        return Err(AvdNotFound(codigoEmpresa));
      }
      var avd := db.avds[key];
      if invoices == [] {
        return Ok(NoInvoices(avd.numeroAvd));
      }
      var cnpj := invoices[0].cnpjEmitente;
      if cnpj !in db.transmitters {
        return Err(TransmitterNotRegistered(cnpj));
      }
      var codigo := db.transmitters[cnpj];
      var item := ItemOf(db, avd, codigo);
      var _ := PersistInvoices(avd, invoices, now);
      var validacoes := EvaluateInvoices(item, codigo, competencia, invoices);
      r := Ok(Reconciled(avd.numeroAvd, codigo, validacoes));
    }
  }

  // ---------------------------------------------------------------------------
  // Properties

  /** One validation per invoice, in input order, each naming the invoice, its total and the resolved transmitter. */
  lemma ValidationsFollowInvoices(db: Database, codigoEmpresa: string, competencia: Date, invoices: seq<Invoice>)
    requires ValidDate(competencia)
    ensures var r := Reconcile(db, codigoEmpresa, competencia, invoices);
            r.Ok? && r.value.Reconciled? ==>
              && |r.value.validations| == |invoices|
              && forall i | 0 <= i < |invoices| ::
                   && r.value.validations[i].numeroNfe == invoices[i].numeroNfe
                   && r.value.validations[i].valorNf == invoices[i].valorTotal
                   && r.value.validations[i].codigoTransmissora == r.value.transmissoraCodigo
                   && r.value.validations[i].competencia == FormatIsoDate(competencia)
  {
  }

  /** Without an item for the transmitter in the AVD, every invoice carries the missing-item message. */
  lemma MissingItemFlagsEveryInvoice(db: Database, codigoEmpresa: string, competencia: Date, invoices: seq<Invoice>)
    requires ValidDate(competencia)
    ensures var r := Reconcile(db, codigoEmpresa, competencia, invoices);
            r.Ok? && r.value.Reconciled?
            && (db.avds[AvdKey(codigoEmpresa, competencia)].id, r.value.transmissoraCodigo) !in db.items ==>
              forall v <- r.value.validations :: v.divergencia == Some(MissingItemMessage)
  {
  }

  /**
   * With an item, invoice i diverges exactly when its total differs in value
   * from the sum of the installments, NULL installments counting as zero.
   */
  lemma DivergenceIsMismatch(db: Database, codigoEmpresa: string, competencia: Date, invoices: seq<Invoice>, i: int)
    requires ValidDate(competencia) && 0 <= i < |invoices|
    ensures var r := Reconcile(db, codigoEmpresa, competencia, invoices);
            r.Ok? && r.value.Reconciled? ==>
              var key := (db.avds[AvdKey(codigoEmpresa, competencia)].id, r.value.transmissoraCodigo);
              key in db.items ==>
                (r.value.validations[i].divergencia.None?
                 <==> Value(invoices[i].valorTotal)
                      == Contribution(db.items[key].parcela1) + Contribution(db.items[key].parcela2) + Contribution(db.items[key].parcela3))
  {
    var r := Reconcile(db, codigoEmpresa, competencia, invoices);
    if r.Ok? && r.value.Reconciled? {
      var avd := db.avds[AvdKey(codigoEmpresa, competencia)];
      var codigo := r.value.transmissoraCodigo;
      assert r.value.validations == Validations(ItemOf(db, avd, codigo), codigo, FormatIsoDate(competencia), invoices);
      assert r.value.validations[i].divergencia == Divergence(ItemOf(db, avd, codigo), invoices[i]);
    }
  }
}

=== FILE: results.dfy ===
/** Optional values, results and the failures the modelled code raises. */
module Results {

  datatype Option<+T> = None | Some(value: T) {
    function GetOr(default: T): T {
      match this
      case Some(v) => v
      case None => default
    }
  }

  datatype Result<+T, +E> = Ok(value: T) | Err(error: E) {
    predicate IsFailure() { Err? }

    function PropagateFailure<U>(): Result<U, E>
      requires Err?
    {
      Err(error)
    }

    function Extract(): T
      requires Ok?
    {
      value
    }
  }

  /** The exceptions raised by the modelled Python code, one case per cause. */
  datatype Failure =
    | MissingKey(key: string)            // KeyError: a dictionary key or XML attribute is absent
    | MissingCell(row: int, column: string) // KeyError on map_rows[row][column] of the AVD template
    | IndexOutOfRange(index: int)        // IndexError on the shared-string list
    | MissingText                        // TypeError: int(None) on a cell value node without text
    | InvalidInteger(text: string)       // ValueError from int()
    | InvalidDecimal(text: string)       // decimal.InvalidOperation from Decimal()
    | InvalidDate(text: string)          // ValueError from strptime / fromisoformat
    | UnknownMonth(name: string)         // KeyError on PT_BR_MONTHS
    | PeriodShape(text: string)          // ValueError: "Mes/AAAA" text without exactly one '/'
    | DueDateShape(text: string)         // ValueError: due-date text without "dia"
    | DateOutOfRange                     // OverflowError / ValueError: a date outside years 1..9999
    | MissingInvoiceInfo                 // ValueError: no NFe/infNFe element
    | AvdNotFound(company: string)       // AVDValidationError: no AVD for company and period
    | TransmitterNotRegistered(cnpj: string) // AVDValidationError: issuer CNPJ unknown
    | MissingCodeHeader                  // ValueError: no CODIGO column in the transmitter sheet
    | MultipleResults(key: string)       // MultipleResultsFound from one_or_none()
}

=== FILE: text.dfy ===
/**
 * The Python string operations the importers rely on: str.strip, str.lower,
 * accent removal (NFKD followed by dropping combining marks), str.split,
 * str.replace, str.find and int() on decimal text.
 */
module Text {
  import opened Results

  // ---------------------------------------------------------------------------
  // Whitespace and str.strip()

  /** The characters Python's str.isspace accepts. */
  predicate IsSpace(c: char) {
    c == ' ' || '\t' <= c <= '\r' || '\U{1c}' <= c <= '\U{1f}' || c == '\U{85}' || c == '\U{a0}'
    || c == '\U{1680}' || '\U{2000}' <= c <= '\U{200a}' || c == '\U{2028}' || c == '\U{2029}'
    || c == '\U{202f}' || c == '\U{205f}' || c == '\U{3000}'
  }

  predicate NoSpace(s: string) {
    forall c <- s :: !IsSpace(c)
  }

  /** s.lstrip(): the suffix of s after its leading whitespace. */
  function TrimStart(s: string): (r: string)
    ensures |r| <= |s| && r == s[|s| - |r|..]
    ensures r != [] ==> !IsSpace(r[0])
    ensures forall k :: 0 <= k < |s| - |r| ==> IsSpace(s[k])
  {
    if s != [] && IsSpace(s[0]) then TrimStart(s[1..]) else s
  }

  /** s.rstrip(): the prefix of s before its trailing whitespace. */
  function TrimEnd(s: string): (r: string)
    ensures |r| <= |s| && r == s[..|r|]
    ensures r != [] ==> !IsSpace(r[|r| - 1])
    ensures forall k :: |r| <= k < |s| ==> IsSpace(s[k])
  {
    if s != [] && IsSpace(s[|s| - 1]) then TrimEnd(s[..|s| - 1]) else s
  }

  /** s.strip() */
  function Trim(s: string): (r: string)
    ensures |r| <= |s|
    ensures r != [] ==> !IsSpace(r[0]) && !IsSpace(r[|r| - 1])
  {
    TrimEnd(TrimStart(s))
  }

  /** strip() only drops characters. */
  lemma TrimChars(s: string)
    ensures forall x <- Trim(s) :: x in s
  {
    var a := TrimStart(s);
    var r := Trim(s);
    forall x <- r ensures x in s {
      var i :| 0 <= i < |r| && r[i] == x;
      assert r[i] == a[i];
      assert a[i] == s[|s| - |a| + i];
    }
  }

  lemma TrimNoSpace(s: string)
    requires NoSpace(s)
    ensures Trim(s) == s
  {
    if s != [] {
      assert !IsSpace(s[0]) && !IsSpace(s[|s| - 1]);
    }
  }

  /** strip() leaves a text that neither starts nor ends with whitespace unchanged. */
  lemma TrimUnchanged(s: string)
    requires s != [] && !IsSpace(s[0]) && !IsSpace(s[|s| - 1])
    ensures Trim(s) == s
  {
    assert TrimStart(s) == s;
  }

  /** strip() ignores one more whitespace character at the end. */
  lemma {:induction false} TrimSnocSpace(x: string, c: char)
    requires IsSpace(c)
    ensures Trim(x + [c]) == Trim(x)
  {
    var y := x + [c];
    if x == [] {
      assert y == [c] && y[1..] == [];
    } else if IsSpace(x[0]) {
      assert y[0] == x[0] && y[1..] == x[1..] + [c];
      TrimSnocSpace(x[1..], c);
    } else {
      assert y[0] == x[0];
      assert TrimStart(y) == y && TrimStart(x) == x;
      assert y[..|y| - 1] == x;
    }
  }

  // ---------------------------------------------------------------------------
  // Decimal digits

  predicate IsDigit(c: char) {
    '0' <= c <= '9'
  }

  predicate AllDigits(s: string) {
    forall c <- s :: IsDigit(c)
  }

  function DigitValue(c: char): nat
    requires IsDigit(c)
  {
    c as int - '0' as int
  }

  function DigitChar(n: nat): (c: char)
    requires n < 10
    ensures IsDigit(c) && DigitValue(c) == n
  {
    ('0' as int + n) as char
  }

  function Pow10(k: nat): (p: nat)
    ensures p >= 1
  {
    if k == 0 then 1 else 10 * Pow10(k - 1)
  }

  /** The number a string of decimal digits denotes (leading zeros allowed). */
  function DigitsValue(s: string): nat
    requires AllDigits(s)
  {
    if s == [] then 0 else DigitsValue(s[..|s| - 1]) * 10 + DigitValue(s[|s| - 1])
  }

  /** str(n) for a natural number. */
  function NatToString(n: nat): (s: string)
    ensures s != [] && AllDigits(s)
    ensures s[0] == '0' ==> n == 0
  {
    if n < 10 then [DigitChar(n)] else NatToString(n / 10) + [DigitChar(n % 10)]
  }

  /** str(i) for an integer. */
  function IntToString(i: int): string {
    (if i < 0 then "-" else "") + NatToString(if i < 0 then -i else i)
  }

  /** n written with exactly `width` digits, zero-padded on the left ("%02d", "%04d"). */
  function FixedDigits(n: nat, width: nat): (s: string)
    ensures |s| == width && AllDigits(s)
  {
    if width == 0 then [] else FixedDigits(n / 10, width - 1) + [DigitChar(n % 10)]
  }

  lemma {:induction false} NatToStringRoundTrip(n: nat)
    ensures DigitsValue(NatToString(n)) == n
  {
    if n >= 10 {
      var s := NatToString(n);
      assert s[..|s| - 1] == NatToString(n / 10);
      NatToStringRoundTrip(n / 10);
    }
  }

  lemma {:induction false} FixedDigitsRoundTrip(n: nat, width: nat)
    requires n < Pow10(width)
    ensures DigitsValue(FixedDigits(n, width)) == n
  {
    if width > 0 {
      var s := FixedDigits(n, width);
      assert s[..|s| - 1] == FixedDigits(n / 10, width - 1);
      assert n / 10 < Pow10(width - 1);
      FixedDigitsRoundTrip(n / 10, width - 1);
    }
  }

  // ---------------------------------------------------------------------------
  // int() on text

  /** Digits with single underscores between them, as int() accepts. */
  predicate DigitGroups(s: string) {
    && s != []
    && IsDigit(s[0])
    && IsDigit(s[|s| - 1])
    && forall i :: 0 <= i < |s| ==> GroupChar(s, i)
  }

  /** Position i of s holds a digit, or an underscore followed by a digit. */
  predicate GroupChar(s: string, i: nat)
    requires i < |s|
  {
    IsDigit(s[i]) || (s[i] == '_' && i + 1 < |s| && IsDigit(s[i + 1]))
  }

  /** s with every occurrence of c removed (s.replace(c, "")). */
  function RemoveChar(s: string, c: char): (r: string)
    ensures c !in r
    ensures forall x <- r :: x in s
    ensures c !in s ==> r == s
  {
    if s == [] then [] else (if s[0] == c then [] else [s[0]]) + RemoveChar(s[1..], c)
  }

  /** int(s) for base-10 text: surrounding whitespace, an optional sign, digit groups. */
  function ParseInt(s: string): Option<int> {
    var t := Trim(s);
    var negative := t != [] && t[0] == '-';
    var body := if t != [] && (t[0] == '+' || t[0] == '-') then t[1..] else t;
    if DigitGroups(body) then
      DigitGroupsDigits(body);
      var n: int := DigitsValue(RemoveChar(body, '_'));
      Some(if negative then -n else n)
    else
      None
  }

  lemma DigitGroupsDigits(s: string)
    requires DigitGroups(s)
    ensures AllDigits(RemoveChar(s, '_'))
  {
    var digits := RemoveChar(s, '_');
    forall x | x in digits ensures IsDigit(x) {
      assert x in s && x != '_';
      var i :| 0 <= i < |s| && s[i] == x;
      assert GroupChar(s, i);
    }
  }

  /** int() of plain digit text is the number those digits denote. */
  lemma ParseIntOfDigits(s: string)
    requires s != [] && AllDigits(s)
    ensures ParseInt(s) == Some(DigitsValue(s))
  {
    assert NoSpace(s);
    TrimNoSpace(s);
    assert '_' !in s;
    assert s[0] in s;
    assert DigitGroups(s);
  }

  lemma ParseIntOfNat(n: nat)
    ensures ParseInt(NatToString(n)) == Some(n)
  {
    NatToStringRoundTrip(n);
    ParseIntOfDigits(NatToString(n));
  }

  // ---------------------------------------------------------------------------
  // Case and accents

  /** str.lower() on ASCII and Latin-1 letters. */
  function LowerChar(c: char): char {
    if 'A' <= c <= 'Z' || ('\U{c0}' <= c <= '\U{de}' && c != '\U{d7}') then (c as int + 32) as char else c
  }

  predicate IsUpper(c: char) {
    'A' <= c <= 'Z' || ('\U{c0}' <= c <= '\U{de}' && c != '\U{d7}')
  }

  function Lower(s: string): (r: string)
    ensures |r| == |s|
    ensures forall i :: 0 <= i < |s| ==> r[i] == LowerChar(s[i])
  {
    seq(|s|, i requires 0 <= i < |s| => LowerChar(s[i]))
  }

  /** unicodedata.combining(c) != 0, for the Combining Diacritical Marks block. */
  predicate IsCombining(c: char) {
    '\U{300}' <= c <= '\U{36f}'
  }

  /** The base letter NFKD leaves once the combining mark is dropped, for the accented Latin-1 letters. */
  function BaseLetter(c: char): char {
    if '\U{e0}' <= c <= '\U{e5}' then 'a'
    else if c == '\U{e7}' then 'c'
    else if '\U{e8}' <= c <= '\U{eb}' then 'e'
    else if '\U{ec}' <= c <= '\U{ef}' then 'i'
    else if c == '\U{f1}' then 'n'
    else if '\U{f2}' <= c <= '\U{f6}' then 'o'
    else if '\U{f9}' <= c <= '\U{fc}' then 'u'
    else if c == '\U{fd}' || c == '\U{ff}' then 'y'
    else if '\U{c0}' <= c <= '\U{c5}' then 'A'
    else if c == '\U{c7}' then 'C'
    else if '\U{c8}' <= c <= '\U{cb}' then 'E'
    else if '\U{cc}' <= c <= '\U{cf}' then 'I'
    else if c == '\U{d1}' then 'N'
    else if '\U{d2}' <= c <= '\U{d6}' then 'O'
    else if '\U{d9}' <= c <= '\U{dc}' then 'U'
    else if c == '\U{dd}' then 'Y'
    else c
  }

  predicate HasAccent(c: char) {
    BaseLetter(c) != c
  }

  /**
   * "".join(ch for ch in NFKD(s) if not combining(ch)): accented letters lose
   * their mark and stray combining marks disappear.
   */
  function StripAccents(s: string): (r: string)
    ensures |r| <= |s|
    ensures forall x <- r :: !IsCombining(x) && !HasAccent(x)
  {
    if s == [] then []
    else (if IsCombining(s[0]) then [] else [BaseLetter(s[0])]) + StripAccents(s[1..])
  }

  /** A combining mark disappears; any other character becomes its base letter. */
  lemma StripAccentsCons(c: char, s: string)
    ensures IsCombining(c) ==> StripAccents([c] + s) == StripAccents(s)
    ensures !IsCombining(c) ==> StripAccents([c] + s) == [BaseLetter(c)] + StripAccents(s)
  {
    assert ([c] + s)[1..] == s;
  }

  /** Lower-case ASCII letters only, as the lookup tables are keyed. */
  predicate PlainLower(s: string) {
    forall c <- s :: 'a' <= c <= 'z'
  }

  lemma {:induction false} StripAccentsPlain(s: string)
    requires PlainLower(s)
    ensures StripAccents(s) == s
  {
    if s != [] {
      assert s[0] in s;
      assert PlainLower(s[1..]) by {
        forall c <- s[1..] ensures 'a' <= c <= 'z' {
          assert c in s;
        }
      }
      StripAccentsPlain(s[1..]);
      assert [s[0]] + s[1..] == s;
    }
  }

  /** Lower-case ASCII words separated by blanks. */
  predicate PlainWords(s: string) {
    forall c <- s :: 'a' <= c <= 'z' || c == ' '
  }

  lemma {:induction false} StripAccentsWords(s: string)
    requires PlainWords(s)
    ensures StripAccents(s) == s
  {
    if s != [] {
      assert s[0] in s;
      assert PlainWords(s[1..]) by {
        forall c <- s[1..] ensures 'a' <= c <= 'z' || c == ' ' {
          assert c in s;
        }
      }
      StripAccentsWords(s[1..]);
      assert [s[0]] + s[1..] == s;
    }
  }

  /** lower() leaves a text without upper-case letters unchanged. */
  lemma LowerUnchanged(s: string)
    requires forall c <- s :: !IsUpper(c)
    ensures Lower(s) == s
  {
    forall i | 0 <= i < |s| ensures Lower(s)[i] == s[i] {
      assert s[i] in s;
    }
  }

  // ---------------------------------------------------------------------------
  // Replacing, searching, splitting

  /** s.replace(c, d) for single characters. */
  function MapChar(s: string, c: char, d: char): (r: string)
    ensures |r| == |s|
    ensures forall i :: 0 <= i < |s| ==> r[i] == if s[i] == c then d else s[i]
  {
    seq(|s|, i requires 0 <= i < |s| => if s[i] == c then d else s[i])
  }

  lemma MapCharAppend(x: string, y: string, c: char, d: char)
    ensures MapChar(x + y, c, d) == MapChar(x, c, d) + MapChar(y, c, d)
  {
    var l, r := MapChar(x + y, c, d), MapChar(x, c, d) + MapChar(y, c, d);
    forall i | 0 <= i < |l| ensures l[i] == r[i] {
      if i < |x| {
        assert (x + y)[i] == x[i];
      } else {
        assert (x + y)[i] == y[i - |x|];
      }
    }
  }

  lemma MapCharAbsent(s: string, c: char, d: char)
    requires c !in s
    ensures MapChar(s, c, d) == s
  {
    forall i | 0 <= i < |s| ensures MapChar(s, c, d)[i] == s[i] {
      assert s[i] in s;
    }
  }

  /** Replacing c in a word, the separator c and the rest. */
  lemma MapCharWord(a: string, b: string, c: char, d: char)
    requires c !in a
    ensures MapChar(a + [c] + b, c, d) == a + [d] + MapChar(b, c, d)
  {
    MapCharAppend(a + [c], b, c, d);
    MapCharAppend(a, [c], c, d);
    MapCharAbsent(a, c, d);
  }

  /** s.replace(c, rep) for a single character c and any replacement text. */
  function ReplaceChar(s: string, c: char, rep: string): (r: string)
    ensures c !in s ==> r == s
    ensures c !in rep ==> c !in r
  {
    if s == [] then [] else (if s[0] == c then rep else [s[0]]) + ReplaceChar(s[1..], c, rep)
  }

  /** Every character of s.replace(c, rep) is one of s other than c, or one of rep when c occurs. */
  lemma {:induction false} ReplaceCharChars(s: string, c: char, rep: string)
    ensures forall x <- ReplaceChar(s, c, rep) :: (x in s && x != c) || (x in rep && c in s)
  {
    if s != [] {
      ReplaceCharChars(s[1..], c, rep);
      forall x <- ReplaceChar(s, c, rep) ensures (x in s && x != c) || (x in rep && c in s) {
        var h := if s[0] == c then rep else [s[0]];
        assert ReplaceChar(s, c, rep) == h + ReplaceChar(s[1..], c, rep);
        if x !in h {
          assert x in ReplaceChar(s[1..], c, rep);
          assert forall y <- s[1..] :: y in s;
        }
      }
    }
  }

  function CountChar(s: string, c: char): nat {
    if s == [] then 0 else (if s[0] == c then 1 else 0) + CountChar(s[1..], c)
  }

  /** s.split(sep) for a one-character separator. */
  function Split(s: string, sep: char): (parts: seq<string>)
    ensures |parts| >= 1
    ensures forall p <- parts :: sep !in p
  {
    if s == [] then [[]]
    else
      var rest := Split(s[1..], sep);
      if s[0] == sep then [[]] + rest else [[s[0]] + rest[0]] + rest[1..]
  }

  /** sep.join(parts) */
  function JoinWith(parts: seq<string>, sep: char): string {
    if parts == [] then []
    else if |parts| == 1 then parts[0]
    else parts[0] + [sep] + JoinWith(parts[1..], sep)
  }

  /** "".join(parts) */
  function Concat(parts: seq<string>): (r: string)
    ensures |parts| == 1 ==> r == parts[0]
  {
    if parts == [] then [] else parts[0] + Concat(parts[1..])
  }

  lemma {:induction false} SplitCount(s: string, sep: char)
    ensures |Split(s, sep)| == CountChar(s, sep) + 1
  {
    if s != [] {
      SplitCount(s[1..], sep);
    }
  }

  lemma {:induction false} JoinSplit(s: string, sep: char)
    ensures JoinWith(Split(s, sep), sep) == s
  {
    if s != [] {
      var rest := Split(s[1..], sep);
      JoinSplit(s[1..], sep);
      if s[0] == sep {
        assert Split(s, sep) == [[]] + rest;
        assert JoinWith([[]] + rest, sep) == [] + [sep] + JoinWith(rest, sep);
      } else {
        var parts := Split(s, sep);
        assert parts == [[s[0]] + rest[0]] + rest[1..];
        if |rest| == 1 {
          assert JoinWith(parts, sep) == [s[0]] + rest[0];
        } else {
          assert JoinWith(rest, sep) == rest[0] + [sep] + JoinWith(rest[1..], sep);
          assert parts[1..] == rest[1..];
        }
      }
    }
  }

  lemma {:induction false} SplitNoSep(a: string, sep: char)
    requires sep !in a
    ensures Split(a, sep) == [a]
  {
    if a != [] {
      assert a[0] in a;
      SplitNoSep(a[1..], sep);
      assert [a[0]] + a[1..] == a;
    }
  }

  lemma {:induction false} SplitAppend(a: string, b: string, sep: char)
    requires sep !in a
    ensures Split(a + [sep] + b, sep) == [a] + Split(b, sep)
  {
    var s := a + [sep] + b;
    if a == [] {
      assert s[1..] == b;
    } else {
      assert s[1..] == a[1..] + [sep] + b;
      SplitAppend(a[1..], b, sep);
      assert [a[0]] + a[1..] == a;
    }
  }

  /** Splitting what was joined gives back the parts, when none holds the separator. */
  lemma {:induction false} SplitJoin(parts: seq<string>, sep: char)
    requires |parts| >= 1 && forall p <- parts :: sep !in p
    ensures Split(JoinWith(parts, sep), sep) == parts
  {
    if |parts| == 1 {
      SplitNoSep(parts[0], sep);
    } else {
      SplitJoin(parts[1..], sep);
      SplitAppend(parts[0], JoinWith(parts[1..], sep), sep);
      assert [parts[0]] + parts[1..] == parts;
    }
  }

  /** pat occurs in s at position k. */
  predicate OccursAt(s: string, pat: string, k: int) {
    0 <= k && k + |pat| <= |s| && s[k..k + |pat|] == pat
  }

  /** s.find(pat), searching from position `from`. */
  function IndexOfFrom(s: string, pat: string, from: nat): (r: Option<nat>)
    ensures r.Some? ==> from <= r.value && OccursAt(s, pat, r.value)
    ensures r.Some? ==> forall k :: from <= k < r.value ==> !OccursAt(s, pat, k)
    ensures r.None? ==> forall k :: from <= k ==> !OccursAt(s, pat, k)
    decreases |s| - from
  {
    if from + |pat| > |s| then None
    else if s[from..from + |pat|] == pat then Some(from)
    else IndexOfFrom(s, pat, from + 1)
  }

  /** s.find(pat): the first occurrence of pat in s. */
  function IndexOf(s: string, pat: string): (r: Option<nat>)
    ensures r.Some? ==> OccursAt(s, pat, r.value) && forall k :: 0 <= k < r.value ==> !OccursAt(s, pat, k)
    ensures r.None? ==> forall k :: !OccursAt(s, pat, k)
  {
    IndexOfFrom(s, pat, 0)
  }

  /** str.isalpha on ASCII and Latin-1 characters. */
  predicate IsAlpha(c: char) {
    'A' <= c <= 'Z' || 'a' <= c <= 'z' || c == '\U{aa}' || c == '\U{b5}' || c == '\U{ba}'
    || ('\U{c0}' <= c <= '\U{ff}' && c != '\U{d7}' && c != '\U{f7}')
  }

  /** "".join(filter(str.isalpha, s)) */
  function Letters(s: string): (r: string)
    ensures forall c <- r :: IsAlpha(c)
    ensures |r| <= |s|
  {
    if s == [] then [] else (if IsAlpha(s[0]) then [s[0]] else []) + Letters(s[1..])
  }

  /** Letters distributes over concatenation, so every letter is kept, in order. */
  lemma {:induction false} LettersAppend(a: string, b: string)
    ensures Letters(a + b) == Letters(a) + Letters(b)
  {
    if a == [] {
      assert a + b == b;
    } else {
      assert (a + b)[0] == a[0] && (a + b)[1..] == a[1..] + b;
      LettersAppend(a[1..], b);
    }
  }

  /** A text made of letters only is kept whole. */
  lemma {:induction false} LettersOfLetters(s: string)
    requires forall c <- s :: IsAlpha(c)
    ensures Letters(s) == s
  {
    if s != [] {
      assert s[0] in s;
      assert forall c <- s[1..] :: c in s;
      LettersOfLetters(s[1..]);
    }
  }

  /** A text without letters, such as a row number, is dropped. */
  lemma {:induction false} LettersOfNone(s: string)
    requires forall c <- s :: !IsAlpha(c)
    ensures Letters(s) == []
  {
    if s != [] {
      assert s[0] in s;
      assert forall c <- s[1..] :: c in s;
      LettersOfNone(s[1..]);
    }
  }

  /** The column of a cell reference such as "AB12": its letters, with the row digits dropped. */
  lemma CellReferenceColumn(column: string, row: string)
    requires forall c <- column :: IsAlpha(c)
    requires AllDigits(row)
    ensures Letters(column + row) == column
  {
    LettersAppend(column, row);
    LettersOfLetters(column);
    LettersOfNone(row);
  }

  lemma JoinThree(a: string, b: string, c: string, sep: char)
    ensures JoinWith([a, b, c], sep) == a + [sep] + b + [sep] + c
  {
    assert [a, b, c][1..] == [b, c];
    assert [b, c][1..] == [c];
    assert JoinWith([b, c], sep) == b + [sep] + c;
  }

  /** Three fields joined by a separator none of them holds split back into those fields. */
  lemma SplitThree(a: string, b: string, c: string, sep: char)
    requires sep !in a && sep !in b && sep !in c
    ensures Split(a + [sep] + b + [sep] + c, sep) == [a, b, c]
  {
    JoinThree(a, b, c, sep);
    SplitJoin([a, b, c], sep);
  }

  lemma SplitThreeFields(a: string, b: string, c: string, sep: char)
    requires AllDigits(a) && AllDigits(b) && AllDigits(c) && !IsDigit(sep)
    ensures Split(a + [sep] + b + [sep] + c, sep) == [a, b, c]
  {
    SplitThree(a, b, c, sep);
  }

  /** str.replace distributes over concatenation when the searched text is one character. */
  lemma {:induction false} ReplaceCharAppend(x: string, y: string, c: char, rep: string)
    ensures ReplaceChar(x + y, c, rep) == ReplaceChar(x, c, rep) + ReplaceChar(y, c, rep)
  {
    if x == [] {
      assert x + y == y;
    } else {
      assert (x + y)[1..] == x[1..] + y;
      ReplaceCharAppend(x[1..], y, c, rep);
    }
  }

  /** Removing a character distributes over concatenation. */
  lemma {:induction false} RemoveCharAppend(x: string, y: string, c: char)
    ensures RemoveChar(x + y, c) == RemoveChar(x, c) + RemoveChar(y, c)
  {
    if x == [] {
      assert x + y == y;
    } else {
      assert (x + y)[1..] == x[1..] + y;
      RemoveCharAppend(x[1..], y, c);
    }
  }

  /** Plain digit text is a single digit group with no underscore to remove. */
  lemma DigitsAreGroups(s: string)
    requires s != [] && AllDigits(s)
    ensures DigitGroups(s) && RemoveChar(s, '_') == s
  {
    assert s[0] in s && s[|s| - 1] in s;
    assert '_' !in s;
  }

  lemma SignedDigitsNoSpace(s: string)
    requires s != [] && s[0] == '-' && AllDigits(s[1..])
    ensures NoSpace(s)
  {
    forall k | 0 <= k < |s| ensures !IsSpace(s[k]) {
      if k > 0 {
        assert s[k] == s[1..][k - 1] && s[1..][k - 1] in s[1..];
      }
    }
  }

  /** int() of '-' followed by digits is minus the number the digits denote. */
  lemma ParseIntNegative(s: string)
    requires |s| >= 2 && s[0] == '-' && AllDigits(s[1..])
    ensures ParseInt(s) == Some(-(DigitsValue(s[1..]) as int))
  {
    SignedDigitsNoSpace(s);
    TrimNoSpace(s);
    DigitsAreGroups(s[1..]);
  }

  /** Removing c from text that starts with c drops that first character. */
  lemma RemoveCharCons(c: char, s: string)
    ensures RemoveChar([c] + s, c) == RemoveChar(s, c)
  {
    assert ([c] + s)[1..] == s;
  }

  /** int(str(i)) == i */
  lemma ParseIntOfInt(i: int)
    ensures ParseInt(IntToString(i)) == Some(i)
  {
    if i >= 0 {
      assert IntToString(i) == NatToString(i);
      ParseIntOfNat(i);
    } else {
      var s := IntToString(i);
      assert s == "-" + NatToString(-i) && s[1..] == NatToString(-i);
      ParseIntNegative(s);
      NatToStringRoundTrip(-i);
    }
  }
}

=== FILE: transmitters.dfy ===
/**
 * The transmitter registry import: the first sheet of an XLS file lists one
 * transmitter per row under a header row. Header texts are normalised and
 * mapped to field names; each row's cells are converted to text, decimals or
 * dates; rows are upserted by ONS code and the new codes are counted.
 */
module Transmitters {
  import opened Results
  import opened Text
  import opened Decimals
  import opened Dates

  // ---------------------------------------------------------------------------
  // Header row

  /** The header spellings the import recognises, keyed by normalised text, and the field each names. */
  const HeaderMap: map<string, string> := map[
    "sigla do agente" := "sigla_agente",
    "tipo_do_agente" := "tipo_agente",
    "razão_social" := "razao_social",
    "razao_social" := "razao_social",
    "cnpj" := "cnpj",
    "inscrição_estadual" := "inscricao_estadual",
    "inscricao_estadual" := "inscricao_estadual",
    "classificação_empresa" := "classificacao_empresa",
    "classificacao_empresa" := "classificacao_empresa",
    "logradouro" := "logradouro",
    "numero" := "numero",
    "número" := "numero",
    "complemento" := "complemento",
    "bairro" := "bairro",
    "cidade" := "cidade",
    "uf" := "uf",
    "cep" := "cep",
    "região" := "regiao",
    "regiao" := "regiao",
    "banco" := "banco",
    "numero_do_banco" := "numero_do_banco",
    "numero do banco" := "numero_do_banco",
    "agencia" := "agencia",
    "agência" := "agencia",
    "conta" := "conta",
    "forma_de_encaminhamento_das_fat" := "forma_encaminhamento_faturas",
    "forma de encaminhamento das fat" := "forma_encaminhamento_faturas",
    "url_do_site" := "url_site",
    "url do site" := "url_site",
    "%_aliquota_pis_confins" := "aliquota_pis_confins",
    "% aliquota pis confins" := "aliquota_pis_confins",
    "concessão" := "concessao",
    "concessao" := "concessao",
    "dt_concessão" := "dt_concessao",
    "dt concessão" := "dt_concessao",
    "dt_concessao" := "dt_concessao",
    "contrato" := "contrato",
    "dt_inicio_contábil" := "dt_inicio_contabil",
    "dt inicio contábil" := "dt_inicio_contabil",
    "dt_inicio_contabil" := "dt_inicio_contabil",
    "dt_inicio_operação" := "dt_inicio_operacao",
    "dt inicio operação" := "dt_inicio_operacao",
    "dt_inicio_operacao" := "dt_inicio_operacao",
    "idai" := "idai",
    "sigla_do_agente" := "sigla_agente",
    "código" := "codigo_ons",
    "codigo" := "codigo_ons"
  ]

  /** normalize_header: trimmed, lower-cased, accents removed, blanks turned into '_'. */
  function NormalizeHeader(text: string): (r: string)
    ensures |r| <= |text|
    ensures ' ' !in r
    ensures forall x <- r :: !IsCombining(x) && !HasAccent(x)
  {
    MapChar(StripAccents(Lower(Trim(text))), ' ', '_')
  }

  /** HEADER_MAP.get(normalize_header(text)) */
  function HeaderKey(text: string): (r: Option<string>)
    ensures r.Some? ==> r.value in HeaderMap.Values
  {
    var n := NormalizeHeader(text);
    if n in HeaderMap then Some(HeaderMap[n]) else None
  }

  /** Header matching ignores case: a header and its lower-cased form normalise alike. */
  lemma NormalizeIgnoresCase(text: string)
    ensures NormalizeHeader(Lower(text)) == NormalizeHeader(text)
  {
    TrimLower(text);
    LowerTwice(Trim(text));
  }

  lemma LowerTwice(s: string)
    ensures Lower(Lower(s)) == Lower(s)
  {
  }

  /** Lower-casing keeps whitespace and non-whitespace apart, so it commutes with strip(). */
  lemma TrimLower(s: string)
    ensures Trim(Lower(s)) == Lower(Trim(s))
  {
    TrimStartLower(s);
    TrimEndLower(TrimStart(s));
  }

  lemma {:induction false} TrimStartLower(s: string)
    ensures TrimStart(Lower(s)) == Lower(TrimStart(s))
  {
    if s != [] {
      assert Lower(s)[1..] == Lower(s[1..]);
      assert IsSpace(Lower(s)[0]) <==> IsSpace(s[0]);
      TrimStartLower(s[1..]);
    }
  }

  lemma {:induction false} TrimEndLower(s: string)
    ensures TrimEnd(Lower(s)) == Lower(TrimEnd(s))
  {
    if s != [] {
      var n := |s| - 1;
      assert Lower(s)[..n] == Lower(s[..n]);
      assert IsSpace(Lower(s)[n]) <==> IsSpace(s[n]);
      TrimEndLower(s[..n]);
    }
  }

  /**
   * A header of lower-case ASCII words is only re-spelt: each blank between
   * words becomes '_'.
   */
  lemma NormalizeWords(s: string)
    requires PlainWords(s) && s != [] && s[0] != ' ' && s[|s| - 1] != ' '
    ensures NormalizeHeader(s) == MapChar(s, ' ', '_')
  {
    assert s[0] in s && s[|s| - 1] in s;
    TrimUnchanged(s);
    forall c <- s ensures !IsUpper(c) {
    }
    LowerUnchanged(s);
    StripAccentsWords(s);
  }

  /** Two lower-case words separated by a blank are joined by '_'. */
  lemma NormalizeTwoWords(a: string, b: string)
    requires PlainLower(a) && PlainLower(b) && a != [] && b != []
    ensures NormalizeHeader(a + " " + b) == a + "_" + b
  {
    var s := a + " " + b;
    TwoWordsShape(a, b);
    NormalizeWords(s);
    assert ' ' !in a && ' ' !in b;
    MapCharWord(a, b, ' ', '_');
    MapCharAbsent(b, ' ', '_');
  }

  lemma TwoWordsShape(a: string, b: string)
    requires PlainLower(a) && PlainLower(b) && a != [] && b != []
    ensures var s := a + " " + b; PlainWords(s) && s != [] && s[0] != ' ' && s[|s| - 1] != ' '
  {
    var s := a + " " + b;
    forall c <- s ensures 'a' <= c <= 'z' || c == ' ' {
      assert c in a || c == ' ' || c in b;
    }
    assert s[0] == a[0] && a[0] in a;
    assert s[|s| - 1] == b[|b| - 1] && b[|b| - 1] in b;
  }

  /** Whitespace around a header is ignored, at either end. */
  lemma NormalizeIgnoresPadding(c: char, text: string)
    requires IsSpace(c)
    ensures NormalizeHeader([c] + text) == NormalizeHeader(text)
    ensures NormalizeHeader(text + [c]) == NormalizeHeader(text)
  {
    assert ([c] + text)[1..] == text;
    assert TrimStart([c] + text) == TrimStart(text);
    TrimSnocSpace(text, c);
  }

  /** "Sigla do Agente", as the sheet spells it, names the agent acronym. */
  lemma SiglaHeader()
    ensures HeaderKey("Sigla do Agente") == Some("sigla_agente")
  {
    var text := "Sigla do Agente";
    var n := NormalizeHeader(text);
    assert n == "sigla_do_agente" by {
      var a, b, c := "sigla", "do", "agente";
      SiglaWords();
      NormalizeThreeWords(a, b, c);
      LowerSigla();
      NormalizeIgnoresCase(text);
    }
    SiglaKeyed();
  }

  lemma SiglaWords()
    ensures PlainLower("sigla") && PlainLower("do") && PlainLower("agente")
    ensures "sigla" + " " + "do" + " " + "agente" == "sigla do agente"
    ensures "sigla" + "_" + "do" + "_" + "agente" == "sigla_do_agente"
  {
  }

  lemma LowerSigla()
    ensures Lower("Sigla do Agente") == "sigla do agente"
  {
  }

  lemma SiglaKeyed()
    ensures "sigla_do_agente" in HeaderMap && HeaderMap["sigla_do_agente"] == "sigla_agente"
  {
  }

  /** Three lower-case words separated by blanks are joined by '_'. */
  lemma NormalizeThreeWords(a: string, b: string, c: string)
    requires PlainLower(a) && PlainLower(b) && PlainLower(c) && a != [] && b != [] && c != []
    ensures NormalizeHeader(a + " " + b + " " + c) == a + "_" + b + "_" + c
  {
    ThreeWordsShape(a, b, c);
    MapThreeWords(a, b, c);
    NormalizeWords(a + " " + b + " " + c);
  }

  lemma MapThreeWords(a: string, b: string, c: string)
    requires PlainLower(a) && PlainLower(b) && PlainLower(c)
    ensures MapChar(a + " " + b + " " + c, ' ', '_') == a + "_" + b + "_" + c
  {
    assert ' ' !in a && ' ' !in b && ' ' !in c;
    var bc := b + " " + c;
    assert a + " " + b + " " + c == a + [' '] + bc;
    MapCharWord(a, bc, ' ', '_');
    MapCharWord(b, c, ' ', '_');
    MapCharAbsent(c, ' ', '_');
    assert a + [' '] + bc == a + " " + b + " " + c;
    assert a + ['_'] + (b + ['_'] + c) == a + "_" + b + "_" + c;
  }

  lemma ThreeWordsShape(a: string, b: string, c: string)
    requires PlainLower(a) && PlainLower(b) && PlainLower(c) && a != [] && b != [] && c != []
    ensures var s := a + " " + b + " " + c; PlainWords(s) && s != [] && s[0] != ' ' && s[|s| - 1] != ' '
  {
    var s := a + " " + b + " " + c;
    forall x <- s ensures 'a' <= x <= 'z' || x == ' ' {
      assert x in a || x == ' ' || x in b || x in c;
    }
    assert s[0] == a[0] && a[0] in a;
    assert s[|s| - 1] == c[|c| - 1] && c[|c| - 1] in c;
  }

  /** The capitalised, accented "CÓDIGO" header names the ONS code column. */
  lemma CodigoHeader()
    ensures HeaderKey("CÓDIGO") == Some("codigo_ons")
  {
    var n := NormalizeHeader("CÓDIGO");
    assert n == "codigo" by {
      CodigoNoSpace();
      TrimNoSpace("CÓDIGO");
      LowerCodigo();
      StripCodigo();
      NoBlankCodigo();
    }
    CodigoKeyed();
  }

  lemma CodigoKeyed()
    ensures "codigo" in HeaderMap && HeaderMap["codigo"] == "codigo_ons"
  {
  }

  lemma CodigoNoSpace()
    ensures NoSpace("CÓDIGO")
  {
  }

  lemma NoBlankCodigo()
    ensures MapChar("codigo", ' ', '_') == "codigo"
  {
  }

  lemma LowerCodigo()
    ensures Lower("CÓDIGO") == "código"
  {
  }

  lemma StripCodigo()
    ensures StripAccents("código") == "codigo"
  {
    var rest := "digo";
    assert PlainLower(rest);
    StripAccentsPlain(rest);
    var o := 'ó';
    assert !IsCombining(o) && BaseLetter(o) == 'o';
    StripAccentsCons(o, rest);
    assert !IsCombining('c') && BaseLetter('c') == 'c';
    StripAccentsCons('c', [o] + rest);
    assert "código" == ['c'] + ([o] + rest);
    assert "codigo" == ['c'] + (['o'] + rest);
  }

  /**
   * The column of each recognised header, as extract_header_indexes builds
   * it scanning left to right: a later column mapped to the same field
   * replaces an earlier one.
   */
  function HeaderIndexes(header: seq<string>): map<string, int> {
    IndexesBy(header, HeaderKey)
  }

  /** The same scan for any way of mapping a header text to a field. */
  function IndexesBy(header: seq<string>, key: string -> Option<string>): map<string, int>
    decreases |header|
  {
    if header == [] then map[]
    else
      var m := IndexesBy(header[..|header| - 1], key);
      match key(header[|header| - 1])
      case None => m
      case Some(k) => m[k := |header| - 1]
  }

  /** extract_header_indexes: one pass over the header row. */
  method ExtractHeaderIndexes(header: seq<string>) returns (headers: map<string, int>)
    ensures headers == HeaderIndexes(header)
  {
    headers := map[];
    for col := 0 to |header|
      invariant headers == IndexesBy(header[..col], HeaderKey)
    {
      assert header[..col + 1][..col] == header[..col];
      var key := HeaderKey(header[col]);
      if key.Some? {
        headers := headers[key.value := col];
      }
    }
    assert header[..|header|] == header;
  }

  /**
   * A field is recorded exactly when some column's header maps to it, and it
   * is recorded at the last such column.
   */
  lemma {:induction false} IndexesLastWins(header: seq<string>, key: string -> Option<string>)
    ensures forall k :: k in IndexesBy(header, key) <==> exists c :: 0 <= c < |header| && key(header[c]) == Some(k)
    ensures forall k <- IndexesBy(header, key) ::
      var c := IndexesBy(header, key)[k];
      0 <= c < |header| && key(header[c]) == Some(k)
      && forall c' | c < c' < |header| :: key(header[c']) != Some(k)
    decreases |header|
  {
    if header != [] {
      var init := header[..|header| - 1];
      IndexesLastWins(init, key);
      forall c | 0 <= c < |init| ensures header[c] == init[c] {
      }
    }
  }

  /** extract_header_indexes keeps, for each recognised field, the last column naming it, and nothing else. */
  lemma HeaderIndexesLastWins(header: seq<string>)
    ensures forall k :: k in HeaderIndexes(header) <==> exists c :: 0 <= c < |header| && HeaderKey(header[c]) == Some(k)
    ensures forall k <- HeaderIndexes(header) ::
      var c := HeaderIndexes(header)[k];
      0 <= c < |header| && HeaderKey(header[c]) == Some(k)
      && forall c' | c < c' < |header| :: HeaderKey(header[c']) != Some(k)
  {
    IndexesLastWins(header, HeaderKey);
  }

  // ---------------------------------------------------------------------------
  // Cell values

  /** A cell as get_cell_value returns it once xlrd has typed it: nothing, text, a number or a date. */
  datatype CellValue = Blank | Text(text: string) | Number(number: Decimal) | Stamp(stamp: DateTime)

  /** The row's cell at a column; a negative column (a header that is absent) reads as nothing. */
  function CellAt(row: seq<CellValue>, col: int): (c: CellValue)
    ensures col < 0 ==> c == Blank
  {
    if 0 <= col < |row| then row[col] else Blank
  }

  /** str(value).strip() for text, or for a date rendered as str(datetime). */
  function CellText(v: CellValue): string
    requires v.Text? || (v.Stamp? && ValidDateTime(v.stamp))
  {
    if v.Text? then Trim(v.text) else Trim(FormatDateTime(v.stamp))
  }

  /** The text decimal_or_none hands to Decimal(): '%', '.' and blanks dropped, ',' as the decimal point. */
  function CleanNumber(text: string): (r: string)
    ensures ',' !in r && ' ' !in r
  {
    var t := Trim(text);
    var withPoint := ReplaceChar(RemoveChar(RemoveChar(t, '%'), '.'), ',', ".");
    RemoveChar(withPoint, ' ')
  }

  /**
   * The cleaned text holds no '%' and nothing the text did not hold, except
   * the point that replaces a decimal comma.
   */
  lemma CleanNumberChars(text: string)
    ensures '%' !in CleanNumber(text)
    ensures forall x <- CleanNumber(text) :: x in text || x == '.'
    ensures '.' in CleanNumber(text) ==> ',' in text
  {
    var t := Trim(text);
    var noPercent := RemoveChar(t, '%');
    var noDot := RemoveChar(noPercent, '.');
    var withPoint := ReplaceChar(noDot, ',', ".");
    ReplaceCharChars(noDot, ',', ".");
    TrimChars(text);
    assert forall x <- noDot :: x in t && x != '%' && x != '.';
    assert forall x <- withPoint :: (x in t && x != '%' && x != '.') || (x == '.' && ',' in noDot);
  }

  /** decimal_or_none on text: nothing for "", "-", "--" and text Decimal() refuses. */
  function DecimalText(text: string): (r: Option<Decimal>)
    ensures CleanNumber(text) in {"", "-", "--"} ==> r.None?
  {
    var v := CleanNumber(text);
    if v == "" || v == "-" || v == "--" then None else Parse(v)
  }

  /** decimal_or_none: a number passes through, nothing stays nothing, anything else is read as text. */
  function DecimalOrNone(v: CellValue): (r: Option<Decimal>)
    requires v.Stamp? ==> ValidDateTime(v.stamp)
    ensures v.Number? ==> r == Some(v.number)
    ensures v.Blank? ==> r.None?
  {
    match v
    case Blank => None
    case Number(d) => Some(d)
    case Text(s) => DecimalText(s)
    case Stamp(t) => DecimalText(FormatDateTime(t))
  }

  /** s.rstrip(c) for one character. */
  function TrimEndChar(s: string, c: char): (r: string)
    ensures |r| <= |s| && r == s[..|r|]
    ensures r != [] ==> r[|r| - 1] != c
    ensures forall k | |r| <= k < |s| :: s[k] == c
  {
    if s != [] && s[|s| - 1] == c then TrimEndChar(s[..|s| - 1], c) else s
  }

  /** format(d, "f").rstrip("0").rstrip(".") */
  function FractionText(d: Decimal): string {
    TrimEndChar(TrimEndChar(ToPlainString(d), '0'), '.')
  }

  /**
   * str_or_none: an integral number without a fraction, any other number
   * in plain notation without trailing zeros, stripped text, nothing for
   * blank text.
   */
  function StrOrNone(v: CellValue): (r: Option<string>)
    requires v.Stamp? ==> ValidDateTime(v.stamp)
    ensures v.Blank? ==> r.None?
    ensures (v.Text? || v.Stamp?) ==> (r.None? <==> CellText(v) == [])
    ensures r.Some? && (v.Text? || v.Stamp?) ==> r.value == CellText(v) && !IsSpace(r.value[0]) && !IsSpace(r.value[|r.value| - 1])
  {
    match v
    case Blank => None
    case Number(d) =>
      if IsIntegral(d) then Some(IntToString(IntegerValue(d))) else Some(FractionText(d))
    case _ =>
      var text := CellText(v);
      if text == [] then None else Some(text)
  }

  /** datetime.strptime with "%d/%m/%Y", then "%Y-%m-%d"; nothing for blank text, "########" or neither layout. */
  function DateText(text: string): (r: Option<DateTime>)
    ensures r.Some? ==> r.value == Midnight(r.value.date) && ValidDate(r.value.date)
    ensures Trim(text) == "" || Trim(text) == "########" ==> r.None?
    ensures CountChar(Trim(text), '/') != 2 && CountChar(Trim(text), '-') != 2 ==> r.None?
  {
    var t := Trim(text);
    if t == "" || t == "########" then None
    else
      match ParseDayMonthYear(t)
      case Ok(dt) => Some(dt)
      case Err(_) =>
        match ParseYearMonthDay(t)
        case Ok(dt) => Some(dt)
        case Err(_) => None
  }

  /** date_or_none: a date passes through; text, or a number's str(), is read with the two layouts. */
  function DateOrNone(v: CellValue): (r: Option<DateTime>)
    ensures v.Stamp? ==> r == Some(v.stamp)
    ensures v.Blank? ==> r.None?
  {
    match v
    case Blank => None
    case Stamp(t) => Some(t)
    case Number(d) => DateText(ToSciString(d))
    case Text(s) => DateText(s)
  }

  // ---------------------------------------------------------------------------
  // What the converters promise

  /** A number written the Brazilian way, "." between thousands and "," before the fraction, reads as that number. */
  lemma BrazilianNumber(a: string, b: string, f: string)
    requires AllDigits(a) && AllDigits(b) && AllDigits(f) && |a| + |b| + |f| > 0
    ensures DecimalText(a + "." + b + "," + f) == Some(Decimal(DigitsValue(a + b + f), -|f|))
  {
    var text := a + "." + b + "," + f;
    CleanBrazilian(a, b, f);
    ParsePointed(a + b, f);
    assert (a + b) + f == a + b + f;
    assert CleanNumber(text) != "" && CleanNumber(text) != "-" && CleanNumber(text) != "--" by {
      assert '.' in CleanNumber(text);
    }
  }

  lemma CleanBrazilian(a: string, b: string, f: string)
    requires AllDigits(a) && AllDigits(b) && AllDigits(f)
    ensures CleanNumber(a + "." + b + "," + f) == (a + b) + "." + f
  {
    var text := a + "." + b + "," + f;
    var pointed := (a + b) + "." + f;
    TrimBrazilian(a, b, f);
    BrazilianNoPercent(a, b, f);
    BrazilianNoDots(a, b, f);
    ReplaceComma(a + b, f);
    PointedNoBlank(a + b, f);
  }

  lemma TrimBrazilian(a: string, b: string, f: string)
    requires AllDigits(a) && AllDigits(b) && AllDigits(f)
    ensures Trim(a + "." + b + "," + f) == a + "." + b + "," + f
  {
    var text := a + "." + b + "," + f;
    assert NoSpace(text) by {
      forall x <- text ensures !IsSpace(x) {
        assert x in a || x == '.' || x in b || x == ',' || x in f;
      }
    }
    TrimNoSpace(text);
  }

  lemma BrazilianNoPercent(a: string, b: string, f: string)
    requires AllDigits(a) && AllDigits(b) && AllDigits(f)
    ensures RemoveChar(a + "." + b + "," + f, '%') == a + "." + b + "," + f
  {
    assert forall x <- a + "." + b + "," + f :: x in a || x == '.' || x in b || x == ',' || x in f;
  }

  lemma BrazilianNoDots(a: string, b: string, f: string)
    requires AllDigits(a) && AllDigits(b) && AllDigits(f)
    ensures RemoveChar(a + "." + b + "," + f, '.') == (a + b) + "," + f
  {
    assert '.' !in a && '.' !in b && '.' !in "," + f;
    RemoveDots(a, b, "," + f);
    Associate(a, ".", b, "," + f);
    Associate(a, b, ",", f);
    assert a + "." + b + "," + f == a + "." + b + ("," + f);
    assert a + b + ("," + f) == (a + b) + "," + f;
  }

  lemma Associate(w: string, x: string, y: string, z: string)
    ensures w + x + y + z == w + x + (y + z)
  {
  }

  lemma PointedNoBlank(x: string, f: string)
    requires AllDigits(x) && AllDigits(f)
    ensures RemoveChar(x + "." + f, ' ') == x + "." + f
  {
    assert forall c <- x + "." + f :: c in x || c == '.' || c in f;
  }

  /** Removing the thousands point from text, a point, and text without points. */
  lemma RemoveDots(a: string, b: string, tail: string)
    requires '.' !in a && '.' !in b && '.' !in tail
    ensures RemoveChar(a + "." + b + tail, '.') == a + b + tail
  {
    RemoveAround(a, b, tail);
    RemoveFirstDot(b + tail);
    KeepNoDot(a, b, tail);
  }

  lemma RemoveAround(a: string, b: string, tail: string)
    ensures RemoveChar(a + "." + b + tail, '.') == RemoveChar(a, '.') + RemoveChar(['.'] + (b + tail), '.')
  {
    assert a + "." + b + tail == a + (['.'] + (b + tail));
    RemoveCharAppend(a, ['.'] + (b + tail), '.');
  }

  lemma RemoveFirstDot(rest: string)
    requires '.' !in rest
    ensures RemoveChar(['.'] + rest, '.') == rest
  {
    RemoveCharCons('.', rest);
  }

  lemma KeepNoDot(a: string, b: string, tail: string)
    requires '.' !in a
    ensures RemoveChar(a, '.') + (b + tail) == a + b + tail
  {
  }

  /** Turning the decimal comma into a point. */
  lemma ReplaceComma(x: string, f: string)
    requires AllDigits(x) && AllDigits(f)
    ensures ReplaceChar(x + "," + f, ',', ".") == x + "." + f
  {
    assert ',' !in x && ',' !in f;
    assert x + "," + f == x + ("," + f);
    ReplaceCharAppend(x, "," + f, ',', ".");
    ReplaceCharAppend(",", f, ',', ".");
    assert ReplaceChar(",", ',', ".") == "." + ReplaceChar([], ',', ".");
  }

  /** Text without whitespace reads the same with a percent sign after it. */
  lemma PercentIgnored(text: string)
    requires NoSpace(text)
    ensures CleanNumber(text + "%") == CleanNumber(text)
    ensures DecimalText(text + "%") == DecimalText(text)
  {
    PercentTrim(text);
    PercentRemoved(text);
  }

  lemma PercentTrim(text: string)
    requires NoSpace(text)
    ensures Trim(text + "%") == text + "%" && Trim(text) == text
  {
    var t := text + "%";
    assert NoSpace(t) by {
      forall x <- t ensures !IsSpace(x) {
        assert x in text || x == '%';
      }
    }
    TrimNoSpace(t);
    TrimNoSpace(text);
  }

  lemma PercentRemoved(text: string)
    ensures RemoveChar(text + "%", '%') == RemoveChar(text, '%')
  {
    RemoveCharAppend(text, "%", '%');
    RemoveCharCons('%', []);
    assert RemoveChar(text, '%') + [] == RemoveChar(text, '%');
  }

  /** CleanNumber on text with no blank, '%' or '.': only the comma changes. */
  lemma CleanPlain(text: string)
    requires NoSpace(text) && '%' !in text && '.' !in text
    requires ' ' !in ReplaceChar(text, ',', ".")
    ensures CleanNumber(text) == ReplaceChar(text, ',', ".")
  {
    TrimNoSpace(text);
  }

  /** A number with a decimal comma and no thousands point, such as "9,25", reads as that number. */
  lemma CommaNumber(a: string, f: string)
    requires AllDigits(a) && AllDigits(f) && |a| + |f| > 0
    ensures DecimalText(a + "," + f) == Some(Decimal(DigitsValue(a + f), -|f|))
  {
    var text := a + "," + f;
    CleanComma(a, f);
    ParsePointed(a, f);
    assert CleanNumber(text) != "" && CleanNumber(text) != "-" && CleanNumber(text) != "--" by {
      assert '.' in CleanNumber(text);
    }
  }

  lemma CleanComma(a: string, f: string)
    requires AllDigits(a) && AllDigits(f)
    ensures CleanNumber(a + "," + f) == a + "." + f
  {
    CommaChars(a, f);
    ReplaceComma(a, f);
    PointedNoSpace(a, f);
    CleanPlain(a + "," + f);
  }

  lemma CommaChars(a: string, f: string)
    requires AllDigits(a) && AllDigits(f)
    ensures var text := a + "," + f; NoSpace(text) && '%' !in text && '.' !in text
  {
    var text := a + "," + f;
    forall x <- text ensures !IsSpace(x) && x != '%' && x != '.' {
      assert x in a || x == ',' || x in f;
    }
  }

  lemma PointedNoSpace(x: string, f: string)
    requires AllDigits(x) && AllDigits(f)
    ensures ' ' !in x + "." + f
  {
    assert forall c <- x + "." + f :: c in x || c == '.' || c in f;
  }

  /** A percentage written "9,25%", as the PIS/COFINS column holds it, reads as the number without the sign. */
  lemma PercentNumber(a: string, f: string)
    requires AllDigits(a) && AllDigits(f) && |a| + |f| > 0
    ensures DecimalText(a + "," + f + "%") == Some(Decimal(DigitsValue(a + f), -|f|))
  {
    CommaChars(a, f);
    PercentIgnored(a + "," + f);
    CommaNumber(a, f);
  }

  /** Two decimal commas make text Decimal() refuses, so nothing is read. */
  lemma TwoCommasRefused(a: string, b: string, c: string)
    requires AllDigits(a) && AllDigits(b) && AllDigits(c)
    ensures DecimalText(a + "," + b + "," + c) == None
  {
    var text := a + "," + b + "," + c;
    CleanTwoCommas(a, b, c);
    ParseTwoPoints(a, b, c);
  }

  lemma CleanTwoCommas(a: string, b: string, c: string)
    requires AllDigits(a) && AllDigits(b) && AllDigits(c)
    ensures CleanNumber(a + "," + b + "," + c) == a + "." + b + "." + c
  {
    TwoCommaChars(a, b, c);
    ReplaceTwoCommas(a, b, c);
    TwoPointsNoSpace(a, b, c);
    CleanPlain(a + "," + b + "," + c);
  }

  lemma TwoCommaChars(a: string, b: string, c: string)
    requires AllDigits(a) && AllDigits(b) && AllDigits(c)
    ensures var text := a + "," + b + "," + c; NoSpace(text) && '%' !in text && '.' !in text
  {
    var text := a + "," + b + "," + c;
    forall x <- text ensures !IsSpace(x) && x != '%' && x != '.' {
      assert x in a || x == ',' || x in b || x in c;
    }
  }

  lemma TwoPointsNoSpace(a: string, b: string, c: string)
    requires AllDigits(a) && AllDigits(b) && AllDigits(c)
    ensures ' ' !in a + "." + b + "." + c
  {
    assert forall x <- a + "." + b + "." + c :: x in a || x == '.' || x in b || x in c;
  }

  lemma ReplaceTwoCommas(a: string, b: string, c: string)
    requires AllDigits(a) && AllDigits(b) && AllDigits(c)
    ensures ReplaceChar(a + "," + b + "," + c, ',', ".") == a + "." + b + "." + c
  {
    var tail := b + "," + c;
    assert a + "," + b + "," + c == a + "," + tail;
    ReplaceCommaFirst(a, tail);
    ReplaceComma(b, c);
    assert a + "." + (b + "." + c) == a + "." + b + "." + c;
  }

  lemma ReplaceCommaFirst(x: string, rest: string)
    requires AllDigits(x)
    ensures ReplaceChar(x + "," + rest, ',', ".") == x + "." + ReplaceChar(rest, ',', ".")
  {
    assert ',' !in x;
    assert x + "," + rest == x + ("," + rest);
    ReplaceCharAppend(x, "," + rest, ',', ".");
    assert ("," + rest)[1..] == rest;
  }

  /** An integral number is written as the integer it equals, which int() reads back. */
  lemma IntegralRoundTrip(d: Decimal)
    requires IsIntegral(d)
    ensures StrOrNone(Number(d)).Some?
    ensures ParseInt(StrOrNone(Number(d)).value) == Some(IntegerValue(d))
    ensures IntegerValue(d) as real == Value(d)
  {
    ParseIntOfInt(IntegerValue(d));
  }

  /** A date written "DD/MM/YYYY", blanks before it or not, reads as that day at midnight. */
  lemma DayFirstDate(d: Date, pad: string)
    requires ValidDate(d) && forall x <- pad :: IsSpace(x)
    ensures DateOrNone(Text(pad + FormatDayMonthYear(d))) == Some(Midnight(d))
  {
    DayMonthYearNoSpace(d);
    TrimLeadingBlanks(pad, FormatDayMonthYear(d));
    DateTextDayFirst(pad + FormatDayMonthYear(d), d);
  }

  lemma DateTextDayFirst(text: string, d: Date)
    requires ValidDate(d) && Trim(text) == FormatDayMonthYear(d)
    ensures DateText(text) == Some(Midnight(d))
  {
    var f := FormatDayMonthYear(d);
    DayMonthYearRoundTrip(d);
    assert f != "########" by {
      assert f[2] == '/';
    }
  }

  /** A date written "YYYY-MM-DD", blanks before it or not, is not a "%d/%m/%Y" date and reads as that day at midnight. */
  lemma IsoDate(d: Date, pad: string)
    requires ValidDate(d) && forall x <- pad :: IsSpace(x)
    ensures DateOrNone(Text(pad + FormatIsoDate(d))) == Some(Midnight(d))
  {
    IsoDateNoSpace(d);
    TrimLeadingBlanks(pad, FormatIsoDate(d));
    DateTextIso(pad + FormatIsoDate(d), d);
  }

  lemma DateTextIso(text: string, d: Date)
    requires ValidDate(d) && Trim(text) == FormatIsoDate(d)
    ensures DateText(text) == Some(Midnight(d))
  {
    var f := FormatIsoDate(d);
    IsoDateNoSpace(d);
    YearMonthDayRoundTrip(d);
    NoCharCount(f, '/');
    assert f != "########" by {
      assert f[4] == '-';
    }
  }

  lemma {:induction false} NoCharCount(s: string, c: char)
    requires c !in s
    ensures CountChar(s, c) == 0
  {
    if s != [] {
      assert s[0] in s;
      NoCharCount(s[1..], c);
    }
  }

  /** Leading blanks before text that has none of its own are stripped away. */
  lemma TrimLeadingBlanks(pad: string, f: string)
    requires NoSpace(f) && forall x <- pad :: IsSpace(x)
    ensures Trim(pad + f) == f
  {
    assert f != [] ==> f[0] in f;
    TrimStartPad(pad, f);
    TrimStartPad([], f);
    assert [] + f == f;
    TrimNoSpace(f);
  }

  lemma {:induction false} TrimStartPad(pad: string, f: string)
    requires (f == [] || !IsSpace(f[0])) && forall x <- pad :: IsSpace(x)
    ensures TrimStart(pad + f) == f
  {
    if pad == [] {
      assert pad + f == f;
    } else {
      assert pad[0] in pad;
      assert (pad + f)[0] == pad[0] && (pad + f)[1..] == pad[1..] + f;
      assert forall x <- pad[1..] :: x in pad;
      TrimStartPad(pad[1..], f);
    }
  }

  // ---------------------------------------------------------------------------
  // Rows and the registry

  /** The columns of RSM_TUSTTRANSMISSORA the import fills. */
  datatype TransmitterData = TransmitterData(
    codigoOns: string,
    nome: Option<string>,
    razaoSocial: Option<string>,
    cnpj: Option<string>,
    inscricaoEstadual: Option<string>,
    classificacaoEmpresa: Option<string>,
    enderecoLogradouro: Option<string>,
    enderecoNumero: Option<string>,
    enderecoComplemento: Option<string>,
    enderecoBairro: Option<string>,
    enderecoCidade: Option<string>,
    enderecoEstado: Option<string>,
    enderecoCep: Option<string>,
    regiao: Option<string>,
    nomeBanco: Option<string>,
    numeroBanco: Option<string>,
    agencia: Option<string>,
    conta: Option<string>,
    formaEncaminhamentoFaturas: Option<string>,
    urlSite: Option<string>,
    percentualAliquotaPisCofins: Option<Decimal>,
    codigoConcessao: Option<string>,
    dataConcessao: Option<DateTime>,
    codigoContrato: Option<string>,
    dataInicioContabil: Option<DateTime>,
    dataInicioOperacao: Option<DateTime>)

  /** The first sheet: the text of each header cell, then the typed cells of the data rows. */
  datatype Sheet = Sheet(header: seq<string>, rows: seq<seq<CellValue>>)

  /** Every date cell holds a date datetime can represent. */
  predicate ValidCells(sheet: Sheet) {
    forall row <- sheet.rows, v <- row :: v.Stamp? ==> ValidDateTime(v.stamp)
  }

  /** headers.get(field, -1) */
  function Column(headers: map<string, int>, field: string): int {
    if field in headers then headers[field] else -1
  }

  /** The cell of a row under a field's column. */
  function Field(row: seq<CellValue>, headers: map<string, int>, field: string): (v: CellValue)
    requires forall v <- row :: v.Stamp? ==> ValidDateTime(v.stamp)
    ensures v.Stamp? ==> ValidDateTime(v.stamp)
  {
    CellAt(row, Column(headers, field))
  }

  function TextField(row: seq<CellValue>, headers: map<string, int>, field: string): Option<string>
    requires forall v <- row :: v.Stamp? ==> ValidDateTime(v.stamp)
  {
    StrOrNone(Field(row, headers, field))
  }

  /** The record a data row gives, or nothing when its ONS code is missing or empty. */
  function RowData(row: seq<CellValue>, headers: map<string, int>): (r: Option<TransmitterData>)
    requires forall v <- row :: v.Stamp? ==> ValidDateTime(v.stamp)
    ensures r.Some? ==> r.value.codigoOns != [] && Some(r.value.codigoOns) == TextField(row, headers, "codigo_ons")
    ensures r.None? <==> TextField(row, headers, "codigo_ons") in {None, Some([])}
  {
    var code := TextField(row, headers, "codigo_ons");
    if code.None? || code.value == [] then None
    else
      Some(TransmitterData(
        code.value,
        TextField(row, headers, "sigla_agente"),
        TextField(row, headers, "razao_social"),
        TextField(row, headers, "cnpj"),
        TextField(row, headers, "inscricao_estadual"),
        TextField(row, headers, "classificacao_empresa"),
        TextField(row, headers, "logradouro"),
        TextField(row, headers, "numero"),
        TextField(row, headers, "complemento"),
        TextField(row, headers, "bairro"),
        TextField(row, headers, "cidade"),
        TextField(row, headers, "uf"),
        TextField(row, headers, "cep"),
        TextField(row, headers, "regiao"),
        TextField(row, headers, "banco"),
        TextField(row, headers, "numero_do_banco"),
        TextField(row, headers, "agencia"),
        TextField(row, headers, "conta"),
        TextField(row, headers, "forma_encaminhamento_faturas"),
        TextField(row, headers, "url_site"),
        DecimalOrNone(Field(row, headers, "aliquota_pis_confins")),
        TextField(row, headers, "concessao"),
        DateOrNone(Field(row, headers, "dt_concessao")),
        TextField(row, headers, "contrato"),
        DateOrNone(Field(row, headers, "dt_inicio_contabil")),
        DateOrNone(Field(row, headers, "dt_inicio_operacao"))))
  }

  /** The records of the rows that carry a code, in sheet order. */
  function Records(rows: seq<seq<CellValue>>, headers: map<string, int>): (recs: seq<TransmitterData>)
    requires forall row <- rows, v <- row :: v.Stamp? ==> ValidDateTime(v.stamp)
    ensures |recs| <= |rows|
    decreases |rows|
  {
    if rows == [] then []
    else
      var init := rows[..|rows| - 1];
      assert forall row <- init :: row in rows;
      Records(init, headers) + match RowData(rows[|rows| - 1], headers) case None => [] case Some(d) => [d]
  }

  /** The registry after the records are stored one after the other, each replacing any earlier one with its code. */
  function Upserted(m: map<string, TransmitterData>, recs: seq<TransmitterData>): map<string, TransmitterData>
    decreases |recs|
  {
    if recs == [] then m
    else
      var last := recs[|recs| - 1];
      Upserted(m, recs[..|recs| - 1])[last.codigoOns := last]
  }

  /** How many of the records were insertions: their code was not yet in the registry when they were stored. */
  function Inserted(m: map<string, TransmitterData>, recs: seq<TransmitterData>): nat
    decreases |recs|
  {
    if recs == [] then 0
    else
      var init := recs[..|recs| - 1];
      Inserted(m, init) + if recs[|recs| - 1].codigoOns in Upserted(m, init) then 0 else 1
  }

  function Codes(recs: seq<TransmitterData>): set<string> {
    set r <- recs :: r.codigoOns
  }

  /** The codes of one more record. */
  lemma CodesSnoc(init: seq<TransmitterData>, d: TransmitterData)
    ensures Codes(init + [d]) == Codes(init) + {d.codigoOns}
  {
    var recs := init + [d];
    forall x <- Codes(recs) ensures x in Codes(init) + {d.codigoOns} {
      var r :| r in recs && r.codigoOns == x;
      var i :| 0 <= i < |recs| && recs[i] == r;
      if i < |init| {
        assert init[i] == r;
      }
    }
    forall x <- Codes(init) + {d.codigoOns} ensures x in Codes(recs) {
      if x in Codes(init) {
        var r :| r in init && r.codigoOns == x;
        assert r in recs;
      } else {
        assert recs[|init|] == d;
      }
    }
  }

  /** The stored codes are the old ones plus the records' codes. */
  lemma {:induction false} UpsertedKeys(m: map<string, TransmitterData>, recs: seq<TransmitterData>)
    ensures Upserted(m, recs).Keys == m.Keys + Codes(recs)
    decreases |recs|
  {
    if recs != [] {
      var init := recs[..|recs| - 1];
      UpsertedKeys(m, init);
      assert recs == init + [recs[|recs| - 1]];
      CodesSnoc(init, recs[|recs| - 1]);
    }
  }

  /** Each record's code holds the last record carrying it. */
  lemma {:induction false} UpsertedLast(m: map<string, TransmitterData>, recs: seq<TransmitterData>, i: int)
    requires 0 <= i < |recs|
    requires forall j | i < j < |recs| :: recs[j].codigoOns != recs[i].codigoOns
    ensures recs[i].codigoOns in Upserted(m, recs) && Upserted(m, recs)[recs[i].codigoOns] == recs[i]
    decreases |recs|
  {
    var init := recs[..|recs| - 1];
    if i < |recs| - 1 {
      assert init[i] == recs[i];
      forall j | i < j < |init| ensures init[j].codigoOns != init[i].codigoOns {
        assert init[j] == recs[j];
      }
      UpsertedLast(m, init, i);
      assert recs[|recs| - 1].codigoOns != recs[i].codigoOns;
    }
  }

  /** A code no record carries keeps its old entry. */
  lemma {:induction false} UpsertedOthers(m: map<string, TransmitterData>, recs: seq<TransmitterData>, k: string)
    requires k in m && k !in Codes(recs)
    ensures k in Upserted(m, recs) && Upserted(m, recs)[k] == m[k]
    decreases |recs|
  {
    if recs != [] {
      var init := recs[..|recs| - 1];
      assert recs == init + [recs[|recs| - 1]];
      CodesSnoc(init, recs[|recs| - 1]);
      UpsertedOthers(m, init, k);
    }
  }

  /**
   * The stored codes are the old ones plus the records' codes; each record's
   * code holds the last record with it, every other code is left alone.
   */
  lemma UpsertedContents(m: map<string, TransmitterData>, recs: seq<TransmitterData>)
    ensures Upserted(m, recs).Keys == m.Keys + Codes(recs)
    ensures forall i | 0 <= i < |recs| && (forall j | i < j < |recs| :: recs[j].codigoOns != recs[i].codigoOns) ::
      Upserted(m, recs)[recs[i].codigoOns] == recs[i]
    ensures forall k <- m | k !in Codes(recs) :: Upserted(m, recs)[k] == m[k]
  {
    UpsertedKeys(m, recs);
    forall i | 0 <= i < |recs| && (forall j | i < j < |recs| :: recs[j].codigoOns != recs[i].codigoOns)
      ensures Upserted(m, recs)[recs[i].codigoOns] == recs[i]
    {
      UpsertedLast(m, recs, i);
    }
    forall k <- m | k !in Codes(recs) ensures Upserted(m, recs)[k] == m[k] {
      UpsertedOthers(m, recs, k);
    }
  }

  /** Storing one more record: the registry gains or replaces its code, and the count grows when the code is new. */
  lemma UpsertStep(m: map<string, TransmitterData>, recs: seq<TransmitterData>, d: TransmitterData)
    ensures Upserted(m, recs + [d]) == Upserted(m, recs)[d.codigoOns := d]
    ensures Inserted(m, recs + [d]) == Inserted(m, recs) + if d.codigoOns in Upserted(m, recs) then 0 else 1
  {
    assert (recs + [d])[..|recs|] == recs;
  }

  /** Upserting never drops a code. */
  lemma {:induction false} UpsertedGrows(m: map<string, TransmitterData>, recs: seq<TransmitterData>)
    ensures m.Keys <= Upserted(m, recs).Keys
    decreases |recs|
  {
    if recs != [] {
      UpsertedGrows(m, recs[..|recs| - 1]);
    }
  }

  /** The codes new with respect to a smaller set grow by one exactly when a fresh code is added. */
  lemma NewKeysStep(old_: set<string>, before: set<string>, c: string)
    requires old_ <= before
    ensures |(before + {c}) - old_| == |before - old_| + if c in before then 0 else 1
  {
    if c in before {
      assert before + {c} == before;
    } else {
      assert (before + {c}) - old_ == (before - old_) + {c};
    }
  }

  /** Storing one more record adds its code to the registry's codes. */
  lemma KeysStep(m: map<string, TransmitterData>, recs: seq<TransmitterData>)
    requires recs != []
    ensures Upserted(m, recs).Keys == Upserted(m, recs[..|recs| - 1]).Keys + {recs[|recs| - 1].codigoOns}
  {
  }

  /** The count of insertions is the number of codes the registry did not hold before. */
  lemma {:induction false} InsertedCountsNewCodes(m: map<string, TransmitterData>, recs: seq<TransmitterData>)
    ensures Inserted(m, recs) == |Upserted(m, recs).Keys - m.Keys|
    decreases |recs|
  {
    if recs != [] {
      var init := recs[..|recs| - 1];
      var c := recs[|recs| - 1].codigoOns;
      InsertedCountsNewCodes(m, init);
      UpsertedGrows(m, init);
      KeysStep(m, recs);
      var before := Upserted(m, init).Keys;
      assert Inserted(m, recs) == Inserted(m, init) + if c in before then 0 else 1;
      NewKeysStep(m.Keys, before, c);
    }
  }

  /** Nothing is inserted when every record's code is already registered; the records then only update. */
  lemma UpdatesOnly(m: map<string, TransmitterData>, recs: seq<TransmitterData>)
    requires Codes(recs) <= m.Keys
    ensures Inserted(m, recs) == 0 && Upserted(m, recs).Keys == m.Keys
  {
    InsertedCountsNewCodes(m, recs);
    UpsertedContents(m, recs);
    assert Upserted(m, recs).Keys - m.Keys == {};
  }

  /** One more row adds its record, if it has one, after the records of the rows before it. */
  lemma RecordsStep(rows: seq<seq<CellValue>>, i: nat, headers: map<string, int>)
    requires i < |rows| && forall row <- rows, v <- row :: v.Stamp? ==> ValidDateTime(v.stamp)
    ensures forall row <- rows[..i + 1], v <- row :: v.Stamp? ==> ValidDateTime(v.stamp)
    ensures forall row <- rows[..i], v <- row :: v.Stamp? ==> ValidDateTime(v.stamp)
    ensures rows[i] in rows
    ensures Records(rows[..i + 1], headers) == Records(rows[..i], headers) +
      match RowData(rows[i], headers) case None => [] case Some(d) => [d]
  {
    assert forall row <- rows[..i + 1] :: row in rows;
    assert forall row <- rows[..i] :: row in rows;
    assert rows[..i + 1][..i] == rows[..i];
  }

  /** The transmitter table, keyed by ONS code. */
  class TransmitterRegistry {
    var byCode: map<string, TransmitterData>

    constructor()
      ensures byCode == map[]
    {
      byCode := map[];
    }

    /**
     * import_transmissoras: refuse a sheet without a code column; otherwise
     * upsert every row that has a code and return how many were inserted.
     */
    method ImportTransmissoras(sheet: Sheet) returns (r: Result<nat, Failure>)
      requires ValidCells(sheet)
      modifies this
      ensures "codigo_ons" !in HeaderIndexes(sheet.header) ==> r == Err(MissingCodeHeader) && byCode == old(byCode)
      ensures "codigo_ons" in HeaderIndexes(sheet.header) ==>
        var recs := Records(sheet.rows, HeaderIndexes(sheet.header));
        r == Ok(Inserted(old(byCode), recs)) && byCode == Upserted(old(byCode), recs)
    {
      var headers := ExtractHeaderIndexes(sheet.header);
      if "codigo_ons" !in headers {
        return Err(MissingCodeHeader);
      }
      var inserted := 0;
      for i := 0 to |sheet.rows|
        invariant forall row <- sheet.rows[..i], v <- row :: v.Stamp? ==> ValidDateTime(v.stamp)
        invariant byCode == Upserted(old(byCode), Records(sheet.rows[..i], headers))
        invariant inserted == Inserted(old(byCode), Records(sheet.rows[..i], headers))
      {
        assert sheet.rows[i] in sheet.rows;
        var data := RowData(sheet.rows[i], headers);
        RecordsStep(sheet.rows, i, headers);
        var recs := Records(sheet.rows[..i], headers);
        if data.Some? {
          UpsertStep(old(byCode), recs, data.value);
          if data.value.codigoOns !in byCode {
            inserted := inserted + 1;
          }
          byCode := byCode[data.value.codigoOns := data.value];
        } else {
          assert recs + [] == recs;
        }
      }
      assert sheet.rows[..|sheet.rows|] == sheet.rows;
      return Ok(inserted);
    }
  }
}

=== FILE: workbook.dfy ===
/**
 * The spreadsheet micro-reader of scripts/import_avd_excel.py: the shared
 * string table (xl/sharedStrings.xml) and the rows of the first worksheet
 * (xl/worksheets/sheet1.xml), read straight from their SpreadsheetML
 * element trees.
 */
module Workbook {
  import opened Results
  import opened Text
  import opened Xml

  const MainNs: string := "http://schemas.openxmlformats.org/spreadsheetml/2006/main"

  const SiTag: QName := QName(MainNs, "si")
  const TTag: QName := QName(MainNs, "t")
  const SheetDataTag: QName := QName(MainNs, "sheetData")
  const RowTag: QName := QName(MainNs, "row")
  const CellTag: QName := QName(MainNs, "c")
  const ValueTag: QName := QName(MainNs, "v")

  /** A populated worksheet row: its number (the row's r attribute) and its cells by column letters. */
  datatype Row = Row(number: int, cells: map<string, string>)

  // ---------------------------------------------------------------------------
  // Shared strings

  /** The texts of the given t elements joined in order, a missing text counting as "". */
  function JoinTexts(ts: seq<Element>): (r: string)
    ensures ts == [] ==> r == ""
  {
    if ts == [] then "" else JoinTexts(ts[..|ts| - 1]) + ts[|ts| - 1].text.GetOr("")
  }

  /** One shared-string entry: every t below the si item, in document order, concatenated. */
  function ItemText(si: Element): string {
    JoinTexts(DescendantsNamed(si, TTag))
  }

  /** The shared-string table: the text of each si child of the root, in document order. */
  function SharedStrings(root: Element): seq<string> {
    var items := ChildrenNamed(root, SiTag);
    seq(|items|, i requires 0 <= i < |items| => ItemText(items[i]))
  }

  /** _parse_shared_strings: one entry per si child of the root, in document order. */
  method ParseSharedStrings(root: Element) returns (values: seq<string>)
    ensures |values| == |ChildrenNamed(root, SiTag)|
    ensures forall i :: 0 <= i < |values| ==> values[i] == ItemText(ChildrenNamed(root, SiTag)[i])
    ensures values == SharedStrings(root)
  {
    var items := ChildrenNamed(root, SiTag);
    values := [];
    var i := 0;
    while i < |items|
      invariant 0 <= i <= |items|
      invariant |values| == i
      invariant forall k :: 0 <= k < i ==> values[k] == ItemText(items[k])
    {
      var nodes := DescendantsNamed(items[i], TTag);
      var joined := "";
      var j := 0;
      while j < |nodes|
        invariant 0 <= j <= |nodes|
        invariant joined == JoinTexts(nodes[..j])
      {
        assert nodes[..j + 1][..j] == nodes[..j];
        joined := joined + nodes[j].text.GetOr("");
        j := j + 1;
      }
      assert nodes[..j] == nodes;
      values := values + [joined];
      i := i + 1;
    }
  }

  // ---------------------------------------------------------------------------
  // Worksheet rows

  /** The row elements: every row child of every sheetData below the root (".//sheetData/row"). */
  function RowElements(root: Element): seq<Element> {
    SelectChildren(DescendantsNamed(root, SheetDataTag), RowTag)
  }

  /** shared_strings[i] with Python's list indexing: negative i counts from the end. */
  function SharedAt(shared: seq<string>, i: int): (r: Result<string, Failure>)
    ensures r.Ok? <==> -|shared| <= i < |shared|
    ensures 0 <= i < |shared| ==> r == Ok(shared[i])
  {
    if 0 <= i < |shared| then Ok(shared[i])
    else if -|shared| <= i < 0 then Ok(shared[|shared| + i])
    else Err(IndexOutOfRange(i))
  }

  /**
   * The value a cell contributes: for a shared-string cell (t="s") the entry
   * its v text indexes, for any other cell the v text itself, and None when
   * there is no v (or, for a plain cell, a v without text).
   */
  function CellValue(cell: Element, shared: seq<string>): (r: Result<Option<string>, Failure>)
    ensures Find(cell, [ValueTag]).None? ==> r == Ok(None)
  {
    var v := Find(cell, [ValueTag]);
    if Attribute(cell, "t") == Some("s") then
      if v.None? then Ok(None)
      else if v.value.text.None? then Err(MissingText)
      else
        var text := v.value.text.value;
        match ParseInt(text)
        case None => Err(InvalidInteger(text))
        case Some(i) =>
          var s :- SharedAt(shared, i);
          Ok(Some(s))
    else if v.None? then Ok(None)
    else Ok(v.value.text)
  }

  /** What one cell files in the row map: its column letters and value, or nothing when it has no value. */
  function CellEntry(cell: Element, shared: seq<string>): Result<Option<(string, string)>, Failure> {
    if "r" !in cell.attributes then Err(MissingKey("r"))
    else
      match CellValue(cell, shared)
      case Err(e) => Err(e)
      case Ok(value) => Ok(if value.Some? then Some((Letters(cell.attributes["r"]), value.value)) else None)
  }

  function CellEntries(cells: seq<Element>, shared: seq<string>): (r: seq<Result<Option<(string, string)>, Failure>>)
    ensures |r| == |cells|
  {
    seq(|cells|, i requires 0 <= i < |cells| => CellEntry(cells[i], shared))
  }

  /** The map filled by the entries one after the other: later entries overwrite, the first failure is the result. */
  function Fill(entries: seq<Result<Option<(string, string)>, Failure>>): Result<map<string, string>, Failure> {
    if entries == [] then Ok(map[])
    else
      match Fill(entries[..|entries| - 1])
      case Err(e) => Err(e)
      case Ok(m) =>
        match entries[|entries| - 1]
        case Err(e) => Err(e)
        case Ok(entry) => Ok(if entry.Some? then m[entry.value.0 := entry.value.1] else m)
  }

  /** The row_map of a row's cells. */
  function RowMap(cells: seq<Element>, shared: seq<string>): Result<map<string, string>, Failure> {
    Fill(CellEntries(cells, shared))
  }

  /** The row a row element yields from its row map: none when no cell is populated, else its number and cells. */
  function RowOf(row: Element, m: map<string, string>): (r: Result<Option<Row>, Failure>)
    ensures r.Ok? && r.value.Some? ==> r.value.value.cells == m && m != map[]
  {
    if m == map[] then Ok(None)
    else if "r" !in row.attributes then Err(MissingKey("r"))
    else
      match ParseInt(row.attributes["r"])
      case None => Err(InvalidInteger(row.attributes["r"]))
      case Some(n) => Ok(Some(Row(n, m)))
  }

  function RowEntry(row: Element, shared: seq<string>): (r: Result<Option<Row>, Failure>)
    ensures r.Ok? && r.value.Some? ==> r.value.value.cells != map[]
  {
    match RowMap(ChildrenNamed(row, CellTag), shared)
    case Err(e) => Err(e)
    case Ok(m) => RowOf(row, m)
  }

  /** The rows gathered from per-row outcomes, in order: the first failure is the result. */
  function Collect(entries: seq<Result<Option<Row>, Failure>>): (r: Result<seq<Row>, Failure>)
    ensures r.Ok? ==> |r.value| <= |entries|
  {
    if entries == [] then Ok([])
    else
      match Collect(entries[..|entries| - 1])
      case Err(e) => Err(e)
      case Ok(done) =>
        match entries[|entries| - 1]
        case Err(e) => Err(e)
        case Ok(entry) => Ok(if entry.Some? then done + [entry.value] else done)
  }

  /** The outcome of each row element. */
  function Entries(rows: seq<Element>, shared: seq<string>): (r: seq<Result<Option<Row>, Failure>>)
    ensures |r| == |rows|
  {
    seq(|rows|, i requires 0 <= i < |rows| => RowEntry(rows[i], shared))
  }

  /** _parse_sheet's result for the given row elements, in order. */
  function SheetRows(rows: seq<Element>, shared: seq<string>): (r: Result<seq<Row>, Failure>)
    ensures r.Ok? ==> |r.value| <= |rows|
  {
    Collect(Entries(rows, shared))
  }

  /** A failure among the first outcomes is the overall failure. */
  lemma {:induction false} CollectPrefixErr(entries: seq<Result<Option<Row>, Failure>>, k: nat)
    requires k <= |entries| && Collect(entries[..k]).Err?
    ensures Collect(entries) == Collect(entries[..k])
    decreases |entries| - k
  {
    if k < |entries| {
      var next := entries[..k + 1];
      assert next[..k] == entries[..k];
      CollectPrefixErr(entries, k + 1);
    } else {
      assert entries[..k] == entries;
    }
  }

  lemma {:induction false} FillPrefixErr(entries: seq<Result<Option<(string, string)>, Failure>>, k: nat)
    requires k <= |entries| && Fill(entries[..k]).Err?
    ensures Fill(entries) == Fill(entries[..k])
    decreases |entries| - k
  {
    if k < |entries| {
      var next := entries[..k + 1];
      assert next[..k] == entries[..k];
      FillPrefixErr(entries, k + 1);
    } else {
      assert entries[..k] == entries;
    }
  }

  /** The value of one cell, as the inner loop of _parse_sheet reads it. */
  method ReadCellValue(cell: Element, shared: seq<string>) returns (r: Result<Option<string>, Failure>)
    ensures r == CellValue(cell, shared)
  {
    var v := Find(cell, [ValueTag]);
    if Attribute(cell, "t") == Some("s") {
      if v.None? {
        return Ok(None);
      }
      if v.value.text.None? {
        return Err(MissingText);
      }
      var index := ParseInt(v.value.text.value);
      if index.None? {
        return Err(InvalidInteger(v.value.text.value));
      }
      var k := index.value;
      if k < -|shared| || k >= |shared| {
        return Err(IndexOutOfRange(k));
      }
      r := Ok(Some(if k < 0 then shared[|shared| + k] else shared[k]));
    } else if v.Some? {
      r := Ok(v.value.text);
    } else {
      r := Ok(None);
    }
  }

  /** The inner loop of _parse_sheet: the row map of one row's cells. */
  method ParseRowCells(cells: seq<Element>, shared: seq<string>) returns (r: Result<map<string, string>, Failure>)
    ensures r == RowMap(cells, shared)
  {
    ghost var entries := CellEntries(cells, shared);
    var rowMap: map<string, string> := map[];
    var j := 0;
    while j < |cells|
      invariant 0 <= j <= |cells|
      invariant Fill(entries[..j]) == Ok(rowMap)
    {
      var cell := cells[j];
      assert entries[..j + 1][..j] == entries[..j];
      assert entries[j] == CellEntry(cell, shared);
      if "r" !in cell.attributes {
        FillPrefixErr(entries, j + 1);
        return Err(MissingKey("r"));
      }
      var column := Letters(cell.attributes["r"]);
      var value := ReadCellValue(cell, shared);
      if value.Err? {
        FillPrefixErr(entries, j + 1);
        return Err(value.error);
      }
      if value.value.Some? {
        rowMap := rowMap[column := value.value.value];
      }
      j := j + 1;
    }
    assert entries[..j] == entries;
    r := Ok(rowMap);
  }

  /** _parse_sheet: the populated rows of every ".//sheetData/row" element, in document order. */
  method ParseSheet(root: Element, shared: seq<string>) returns (r: Result<seq<Row>, Failure>)
    ensures r == SheetRows(RowElements(root), shared)
  {
    var rowElements := RowElements(root);
    ghost var entries := Entries(rowElements, shared);
    var rows: seq<Row> := [];
    var i := 0;
    while i < |rowElements|
      invariant 0 <= i <= |rowElements|
      invariant Collect(entries[..i]) == Ok(rows)
    {
      var row := rowElements[i];
      assert entries[..i + 1][..i] == entries[..i];
      assert entries[i] == RowEntry(row, shared);
      var rowMap := ParseRowCells(ChildrenNamed(row, CellTag), shared);
      if rowMap.Err? {
        CollectPrefixErr(entries, i + 1);
        return Err(rowMap.error);
      }
      if rowMap.value != map[] {
        if "r" !in row.attributes {
          CollectPrefixErr(entries, i + 1);
          return Err(MissingKey("r"));
        }
        var number := ParseInt(row.attributes["r"]);
        if number.None? {
          CollectPrefixErr(entries, i + 1);
          return Err(InvalidInteger(row.attributes["r"]));
        }
        rows := rows + [Row(number.value, rowMap.value)];
      }
      i := i + 1;
    }
    assert entries[..i] == entries;
    r := Ok(rows);
  }

  // ---------------------------------------------------------------------------
  // Properties of the rows

  /** The cell value of a shared-string cell whose v holds a valid index is that shared string. */
  lemma SharedCellValue(cell: Element, shared: seq<string>, v: Element)
    requires Attribute(cell, "t") == Some("s") && Find(cell, [ValueTag]) == Some(v)
    requires v.text.Some? && ParseInt(v.text.value).Some?
    requires 0 <= ParseInt(v.text.value).value < |shared|
    ensures CellValue(cell, shared) == Ok(Some(shared[ParseInt(v.text.value).value]))
  {
  }

  /** Any other cell with a v keeps the v text verbatim. */
  lemma PlainCellValue(cell: Element, shared: seq<string>, v: Element)
    requires Attribute(cell, "t") != Some("s") && Find(cell, [ValueTag]) == Some(v)
    ensures CellValue(cell, shared) == Ok(v.text)
  {
  }

  /** The entry files the given value under the given column. */
  predicate Files(entry: Result<Option<(string, string)>, Failure>, column: string) {
    entry.Ok? && entry.value.Some? && entry.value.value.0 == column
  }

  /**
   * In a successfully filled map, a column is present exactly when some entry
   * files a value under it, and it holds the value of the last such entry.
   */
  lemma {:induction false} FillLastWins(entries: seq<Result<Option<(string, string)>, Failure>>, column: string)
    requires Fill(entries).Ok?
    ensures column in Fill(entries).value <==> exists k :: 0 <= k < |entries| && Files(entries[k], column)
    ensures column in Fill(entries).value ==>
              exists k :: && 0 <= k < |entries| && Files(entries[k], column)
                          && entries[k].value.value.1 == Fill(entries).value[column]
                          && forall k' :: k < k' < |entries| ==> !Files(entries[k'], column)
  {
    if entries != [] {
      var init := entries[..|entries| - 1];
      var last := entries[|entries| - 1];
      var m := Fill(init).value;
      FillLastWins(init, column);
      assert forall k :: 0 <= k < |init| ==> entries[k] == init[k];
      if Files(last, column) {
        assert Fill(entries).value == m[column := last.value.value.1];
      } else if last.value.Some? {
        assert Fill(entries).value == m[last.value.value.0 := last.value.value.1];
      } else {
        assert Fill(entries).value == m;
      }
    }
  }

  /** The cell has a value, and the letters of its reference name the given column. */
  predicate FilesUnder(cell: Element, column: string, shared: seq<string>) {
    && "r" in cell.attributes && Letters(cell.attributes["r"]) == column
    && CellValue(cell, shared).Ok? && CellValue(cell, shared).value.Some?
  }

  /**
   * In a successfully built row map, a column is present exactly when some
   * cell with a value has that column's letters in its reference, and it
   * holds the value of the last such cell.
   */
  lemma RowMapLastWins(cells: seq<Element>, shared: seq<string>, column: string)
    requires RowMap(cells, shared).Ok?
    ensures column in RowMap(cells, shared).value <==>
              exists k :: 0 <= k < |cells| && FilesUnder(cells[k], column, shared)
    ensures column in RowMap(cells, shared).value ==>
              exists k :: && 0 <= k < |cells| && FilesUnder(cells[k], column, shared)
                          && CellValue(cells[k], shared).value == Some(RowMap(cells, shared).value[column])
                          && forall k' :: k < k' < |cells| ==> !FilesUnder(cells[k'], column, shared)
  {
    var entries := CellEntries(cells, shared);
    FillLastWins(entries, column);
    forall k | 0 <= k < |cells|
      ensures Files(entries[k], column) <==> FilesUnder(cells[k], column, shared)
      ensures Files(entries[k], column) ==> CellValue(cells[k], shared).value == Some(entries[k].value.value.1)
    {
      assert entries[k] == CellEntry(cells[k], shared);
    }
  }

  lemma {:induction false} CollectAppend(a: seq<Result<Option<Row>, Failure>>, b: seq<Result<Option<Row>, Failure>>)
    requires Collect(a).Ok? && Collect(b).Ok?
    ensures Collect(a + b) == Ok(Collect(a).value + Collect(b).value)
  {
    if b == [] {
      assert a + b == a;
      assert Collect(a).value + [] == Collect(a).value;
    } else {
      var init := b[..|b| - 1];
      var ab := a + b;
      assert ab[..|ab| - 1] == a + init;
      assert ab[|ab| - 1] == b[|b| - 1];
      CollectAppend(a, init);
      var ra, rb := Collect(a).value, Collect(init).value;
      if b[|b| - 1].value.Some? {
        assert ra + (rb + [b[|b| - 1].value.value]) == (ra + rb) + [b[|b| - 1].value.value];
      }
    }
  }

  /** Reading the row elements of two consecutive parts gives the rows of the first part, then those of the second. */
  lemma SheetRowsAppend(a: seq<Element>, b: seq<Element>, shared: seq<string>)
    requires SheetRows(a, shared).Ok? && SheetRows(b, shared).Ok?
    ensures SheetRows(a + b, shared) == Ok(SheetRows(a, shared).value + SheetRows(b, shared).value)
  {
    assert Entries(a + b, shared) == Entries(a, shared) + Entries(b, shared);
    CollectAppend(Entries(a, shared), Entries(b, shared));
  }

  /** A single row element yields its number and cell map when some cell is populated, and nothing otherwise. */
  lemma SheetRowsSingle(row: Element, shared: seq<string>)
    requires RowMap(ChildrenNamed(row, CellTag), shared).Ok?
    ensures var m := RowMap(ChildrenNamed(row, CellTag), shared).value;
            m == map[] ==> SheetRows([row], shared) == Ok([])
    ensures var m := RowMap(ChildrenNamed(row, CellTag), shared).value;
            m != map[] && "r" in row.attributes && ParseInt(row.attributes["r"]).Some? ==>
              SheetRows([row], shared) == Ok([Row(ParseInt(row.attributes["r"]).value, m)])
  {
    var entries := Entries([row], shared);
    assert entries == [RowEntry(row, shared)];
    assert entries[..0] == [];
    assert Collect(entries[..0]) == Ok([]);
    assert entries[|entries| - 1] == RowEntry(row, shared);
    var m := RowMap(ChildrenNamed(row, CellTag), shared).value;
    assert RowEntry(row, shared) == RowOf(row, m);
    if m != map[] && "r" in row.attributes && ParseInt(row.attributes["r"]).Some? {
      var x := Row(ParseInt(row.attributes["r"]).value, m);
      assert RowOf(row, m) == Ok(Some(x));
      assert Collect(entries) == Ok([] + [x]);
      assert [] + [x] == [x];
    }
  }

  lemma {:induction false} CollectPopulated(entries: seq<Result<Option<Row>, Failure>>)
    requires Collect(entries).Ok?
    requires forall e <- entries :: e.Ok? && e.value.Some? ==> e.value.value.cells != map[]
    ensures forall row <- Collect(entries).value :: row.cells != map[]
  {
    if entries != [] {
      var init := entries[..|entries| - 1];
      assert forall e <- init :: e in entries;
      CollectPopulated(init);
    }
  }

  /** Every emitted row has at least one populated cell. */
  lemma SheetRowsPopulated(rows: seq<Element>, shared: seq<string>)
    requires SheetRows(rows, shared).Ok?
    ensures forall row <- SheetRows(rows, shared).value :: row.cells != map[]
  {
    CollectPopulated(Entries(rows, shared));
  }
}

=== FILE: xml.dfy ===
/**
 * An already-parsed XML document as ElementTree holds it (qualified name,
 * attributes, text, children), and the part of ElementTree's path language
 * the importers use: "ns:tag" child steps joined by '/', and ".//ns:tag"
 * for all descendants.
 */
module Xml {
  import opened Results

  /** A tag in Clark notation: the namespace URI and the local name. */
  datatype QName = QName(ns: string, local: string)

  datatype Element = Element(
    name: QName,
    attributes: map<string, string>,
    text: Option<string>,
    children: seq<Element>)

  /** elem.attrib.get(key) */
  function Attribute(e: Element, key: string): (r: Option<string>)
    ensures r.Some? <==> key in e.attributes
    ensures r.Some? ==> r.value == e.attributes[key]
  {
    if key in e.attributes then Some(e.attributes[key]) else None
  }

  /** The children of e carrying the given name, in document order. */
  function ChildrenNamed(e: Element, name: QName): (r: seq<Element>)
    ensures |r| <= |e.children|
  {
    Named(e.children, name)
  }

  /** The elements of es carrying the given name, in order. */
  function Named(es: seq<Element>, name: QName): (r: seq<Element>)
    ensures |r| <= |es|
  {
    if es == [] then []
    else (if es[0].name == name then [es[0]] else []) + Named(es[1..], name)
  }

  /** Named keeps exactly the elements with the given name, and nothing else. */
  lemma {:induction false} NamedMembers(es: seq<Element>, name: QName)
    ensures forall c <- Named(es, name) :: c in es && c.name == name
    ensures forall c <- es :: c.name == name ==> c in Named(es, name)
  {
    if es != [] {
      NamedMembers(es[1..], name);
      assert es == [es[0]] + es[1..];
    }
  }

  /** One child step applied to every element of es: their matching children, in order. */
  function SelectChildren(es: seq<Element>, name: QName): seq<Element> {
    if es == [] then [] else ChildrenNamed(es[0], name) + SelectChildren(es[1..], name)
  }

  /** elem.findall("a/b/c"): the child steps applied one after the other. */
  function FindAll(e: Element, path: seq<QName>): seq<Element> {
    if path == [] then [e] else SelectChildren(FindAll(e, path[..|path| - 1]), path[|path| - 1])
  }

  /** elem.find("a/b/c"): the first element findall would return, or None. */
  function Find(e: Element, path: seq<QName>): (r: Option<Element>)
    ensures r.None? <==> FindAll(e, path) == []
    ensures r.Some? ==> r.value == FindAll(e, path)[0]
  {
    var all := FindAll(e, path);
    if all == [] then None else Some(all[0])
  }

  /** elem.find("tag") for a single child step: the first child with that name. */
  lemma FindChild(e: Element, name: QName)
    ensures Find(e, [name]) == if ChildrenNamed(e, name) == [] then None else Some(ChildrenNamed(e, name)[0])
  {
    assert [name][..0] == [];
    assert FindAll(e, [name]) == SelectChildren([e], name);
    assert SelectChildren([e], name) == ChildrenNamed(e, name) + SelectChildren([], name);
  }

  /** Every element strictly below e, in document (pre-)order, as e.iter() yields them after e. */
  function Descendants(e: Element): seq<Element>
    decreases e, 1
  {
    DescendantsOf(e.children)
  }

  /** The elements of the subtrees rooted at cs, in document order. */
  function DescendantsOf(cs: seq<Element>): seq<Element>
    decreases cs, 0
  {
    if cs == [] then [] else [cs[0]] + Descendants(cs[0]) + DescendantsOf(cs[1..])
  }

  /** elem.iterfind(".//tag"): the descendants of e with that name, in document order. */
  function DescendantsNamed(e: Element, name: QName): seq<Element> {
    Named(Descendants(e), name)
  }

  /** Every child of e is among its descendants. */
  lemma ChildrenAreDescendants(e: Element)
    ensures forall c <- e.children :: c in Descendants(e)
  {
    ChildrenAreDescendantsOf(e.children);
  }

  lemma {:induction false} ChildrenAreDescendantsOf(cs: seq<Element>)
    ensures forall c <- cs :: c in DescendantsOf(cs)
  {
    if cs != [] {
      ChildrenAreDescendantsOf(cs[1..]);
      forall c <- cs ensures c in DescendantsOf(cs) {
        if c != cs[0] {
          assert c in cs[1..];
        }
      }
    }
  }
}
